=== FILE: README.md ===
# A verified model of the math-map level-test services

This project models, in Dafny, the logic of the math-map project: its level tests, grading and
statistics. Storage, the language model and the clock are treated as inputs.

**The adaptive test session engine.** A session starts at question index 0 on difficulty Medium.
Each submitted answer is graded by exact match, appended to the session, and advances the
index. After three answers the session finishes with a report. Before that, the difficulty
moves one rung on the Easy/Medium/Hard ladder and an unseen question is fetched.

**The pieces around the engine:**
- question selection: a batch of twenty matches, the legacy-id check, the exclusion list, and generation as the fallback;
- the one-shot grading route (`submit_and_analyze`):
  - answer normalisation;
  - grading;
  - explanation caching;
  - the weakness analysis;
  - error classification;
- the problem-bank lookups and the explanation cache;
- the clean-up of the language model's solution text;
- the Wix member webhook;
- the per-user statistics;
- the curriculum navigator's slugs, data normalisation and exam ordering;
- the LaTeX clean-up and grade-level migration scripts;
- the front-end timer state and formatters, and the stand-alone test page's timer;
- the Wix page's retry policy;
- the Jira client's pure helpers.

**How the outside world is modelled.** Firestore collections are maps or insertion-ordered
association lists (`ODict`). A query's order is the store's order. The language model is an
oracle: it returns a text, no text, or a raised message (`Llm.LlmReply`). Random choice, the
clock, generated ids, the HMAC digest comparison and Firebase Auth outcomes are parameters.

**Modules:**
- `Json`: Python values and truthiness.
- `Text`, `Decimal`: whitespace sets, ASCII case, and the decimal round trip.
- `ODict`: dictionaries that keep insertion order.
- `Tally`: the per-key counters the reports build.
- One module per source component.

## Model

| member | source | states |
|---|---|---|
| Adaptive.StartTest | backend/services/adaptive_test_service.py:11-39 | A new session is stored under the fresh id at index 0 with no answers, difficulty Medium and not finished. Other sessions are untouched. A context without `system` fails. The first question goes out without its answer-revealing fields. |
| Adaptive.Sanitize | backend/services/adaptive_test_service.py:194-203 | The copy has exactly the question's keys minus `correct_answer`, `explanation` and `created_at`. Every other value is unchanged. |
| Adaptive.Grade | backend/services/adaptive_test_service.py:56-67 | The record is correct exactly when the stored `correct_answer` equals the submitted string. A question without `correct_answer` or `difficulty` is an error (Python's KeyError). |
| Adaptive.AnsweredIds | backend/services/adaptive_test_service.py:87 | The excluded ids are the answered question ids, one per record, in order. |
| Adaptive.Record | backend/services/adaptive_test_service.py:69-70 | Exactly one record is appended and the index grows by one. Nothing else changes. |
| Adaptive.Advance | backend/services/adaptive_test_service.py:69-84 | Reaching three answers finishes the session and keeps the difficulty. Otherwise the difficulty takes one ladder step by correctness. |
| Adaptive.AdvanceConsistent | backend/services/adaptive_test_service.py:69-70 | `index == |answers|` is preserved by every answer. |
| Adaptive.SubmitAnswer | backend/services/adaptive_test_service.py:45-100 | An unknown session, an unknown question or an ungradable question fails, and the store is unchanged. A next question goes out without `correct_answer`, `explanation` or `created_at`. |
| Adaptive.SubmitStep | backend/services/adaptive_test_service.py:61-100 | After a successful lookup and grading:<br>• the session is replaced by its advanced form;<br>• every other session is untouched;<br>• a success is the report exactly when the index reached three;<br>• the index invariant is kept. |
| Adaptive.SubmitWrites | backend/services/adaptive_test_service.py:69-84 | The stored sessions are the old ones with this session advanced. |
| Adaptive.SubmitReports | backend/services/adaptive_test_service.py:73-100 | A successful submit reports results exactly when the index reached the limit. |
| Adaptive.SubmitNextUnseen | backend/services/adaptive_test_service.py:84-100 | Before the limit, with an unseen usable question in the batch, the next question is served, nothing but the session is written, and its id is neither an answered id nor the one just answered. |
| Adaptive.SubmitAfterFinish | backend/services/adaptive_test_service.py:69-79 | A submit to a finished session still appends a record, stays finished, and reports again. No guard stops it. |
| Adaptive.ThreeAnswers | backend/services/adaptive_test_service.py:9-84 | From a fresh session three answers finish the test. The final difficulty is the one two ladder steps from Medium. |
| Adaptive.ReviewWrites | backend/services/adaptive_test_service.py:129-145 | Only an incorrect answer whose question exists and lacks a truthy explanation gets a generated explanation written back. Every other document is untouched. |
| Adaptive.Walk | backend/services/adaptive_test_service.py:129-161 | The history has one entry per answer, in order, with its id and correctness. The walk fails exactly when some topic is unhashable. |
| Adaptive.WalkTally | backend/services/adaptive_test_service.py:155-161 | The topic table is the per-topic tally of the answers' (topic, correct) marks. |
| Adaptive.Accuracy | backend/services/adaptive_test_service.py:166 | The accuracy is `int(100*correct/total)`: the truncated percentage, at most 100. |
| Adaptive.TopicLines | backend/services/adaptive_test_service.py:164-171 | There is one line per topic, in table order, with its total and its accuracy: the truncated percentage of its correct count. |
| Adaptive.TopicAccuracy | backend/services/adaptive_test_service.py:155-171 | A report line's total is the number of answers on its topic, and its accuracy the floor of 100 times the correct ones over that total. |
| Adaptive.CalculateResults | backend/services/adaptive_test_service.py:114-192 | The score is the number of correct answers and the total is 3. `score_percent` is the truncated `100*score/3`. There is one history entry per answer. The topic lines are those of the answers' per-topic tally. The course is the system followed by " Math". |
| Adaptive.ReportTotals | backend/services/adaptive_test_service.py:155-171 | The topic totals add up to the number of answers, and the score counts the correct ones. |
| Difficulty.NextDifficulty | backend/services/adaptive_test_service.py:102-112 | A correct answer moves one rung up, clamped at Hard. A wrong one moves one rung down, clamped at Easy. An unknown level counts as Medium. The result is always on the ladder. |
| Difficulty.Rung | backend/services/adaptive_test_service.py:103-107 | A known level keeps its position. Any other string stands on Medium's rung. |
| Difficulty.StepDirection | backend/services/adaptive_test_service.py:109-112 | A correct answer never lowers the rung and a wrong one never raises it. Hard and Easy are fixed points. |
| Difficulty.StepMonotone | backend/services/adaptive_test_service.py:102-112 | A higher starting rung never ends lower. |
| Difficulty.ClampedTrails | backend/services/adaptive_test_service.py:102-112 | Two correct answers from Medium reach Hard and stay there. Two wrong ones reach Easy and stay there. |
| QuestionService.Filter | backend/services/question_service.py:24-30 | The kept documents are exactly those matching system, grade and difficulty, and the topic only when one is given. |
| QuestionService.Query | backend/services/question_service.py:24-34 | At most 20 documents are read, all of them matching. |
| QuestionService.Candidates | backend/services/question_service.py:36-48 | Every candidate carries an id that contains '_' and is not excluded. |
| QuestionService.CandidateFromBatch | backend/services/question_service.py:36-48 | Every candidate is a batch document tagged with its own usable id. |
| QuestionService.CandidatesEmpty | backend/services/question_service.py:36-50 | There are no candidates exactly when no batch document is usable. |
| QuestionService.GetQuestion | backend/services/question_service.py:16-55 | With a usable document in the batch, one of the batch's candidates is returned and nothing is written. Otherwise the question is generated and stored under its id, and every other stored document is untouched. A returned id always contains '_'. |
| QuestionService.BeyondBatchUnseen | backend/services/question_service.py:34-55 | Unseen matches beyond the 20-document batch never prevent generation. |
| QuestionService.StripFences | backend/services/question_service.py:90-94 | The two cuts are independent: a leading "```json" is cut when present, and then a trailing "```" is cut when present. That gives four cases: both, only the leading one, only the trailing one, or neither, which keeps the text. |
| QuestionService.FenceRoundTrip | backend/services/question_service.py:90-94 | A fenced reply loses exactly its two fences. |
| QuestionService.BareFenceKept | backend/services/question_service.py:91-94 | A bare leading "```" is not removed. |
| QuestionService.Stamped | backend/services/question_service.py:98-102 | `curriculum_system`, `grade` and `difficulty` equal the request and `created_at` is the server time. Other fields are kept. |
| QuestionService.SafeTopic | backend/services/question_service.py:107 | Only alphanumeric characters remain, and every alphanumeric character of the topic survives. |
| QuestionService.SafeTopicIdempotent | backend/services/question_service.py:107 | Sanitising twice is sanitising once. |
| QuestionService.SafeTopicAppend | backend/services/question_service.py:107 | The filter goes character by character in order: a split of the topic splits the result. |
| QuestionService.SafeTopicChar | backend/services/question_service.py:107 | One character is kept exactly when it is alphanumeric. |
| QuestionService.JoinAlnum | backend/services/question_service.py:107 | A list topic fails exactly when some element is not a string. Otherwise the result holds only alphanumeric characters. |
| QuestionService.SafeTopicOf | backend/services/question_service.py:107 | A string topic is filtered by character. A list is filtered by element. Anything else raises. |
| QuestionService.ListTopicWord | backend/services/question_service.py:107 | `["Algebra"]` gives "Algebra". |
| QuestionService.ListTopicDrops | backend/services/question_service.py:107 | An element that is not one alphanumeric word is dropped whole: `["Algebra 2", "Equations"]` gives "Equations". |
| QuestionService.ListTopicRaises | backend/services/question_service.py:107 | A list holding a number raises. |
| QuestionService.DocId | backend/services/question_service.py:107-109 | The id is `system_grade_…_seconds`. It contains '_', so it passes the legacy-id check. |
| QuestionService.GeneratedIdTime | backend/services/question_service.py:108-109 | The digits after the last '_' read back as the generation time. |
| QuestionService.GenerateQuestion | backend/services/question_service.py:87-120 | A generated question has a '_' id and the requested metadata. A model failure or unparsable JSON is raised again. So is a topic that cannot be iterated into a string. |
| QuestionService.TextOrFallback | backend/services/question_service.py:133-138 | Generating an explanation or summary never raises. A reply gives its stripped text. A failure gives the fixed fallback. |
| Grading.ProblemOf | backend/services/grading_service.py:26 | A missing problem reads as all fields None. |
| Grading.GradeOne | backend/services/grading_service.py:26-39 | A result copies the id, the answer, the stored answer and the category. It is correct exactly when the stored answer is truthy and equal to the given one. |
| Grading.WrongCategories | backend/services/grading_service.py:43-44 | A value is listed exactly when some incorrect result carries it as a truthy category. |
| Grading.WrongCategoriesOne | backend/services/grading_service.py:43-44 | One result contributes its category exactly when it is incorrect and the category is truthy. |
| Grading.WrongCategoriesAppend | backend/services/grading_service.py:43-44 | The list is a filter in result order: a split of the results splits the list. |
| Grading.GradeAnswers | backend/services/grading_service.py:22-49 | There is one result per answer, in input order. The wrong categories are those of the results. |
| Grading.NoKeyNoCredit | backend/services/grading_service.py:29 | A missing problem, or one without a truthy answer, never credits an answer. |
| Problems.WithDifficulty | backend/services/problem_service.py:25-27 | The kept documents are exactly the stored ones of the requested difficulty. |
| Problems.Tagged | backend/services/problem_service.py:31-36 | Empty documents are skipped, and each kept one is tagged with its id. |
| Problems.TaggedOne | backend/services/problem_service.py:33-36 | One document is kept, tagged with its id, exactly when it is not empty. |
| Problems.TaggedAppend | backend/services/problem_service.py:31-36 | The batch is read in store order: tagging a concatenation gives the concatenation of the tagged parts. |
| Problems.TaggedKeeps | backend/services/problem_service.py:31-36 | Every non-empty document of the batch appears in the result, tagged with its own id. |
| Problems.GetTestProblems | backend/services/problem_service.py:25-39 | At most `limit` non-empty documents of the difficulty are returned, each tagged with its id. |
| Problems.GetTestProblemsComplete | backend/services/problem_service.py:25-36 | Every non-empty document among the first `limit` matches of the difficulty is returned, tagged with its id. |
| Problems.View | backend/services/problem_service.py:70-76 | `text_latex` becomes `text`, `solution_step_by_step` becomes `solution` and `curriculum_category` becomes `category`. The answer and explanation are kept. |
| Problems.GetProblemsByIds | backend/services/problem_service.py:63-79 | There is an entry exactly for each requested id whose document exists and is not empty. |
| Problems.GetExplanation | backend/services/problem_service.py:95-111 | The explanation is returned exactly when the document exists and its explanation is truthy. |
| Problems.CacheExplanationAsWritten | backend/services/problem_service.py:124-135 | As written, the cache write always fails and changes nothing. |
| Problems.CacheExplanation | backend/services/problem_service.py:124-135 | For an existing document the explanation is overwritten and True is reported. A missing document gives False. Other documents are untouched. |
| Problems.CacheThenGet | backend/services/problem_service.py:95-135 | A cached non-empty explanation is what the next lookup returns. |
| Problems.CacheNeverWrites | backend/services/problem_service.py:126-129 | For the same existing document the intended write succeeds and the written one never does. |
| AiService.ReplaceBr | backend/services/ai_service.py:74 | The text never grows. |
| AiService.ReplaceBrChars | backend/services/ai_service.py:74 | The only character the replacement can add is a newline. |
| AiService.ReplaceBrNoAngle | backend/services/ai_service.py:74 | Text without '<' is unchanged. |
| AiService.ReplaceBrPrefix | backend/services/ai_service.py:74 | The scan runs left to right: a stretch without '<' is copied and the rest is scanned after it. |
| AiService.BrPlain | backend/services/ai_service.py:74 | `<br>` and `<br/>` each become one newline. |
| AiService.BrSpaced | backend/services/ai_service.py:74 | White space may stand between `<br` and `/>`. |
| AiService.LeadingBr | backend/services/ai_service.py:74 | A `<br>` at the front becomes one newline and a rest without '<' is kept. |
| AiService.StripTagsTagFree | backend/services/ai_service.py:75 | No `<…>` tag survives tag removal. |
| AiService.StripTagsChars | backend/services/ai_service.py:75 | Tag removal only deletes characters. |
| AiService.StripTagsNoAngle | backend/services/ai_service.py:75 | Text without '<' has no tag to remove. |
| AiService.CollapseHead | backend/services/ai_service.py:78 | A leading run of three or more newlines becomes exactly two. Shorter runs stay. |
| AiService.CollapseNoTriple | backend/services/ai_service.py:78 | After the collapse, no three newlines stand in a row. |
| AiService.CollapseChars | backend/services/ai_service.py:78 | The collapse only deletes characters. |
| AiService.CollapseTagFree | backend/services/ai_service.py:75-78 | Capping newline runs keeps tag-free text tag-free. |
| AiService.CollapseKeeps | backend/services/ai_service.py:78 | Text without three newlines in a row is left alone. |
| AiService.CleanSolution | backend/services/ai_service.py:71-78 | The cleaned solution contains no `<…>` tag and never three newlines in a row. |
| AiService.CleanLineBreak | backend/services/ai_service.py:71-78 | Between two texts with no '<' and no newline, and no white space at the outer ends, a `<br>` comes out of the clean-up as exactly one newline. |
| AiService.MakeSolutionRequest | backend/services/ai_service.py:17-28 | The stored solution goes into the prompt exactly when it is truthy. |
| AiService.GenerateSolution | backend/services/ai_service.py:58-103 | A non-empty reply gives its cleaned text, tag-free and without three newlines in a row. No text gives the fixed notice. An exception gives the fixed prefix plus its message. |
| AiService.Split | backend/services/ai_service.py:120-138 | Minutes and seconds are Python's `//` and `%` by 60: `60*m + s` is the amount and `0 <= s < 60`. |
| AiService.SplitNegative | backend/services/ai_service.py:136-138 | A negative saved amount floors its minutes: -30 s is -1 min 30 s. |
| AiService.MakeTimeContext | backend/services/ai_service.py:114-145 | Absent fields take their defaults. Overtime shows total minus limit, otherwise limit minus total, each split the same way. |
| AiService.AnalyzeWeakness | backend/services/ai_service.py:105-172 | An empty category list gives the congratulation text without a model call. Otherwise the request carries the categories and, when time data came, its `MakeTimeContext` summary. The result is the non-empty reply text, the no-text notice for a missing or empty reply, or the error prefix plus the exception text. |
| AiService.AnalysisTimeOnlyInRequest | backend/services/ai_service.py:114-168 | Time data shapes only the prompt: the returned text is the same with or without it, and the summary sent reads back as the seconds spent and the overtime flag. |
| Routes.ClassifyError | backend/routes/api_routes.py:210-219 | On the lower-cased message the first keyword group that matches decides: timeout, network, unavailable, else server error. |
| Routes.ClassifyIgnoresCase | backend/routes/api_routes.py:210 | Classification does not depend on letter case. |
| Routes.TimeoutBeatsConnection | backend/routes/api_routes.py:211-216 | "connection timeout" is a timeout, because the first match wins. |
| Routes.ServiceIsUnavailable | backend/routes/api_routes.py:217-219 | "service" alone is classified as unavailable. |
| Routes.NormalizeFrom | backend/routes/api_routes.py:90-95 | The list is folded without error exactly when no item raises. |
| Routes.NormalizeFromLast | backend/routes/api_routes.py:92-94 | Later items overwrite earlier ones, so each key ends with the answer of its last item. |
| Routes.NormalizeFromDistinct | backend/routes/api_routes.py:91-95 | The folded dict never holds a key twice. |
| Routes.NormalizeAnswers | backend/routes/api_routes.py:89-97 | An object is kept entry for entry. Anything other than a list or an object becomes empty. |
| Routes.ListAnswers | backend/routes/api_routes.py:90-95 | A submitted list becomes a dict with each key once, holding its last item's answer. |
| Routes.SolutionFor | backend/routes/api_routes.py:152-166 | A truthy cached explanation is used as is. Otherwise the solution is generated. |
| Routes.Annotate | backend/routes/api_routes.py:147-166 | Every incorrect result gets an `ai_solution` and no correct one does. |
| Routes.CacheWrites | backend/routes/api_routes.py:147-169 | As written, caching the generated solutions leaves the problem store as it was. |
| Routes.CorrectedCacheEffect | backend/routes/api_routes.py:147-169 | With the corrected cache, only documents of generated solutions are written and none disappears. Each generated one ends with a text explanation, whatever the model returned. |
| Routes.TimeFrom | backend/routes/api_routes.py:78-84 | The time data is passed on exactly when `total_time_spent` is present and not None. |
| Routes.Analysis | backend/routes/api_routes.py:171-175 | No wrong categories give the congratulation text. Without time data the analysis is called with none. |
| Routes.Persist | backend/routes/api_routes.py:127-193 | A member's writes are one saved answer per result, in order, then the session and the history. |
| Routes.SubmitAndAnalyze | backend/routes/api_routes.py:54-224 | A non-dict or empty body, or a missing user id, gives 400. A guest gets no session and no writes. A failed session gives 500 without writes. Only incorrect results carry a solution. The problem store is never changed, because the cache write fails. |
| Routes.GradeSubmission | backend/routes/api_routes.py:120-201 | Every answer is graded once, in order, against the looked-up problems. Guests write nothing. Solutions appear exactly on incorrect results. The problem store is unchanged. |
| Routes.SubmitGradesEveryAnswer | backend/routes/api_routes.py:99-166 | A graded response has one result per normalised answer, in order. |
| Routes.VerifySignature | backend/routes/api_routes.py:363-375 | An empty secret always fails. Otherwise the digest comparison decides. |
| Routes.NoSecretNoChange | backend/routes/api_routes.py:365-367 | With no secret configured, no webhook changes anything. |
| Routes.WixWebhook | backend/routes/api_routes.py:387-438 | An unverified request is 401 and changes nothing. Only Created and Profile Updated sync, and only Deleted deletes. Other events are ignored with 200. The member is keyed by `str()` of its id. |
| Routes.CreatedStampsCreation | backend/routes/api_routes.py:404-419 | A Created event syncs with `created_at` stamped. |
| Routes.UpdateLeavesCreation | backend/routes/api_routes.py:404-419 | A Profile Updated event does not stamp a `created_at` the profile never had. |
| Routes.NumericIdDeletes | backend/routes/api_routes.py:392-431 | A Deleted event whose id is the number 5 marks "wix_5" deleted. |
| Users.WixUid | backend/services/user_service.py:31 | The uid is "wix_" followed by the Wix id. |
| Users.WixUidInjective | backend/services/user_service.py:31 | Different members get different uids. |
| Users.IdText | backend/services/user_service.py:31 | `str()` of an id: a string is itself, an integer its signed decimal. Lists and objects have no modelled text. |
| Users.NumericIdSharesUid | backend/services/user_service.py:31 | The number n and the string of its digits give the same uid. |
| Users.Merge | backend/services/user_service.py:68-71 | `set(merge=True)`: the given fields overwrite and every other stored field stays. |
| Users.SyncWixUser | backend/services/user_service.py:18-82 | The profile is stored under the uid with the raw id, the email and the status synced. It has `created_at` exactly when the event is 'created' or it had one before. Only an unexpected auth error fails, and other users are untouched. |
| Users.DeleteWixUser | backend/services/user_service.py:84-115 | The profile is kept and marked deleted with its other fields unchanged. Only an unexpected auth error fails, and then nothing is written. |
| Users.CategoriesFromContents | backend/services/user_service.py:259-267 | Deduplication keeps every category once, in first-seen order, and invents none. |
| Users.WeakStrongContents | backend/services/user_service.py:259-267 | The weak categories are exactly those of some wrong answer and the strong ones those of some right answer, without repeats. |
| Users.BothWeakAndStrong | backend/services/user_service.py:259-267 | A category answered both right and wrong is both weak and strong. |
| Users.CorrectCountZero | backend/services/user_service.py:257-262 | The correct count is zero exactly when every result is wrong. |
| Users.Percent | backend/services/user_service.py:285 | `correct / total * 100` in exact arithmetic, between 0 and 100. |
| Users.ScorePercent | backend/services/user_service.py:285 | The score is the percentage of correct results, or 0 for no results. |
| Users.SaveTestResult | backend/services/user_service.py:240-289 | The history lists the result ids in order, with the score and the weak and strong categories. |
| Users.CompleteTestSession | backend/services/user_service.py:406-471 | The totals are the number of results and the number of correct ones. The score is 0 without results. |
| Users.SessionCategoryTotals | backend/services/user_service.py:438-443 | The category totals sum to the number of results and the corrects to the correct count. Each correct is at most its total, and the keys are distinct. |
| Users.BumpStat | backend/services/user_service.py:511-533 | One answer adds 1 to its key's total, adds 1 to the correct count when right, and recomputes the accuracy as correct/total. |
| Users.Recent | backend/services/user_service.py:536-539 | The new score is appended, and the last five at most are kept, oldest first. |
| Users.Mean | backend/services/user_service.py:541 | The average times the count is the sum. |
| Users.Classify | backend/services/user_service.py:544-545 | A category is listed exactly when its accuracy is below 0.7 (weak) or 0.8 or more (strong). |
| Users.ClassifyAppend | backend/services/user_service.py:544-545 | The lists keep the table order: a split of the table splits each list. |
| Users.UpdateUserStats | backend/services/user_service.py:479-566 | `total_tests` grows by 1, problems by the number of results and correct by the number correct. `overall_accuracy` is correct/problems, or 0 with no problems. The recent scores are windowed and averaged. The weak and strong lists classify the updated category table. A missing user writes nothing. |
| Users.CountCategories | backend/services/user_service.py:511-524 | Each category's total grows by the results filed under it, and its correct count by the correct ones among them. A category no result names keeps its entry. |
| Users.CountDifficulties | backend/services/user_service.py:513-533 | Results carry no difficulty, so "Medium" grows by every result and every correct one. Every other difficulty is untouched. |
| Users.UpdateCounters | backend/services/user_service.py:507-533 | The written category and difficulty tables are the stored counters plus this test's answers. |
| Users.UpdateKeepsTables | backend/services/user_service.py:511-533 | Counting keeps every stored accuracy equal to correct/total and the keys distinct. |
| Users.WeakStrongDisjoint | backend/services/user_service.py:544-545 | No category is both weak and strong. |
| Navigator.Slugify | apps/curriculum-navigator/app.js:13-19 | The slug holds only [a-z0-9-], never "--", and no '-' at either end. |
| Navigator.SlugifyIdempotent | apps/curriculum-navigator/app.js:13-19 | Slugifying twice is slugifying once. |
| Navigator.CanonicalSubject | apps/curriculum-navigator/app.js:74-79 | Blank gives "general". "math" and "mathematics" give "mathematics". Anything else gives the trimmed lower-case text. |
| Navigator.CanonicalIdempotent | apps/curriculum-navigator/app.js:74-79 | Canonicalising twice is canonicalising once. |
| Navigator.ExamKey | apps/curriculum-navigator/app.js:92-96 | The key is never empty and holds only slug characters, so the fallback key is never used. |
| Navigator.Stored | apps/curriculum-navigator/app.js:100-103 | The item is stored with its truthy `curriculum_id` or the fallback id. Other fields are kept. |
| Navigator.Insert | apps/curriculum-navigator/app.js:89-104 | An item without a non-empty `domains` array is skipped. A kept item is stored under its key when the key is new or it has strictly more topics. Otherwise the map is unchanged. |
| Navigator.InsertKeepsOthers | apps/curriculum-navigator/app.js:98-104 | Every other key keeps its entry. |
| Navigator.NormalizeData | apps/curriculum-navigator/app.js:81-108 | Falsy data gives {} and a non-array is returned as it is. |
| Navigator.NormalizeDataGood | apps/curriculum-navigator/app.js:81-108 | A built map has distinct non-empty keys and a truthy `curriculum_id` everywhere. |
| Navigator.TieKeepsFirst | apps/curriculum-navigator/app.js:98-104 | On a key collision with as many topics, the earlier item is kept. |
| Navigator.CompareByRank | apps/curriculum-navigator/app.js:111-118 | Listed keys come first, in list order. Unlisted keys are ordered by `localeCompare`. |
| Navigator.CompareByAntisymmetric | apps/curriculum-navigator/app.js:111-118 | Swapping the keys flips the comparator's sign. |
| Navigator.CompareExams | apps/curriculum-navigator/app.js:110-118 | With the corrected order, listed exams come first, in list order. |
| Navigator.CompareExamsAsWritten | apps/curriculum-navigator/app.js:5-11 | With the written order, listed exams come first. |
| Navigator.WrittenOrderUnreachable | apps/curriculum-navigator/app.js:5-11 | Two written entries can never be a curriculum key. |
| Navigator.CorrectedOrderReachable | apps/curriculum-navigator/app.js:5-11 | Every corrected entry is the key of some exam and subject. |
| LatexFix.SubUnchangedIff | fix_latex_errors.py:24-30 | One wrapper pass changes the text exactly when its pattern matches. |
| LatexFix.NoBackslashNoMatch | fix_latex_errors.py:24-30 | No wrapper pattern matches text without a backslash. |
| LatexFix.UnescapeUnchangedIff | fix_latex_errors.py:36 | The `\%` pass changes the text exactly when it holds `\%`. |
| LatexFix.CleanUnchangedIff | fix_latex_errors.py:19-38 | `clean_text` changes a string exactly when one of the four passes finds something. |
| LatexFix.CleanNoBackslash | fix_latex_errors.py:19-38 | Text without a backslash is returned unchanged. |
| LatexFix.CleanText | fix_latex_errors.py:19-21 | A non-string value is returned unchanged. |
| LatexFix.FixChoice | fix_latex_errors.py:72-77 | A choice with `text` gets it cleaned, and a choice without one is kept as it is. |
| LatexFix.FixField | fix_latex_errors.py:54-65 | A field is flagged exactly when it is present and cleaning changes it. |
| LatexFix.FixDocFlagIff | fix_latex_errors.py:51-81 | A document is flagged for writing exactly when cleaning changed it. |
| LatexFix.FixDocKeepsOthers | fix_latex_errors.py:53-81 | Cleaning keeps the document's keys and every field except the three. |
| LatexFix.FixQuestions | fix_latex_errors.py:40-90 | The updated count never exceeds the scanned count. Without an error every document is scanned. |
| LatexFix.FixQuestionsStops | fix_latex_errors.py:48-88 | The run stops exactly at the first document that cannot be cleaned. |
| LatexFix.WritesChangeSomething | fix_latex_errors.py:83-86 | Every write differs from the document it replaces. |
| GradeLevel.GradesFor | backend/scripts/add_grade_level_field.py:66-74 | Easy is 6..9, Medium 8..11, Hard 10..12 and anything else 6..12. Each is a contiguous range. |
| GradeLevel.GradesOf | backend/scripts/add_grade_level_field.py:64 | A missing difficulty is treated as Medium. |
| GradeLevel.GradesWithinAll | backend/scripts/add_grade_level_field.py:66-74 | Every list lies within 6..12 and strictly ascends. |
| GradeLevel.WritesOnlyUngraded | backend/scripts/add_grade_level_field.py:57-86 | Only documents without `grade_level` are written, each with its own difficulty's levels. |
| GradeLevel.AllSucceedCoversAll | backend/scripts/add_grade_level_field.py:51-86 | When every update succeeds, updated plus skipped is the total. |
| GradeLevel.AddGradeLevels | backend/scripts/add_grade_level_field.py:48-86 | The updated count is the number of successful writes and the skipped count the number of graded documents. Their sum is at most the total. |
| AppState.Initial | frontend/js/modules/state.js:4-24 | The page starts with nothing loaded, the timer stopped at full time, and no overtime. |
| AppState.StartTimer | frontend/js/modules/state.js:75-80 | Starting sets running, full time, no overtime and the start time. Everything else is untouched. |
| AppState.StopTimer | frontend/js/modules/state.js:85-91 | Stopping clears running and the interval. Time and overtime are untouched. |
| AppState.Decrement | frontend/js/modules/state.js:96-102 | Positive time drops by one. At zero the time stays and overtime is set. |
| AppState.OvertimeLatches | frontend/js/modules/state.js:96-102 | Once set, overtime survives every decrement. |
| AppState.TicksFromStart | frontend/js/modules/state.js:96-102 | From a fresh start, `n` ticks leave the time minus `n`, floored at 0. Overtime holds exactly when `n` exceeds the time. |
| AppState.TimeSpent | frontend/js/modules/state.js:107-110 | The result is 0 without a start time, and otherwise the whole seconds elapsed. |
| AppState.Reset | frontend/js/modules/state.js:122-131 | Whatever the state, reset gives the initial state. |
| UiFormat.ChoiceValue | frontend/js/modules/ui.js:150-151 | A label matching `^[A-D]\)\s*.*$` has its letter as value. Any other label is its own value. |
| UiFormat.ChoiceValueIdempotent | apps/mvp-test/script.js:187-194 | A choice value is its own choice value. |
| UiFormat.RestMatchesSplit | frontend/js/modules/ui.js:150 | The matcher agrees with the regular expression: a whitespace run, then no line terminator. |
| UiFormat.BoldUnchangedIff | frontend/js/modules/ui.js:185 | The bold pass changes the text exactly when it holds some non-empty `**x**`. |
| UiFormat.FormatText | frontend/js/modules/ui.js:178-188 | Falsy text gives ''. Other text gets the line-break pass, then the bold pass, and no line feed survives. |
| UiFormat.BreaksChar | frontend/js/modules/ui.js:182 | A line feed becomes `<br>`. Any other character stays. |
| UiFormat.BreaksAppend | frontend/js/modules/ui.js:182 | The line-break pass goes character by character: a split of the text splits the result. |
| UiFormat.UnBreaksBreaks | frontend/js/modules/ui.js:182 | Reading `<br>` back as a line feed recovers any text that did not itself contain `<br>`. |
| UiFormat.BreaksLossy | frontend/js/modules/ui.js:182 | A `<br>` already in the text looks the same as a line feed afterwards. |
| UiFormat.FormatPlain | frontend/js/modules/ui.js:178-188 | Text with no line break and no `**x**` is shown as it is. |
| UiFormat.ClockRoundTrip | frontend/js/modules/ui.js:287-292 | The timer text reads back as the seconds it shows. It starts with '-' exactly for negative time. |
| UiFormat.TimerColour | frontend/js/modules/ui.js:295-304 | Danger when `s <= 0` or `s <= DANGER_TIME`, warning up to WARNING_TIME, normal above. |
| UiFormat.ColourMonotone | frontend/js/modules/ui.js:295-304 | Less time never shows a calmer colour. |
| MvpTest.Tick | apps/mvp-test/script.js:85-98 | A tick takes one second off and may go negative. Overtime latches below zero. The dialog opens when zero is reached without overtime. |
| MvpTest.DialogOnce | apps/mvp-test/script.js:85-98 | From a fresh start the time-out dialog opens on exactly one tick. |
| MvpTest.ClockText | apps/mvp-test/script.js:119-125 | The text has unpadded minutes and two-digit seconds, reads back as its seconds, and starts with '-' exactly below zero. |
| MvpTest.ClockColourAgrees | apps/mvp-test/script.js:128-137 | Danger below zero or up to 60, warning up to 300, else normal. This is the shared rule with the page's constants. |
| MvpTest.SubmittedOvertime | apps/mvp-test/script.js:253-254 | Overtime is submitted exactly when more than 1800 whole seconds have passed. |
| WixRetry.TimeoutError | wix/page_code_with_retry.js:44-50 | An abort becomes NETWORK_TIMEOUT, and any other error keeps its message. |
| WixRetry.FetchWithRetry | wix/page_code_with_retry.js:56-101 | At most `maxRetries` attempts are made. The first ok or 4xx response is returned at once. Otherwise the last normalised error is thrown. The pause before attempt k+1 is 1000·k ms, with none after the last. |
| WixRetry.ErrorMessage | wix/page_code_with_retry.js:106-120 | The two network codes and messages containing the server-error text get their own texts. Everything else gets the generic one. |
| WixRetry.RetryErrorsExplained | wix/page_code_with_retry.js:77-120 | Whatever the retry loop throws, the user gets a specific message, never the generic one. |
| Jira.BaseUrl | lib/jira_client.py:27 | The configured URL loses its trailing slashes and nothing else. |
| Jira.BaseUrlIdempotent | lib/jira_client.py:27 | Stripping twice is stripping once. |
| Jira.IssueUrl | lib/jira_client.py:97 | The URL is the base URL, then "/browse/", then the key. |
| Jira.IssueUrlIgnoresSlashes | lib/jira_client.py:27-97 | A trailing slash in the configuration does not change the issue URL. |
| Jira.TransitionToPost | lib/jira_client.py:218-228 | A posted id comes from a transition whose name or target matches case-insensitively. Nothing is posted when none matches. |
| Jira.FirstMatchWins | lib/jira_client.py:219-222 | The first matching transition is the one posted. |
| Jira.TransitionIgnoresCase | lib/jira_client.py:220 | The requested status's letter case does not matter. |
| Jira.ExtractText | lib/jira_client.py:360-370 | None or a document without `content` gives "". |
| Jira.SkipsNonText | lib/jira_client.py:366-368 | An item of a paragraph that is not a text item contributes nothing. |
| Jira.MissingTextIsEmpty | lib/jira_client.py:366-368 | A text item without `text` contributes the empty string. |
| Jira.ItemPartsAppend | lib/jira_client.py:366-368 | The items of a paragraph are read in order: the parts of `a + b` are those of `a`, then those of `b`, and the first unreadable item decides the error. |
| Jira.ExtractDocument | lib/jira_client.py:360-370 | A document of text paragraphs reads back as its words joined by single spaces. |
| Jira.BlockPartsAppend | lib/jira_client.py:364-368 | Blocks are read independently and in document order. |
| Jira.ScanComments | lib/jira_client.py:336-340 | Approval means some comment contains the keyword. No approval means every comment was read and none contains it. |
| Jira.PollOnce | lib/jira_client.py:320-341 | A missing issue waits. An In Progress or Done status approves, in any case. Otherwise only new comments are scanned. |
| Jira.PollIgnoresSeen | lib/jira_client.py:333-341 | Comments already seen are never read again. |
| Jira.NewCommentApproves | lib/jira_client.py:333-340 | A new comment carrying the keyword approves. |
| Jira.WaitFor | lib/jira_client.py:318-348 | With no polls left before the timeout the answer is False. An approving first poll gives True, and a fault in the first poll is raised. True is only ever returned after some poll found the issue. |
| Jira.WaitOutcomeFinal | lib/jira_client.py:318-348 | An approval or an error ends the wait, and later polls change nothing. |
| Jira.UnreachableIssueTimesOut | lib/jira_client.py:318-348 | Polls that never find the issue end in a timeout. |

## Left out

- Firestore, Firebase Auth, the language-model client, `json.loads` (the `parse` parameter of question generation), HMAC-SHA256, `random.choice`, `time.time`, `uuid4`, `Date.now` and `SERVER_TIMESTAMP` are oracle parameters or fixed sentinels, not computations.
- A query's result order is the store's order. The model keeps collections as insertion-ordered lists and does not model Firestore's ordering.
- Flask routing, CORS, status-code plumbing beyond the decisions listed, the middleware, configuration and logging are not modelled. So are the routes other than `submit_and_analyze` and `wix_webhook`.
- The route that drives the adaptive engine over HTTP is not part of this model. The engine is modelled at its service interface.
- `create_test_session` and `save_answer` are modelled only as the writes they stand for (a session id or a failure, and one saved-answer record). Their own field contents are not modelled.
- `complete_test_session` calls `update_user_stats`. The route's writes record the session summary, and `Users.UpdateUserStats` is modelled separately rather than composed into the route.
- `_calculate_results` computes a recommendation text and then never uses it. The dead computation is not modelled.
- The legacy `create_firebase_custom_token` is not modelled. It is not part of the webhook path.
- Users.Percent: floating-point division is modelled as exact real division.
- Users.Classify: the thresholds are compared against exact ratios, not IEEE doubles. The weak and strong lists follow the stored table's order.
- Problems.GetProblemsByIds: a non-string problem id makes the Firestore client raise in `document()`, and the route fails. The model skips such an id instead, so its answer is graded as a missing problem.
- Routes.VerifySignature: the digest comparison is a boolean. A signature header holding a non-ASCII character makes `hmac.compare_digest` raise TypeError, and the route answers 500. The model answers 401 instead. Either way the request is refused and the store is unchanged.
- Routes.WixWebhook: `str()` of a float id, and of a list or object id, is not modelled. Such an id gives a server failure instead of a sync under Python's text of it.
- QuestionService.GenerateQuestion: an object topic iterates its keys in insertion order. That case raises in the model instead.
- UiFormat.UnBreaksBreaks: the reading back is an independent check of the line-break pass. It is not part of the page.
- Users.Merge: `set(..., merge=True)` is modelled as a shallow field-wise overwrite. Nested map merging is not modelled.
- Adaptive.Accuracy: the truncating `int(c / t * 100)` is modelled as `(100*c) / t` on integers. The two differ by one for a handful of pairs with `t < 200`, such as 29 of 50, where the double product falls just below the whole number.
- Python's equality of `1` and `True` as dict keys is not modelled. Keys are compared as JSON values.
- Grading.GradeOne: answers are compared as JSON values, constructor by constructor. Python's `==` also holds across types (`True == 1`, `1 == 1.0`), and the model does not reproduce that. JSON floats in submitted or stored answers are not modelled at all, because the JSON value type has no float.
- QuestionService.SafeTopic: `str.isalnum` is modelled for ASCII letters and digits and the Hangul syllable block only.
- Text.Lower and `toLowerCase` are modelled for ASCII letters only.
- Navigator.ExamKey: a topic object inside `domains` counts as NaN. `String(v)` of an object is a fixed text. Lengths are counted in code points, not UTF-16 units.
- The front end's `CONFIG.TIMER` constants come from a configuration file that is not part of this model. The timer length and the thresholds are parameters.
- The `setInterval`, `setTimeout`, `AbortController` and `time.sleep` scheduling is not modelled. Each tick or poll is one step over a given sequence of outcomes, and the Jira approval timeout is the end of that sequence.
- Jira's REST calls (`create_issue`, `create_subtask`, `get_issue`, `add_comment`, `get_project_info` and the posting in `update_status`) are I/O. Only the URL construction, transition matching, ADF text extraction and the approval decision are modelled.
- AiService.MakeTimeContext: time fields are integers. Float time values from the client are not modelled.
- UiFormat.FormatText: only string inputs are modelled. A non-string truthy value has no `replace` in JavaScript and throws.
- UiFormat.ChoiceValue: choices are strings. A non-string choice has no `match` and throws.
- Rendering, KaTeX, i18n and the other front ends are UI and are not modelled.

## Findings

| source | as written | input that shows it | evidently intended | confidence | as-written member | corrected member |
|---|---|---|---|---|---|---|
| backend/services/problem_service.py:128 | The update's timestamp is read from the Firestore client object, which has no `SERVER_TIMESTAMP` attribute. The AttributeError is caught, so every cache write reports False and stores nothing. | Any existing problem id with any explanation. | Write the explanation and the module-level server timestamp, and report True. | medium, not executed | Problems.CacheExplanationAsWritten | Problems.CacheExplanation |
| apps/curriculum-navigator/app.js:7 | `EXAM_ORDER` lists "igcse-additional-mathematics-(0606)" and "ap-calculus-ab/bc". When the data arrives as an array, `normalizeData` only builds keys of `[a-z0-9-]`, so these two exams never match and sort with the unlisted ones. Data that is already an object is returned unchanged with its own keys, and the claim does not cover it. | Array data whose curriculum has exam "IGCSE" and subject "Additional Mathematics (0606)" gets the key "igcse-additional-mathematics-0606". | The slug forms "igcse-additional-mathematics-0606" and "ap-calculus-ab-bc". | low, not executed | Navigator.WrittenOrderUnreachable | Navigator.CorrectedOrderReachable |

=== FILE: adaptive.dfy ===
/**
 * `AdaptiveTestService`: a three-question session that starts at Medium, grades each answer
 * against the stored question, steps the difficulty after every answer and, once three
 * answers are in, writes a report with per-topic accuracy and explanations for the misses.
 */
module Adaptive {
  import opened Wrappers
  import opened Json
  import opened ODict
  import opened Llm
  import opened Difficulty
  import opened Tally
  import opened QuestionService

  const TotalQuestions: nat := 3

  /** One graded answer as kept in the session. */
  datatype AnswerRecord = AnswerRecord(questionId: string, userAnswer: string, isCorrect: bool, difficulty: Value, topic: Value)

  /** A `test_sessions` document. */
  datatype Session = Session(context: map<string, string>, index: nat, answers: seq<AnswerRecord>, difficulty: string, finished: bool)

  /** The two collections the engine reads and writes. */
  datatype Store = Store(sessions: map<string, Session>, questions: Collection)

  /** Why a call raised. */
  datatype AdaptiveError =
    | SessionNotFound            // ValueError("Session not found")
    | QuestionNotFound           // the question document does not exist: `None[...]` raises
    | MissingField(name: string) // KeyError on a question field or on the user context
    | UnhashableTopic            // a list or object used as a topic key
    | Question(e: QuestionError) // `get_question` raised

  datatype Started = Started(sessionId: string, totalQuestions: nat, firstQuestion: Doc)

  datatype HistoryEntry = HistoryEntry(questionId: string, isCorrect: bool, difficulty: Value, topic: Value, explanation: Value, text: Value)

  datatype TopicLine = TopicLine(topic: Value, accuracy: nat, total: nat)

  datatype Report = Report(
    score: nat, total: nat, scorePercent: nat, recommendation: string,
    course: string, studyModule: string, history: seq<HistoryEntry>, topics: seq<TopicLine>)

  datatype Outcome = Finished(report: Report) | Next(question: Doc)

  /** The nondeterministic inputs of one `submit_answer` call. */
  datatype SubmitOracle = SubmitOracle(next: Oracle, explain: nat -> LlmReply, summary: LlmReply)

  /** The fields that would give the answer away. */
  const Hidden: set<string> := {"correct_answer", "explanation", "created_at"}

  /** The session a new test starts with. */
  function Fresh(context: map<string, string>): Session {
    Session(context, 0, [], "Medium", false)
  }

  /** The shape every session keeps: one answer per step taken, on the ladder. */
  predicate Consistent(s: Session) {
    s.index == |s.answers| && s.difficulty in Levels
  }

  /** `_sanitize_question`: a copy without the hidden fields; every other field is unchanged. */
  function Sanitize(q: Doc): (r: Doc)
    ensures forall k :: k in r <==> k in q && k !in Hidden
    ensures forall k :: k in r ==> r[k] == q[k]
  {
    q - Hidden
  }

  /**
   * `start_test`: the new session is written under `newId` first; only then are the context's
   * `system` and `grade` read and the first Medium question fetched.
   */
  function StartTest(store: Store, context: map<string, string>, newId: string, o: Oracle)
    : (r: (Store, Result<Started, AdaptiveError>))
    ensures newId in r.0.sessions && r.0.sessions[newId] == Fresh(context)
    ensures Consistent(r.0.sessions[newId])
    ensures forall id :: id in store.sessions && id != newId ==> id in r.0.sessions && r.0.sessions[id] == store.sessions[id]
    ensures "system" !in context ==> r.1 == Err(MissingField("system"))
    ensures r.1.Ok? ==> r.1.value.sessionId == newId && r.1.value.totalQuestions == TotalQuestions
    ensures r.1.Ok? ==> forall k :: k in Hidden ==> k !in r.1.value.firstQuestion
  {
    var written := store.(sessions := store.sessions[newId := Fresh(context)]);
    if "system" !in context then (written, Err(MissingField("system")))
    else if "grade" !in context then (written, Err(MissingField("grade")))
    else
      var (coll, q) := GetQuestion(written.questions, Criteria(context["system"], context["grade"], "Medium", None), [], o);
      var after := written.(questions := coll);
      match q
      case Err(e) => (after, Err(Question(e)))
      case Ok(doc) => (after, Ok(Started(newId, TotalQuestions, Sanitize(doc))))
  }

  /** The ids of every answered question, in order. */
  function AnsweredIds(answers: seq<AnswerRecord>): (r: seq<string>)
    ensures |r| == |answers|
    ensures forall i :: 0 <= i < |answers| ==> r[i] == answers[i].questionId
  {
    if |answers| == 0 then [] else [answers[0].questionId] + AnsweredIds(answers[1..])
  }

  /** Grading: the stored correct answer must equal the submitted text exactly. */
  function Grade(question: Doc, questionId: string, answer: string): (r: Result<AnswerRecord, AdaptiveError>)
    ensures r.Ok? <==> "correct_answer" in question && "difficulty" in question
    ensures r.Ok? ==> (r.value.isCorrect <==> question["correct_answer"] == Str(answer))
    ensures r.Ok? ==> r.value.questionId == questionId && r.value.userAnswer == answer
  {
    if "correct_answer" !in question then Err(MissingField("correct_answer"))
    else if "difficulty" !in question then Err(MissingField("difficulty"))
    else Ok(AnswerRecord(questionId, answer, question["correct_answer"] == Str(answer), question["difficulty"], Get(question, "topic")))
  }

  /** The session after recording one graded answer, before the difficulty step. */
  function Record(s: Session, rec: AnswerRecord): (r: Session)
    ensures r.answers == s.answers + [rec] && r.index == s.index + 1
    ensures r.context == s.context && r.difficulty == s.difficulty && r.finished == s.finished
  {
    s.(answers := s.answers + [rec], index := s.index + 1)
  }

  /** The session as `submit_answer` writes it back: finished at the limit, otherwise one step on the ladder. */
  function Advance(s: Session, rec: AnswerRecord): (r: Session)
    ensures r.answers == s.answers + [rec] && r.index == s.index + 1 && r.context == s.context
    ensures r.index >= TotalQuestions ==> r.finished && r.difficulty == s.difficulty
    ensures r.index < TotalQuestions ==> r.finished == s.finished && r.difficulty == NextDifficulty(s.difficulty, rec.isCorrect)
  {
    var s1 := Record(s, rec);
    if s1.index >= TotalQuestions then s1.(finished := true)
    else s1.(difficulty := NextDifficulty(s.difficulty, rec.isCorrect))
  }

  /** `submit_answer`. */
  function SubmitAnswer(store: Store, sessionId: string, questionId: string, answer: string, o: SubmitOracle)
    : (r: (Store, Result<Outcome, AdaptiveError>))
    ensures sessionId !in store.sessions ==> r == (store, Err(SessionNotFound))
    ensures sessionId in store.sessions && Find(store.questions, questionId).None? ==> r == (store, Err(QuestionNotFound))
    ensures (sessionId in store.sessions && Find(store.questions, questionId).Some?
             && Grade(Find(store.questions, questionId).value, questionId, answer).Err?) ==> r.0 == store && r.1.Err?
    ensures r.1.Ok? && r.1.value.Next? ==> forall k :: k in Hidden ==> k !in r.1.value.question
  {
    if sessionId !in store.sessions then (store, Err(SessionNotFound))
    else
      match Find(store.questions, questionId)
      case None => (store, Err(QuestionNotFound))
      case Some(question) =>
        match Grade(question, questionId, answer)
        case Err(e) => (store, Err(e))
        case Ok(rec) =>
          var s := Advance(store.sessions[sessionId], rec);
          var written := store.(sessions := store.sessions[sessionId := s]);
          if s.index >= TotalQuestions then
            var (coll, report) := CalculateResults(written.questions, s, o.explain, o.summary);
            (written.(questions := coll), if report.Err? then Err(report.error) else Ok(Finished(report.value)))
          else if "system" !in s.context then (written, Err(MissingField("system")))
          else if "grade" !in s.context then (written, Err(MissingField("grade")))
          else
            var (coll, q) := GetQuestion(written.questions, NextCriteria(s), AnsweredIds(s.answers), o.next);
            (written.(questions := coll), if q.Err? then Err(Question(q.error)) else Ok(Next(Sanitize(q.value))))
  }

  /** A topic that can be a dictionary key: lists and objects cannot. */
  predicate Hashable(v: Value) {
    !v.List? && !v.Obj?
  }

  /**
   * One answer of the report: its question read back, and for a wrong answer to a question
   * that exists, is not empty and has no explanation yet, an explanation generated and stored.
   */
  function Review(coll: Collection, a: AnswerRecord, reply: LlmReply): (r: (Collection, HistoryEntry))
    ensures r.1.questionId == a.questionId && r.1.isCorrect == a.isCorrect
    ensures r.1.difficulty == a.difficulty && r.1.topic == a.topic
  {
    var data := Find(coll, a.questionId).GetOr(map[]);
    var stored := Get(data, "explanation");
    var text := GetOr(data, "text_latex", Str("Question text unavailable"));
    if !a.isCorrect && !Truthy(stored) && |data| > 0 then
      var e := Str(GenerateExplanation(reply));
      (Put(coll, a.questionId, data["explanation" := e]), HistoryEntry(a.questionId, a.isCorrect, a.difficulty, a.topic, e, text))
    else
      (coll, HistoryEntry(a.questionId, a.isCorrect, a.difficulty, a.topic, stored, text))
  }

  /** The explanation is written back exactly for a wrong answer to an existing, non-empty, unexplained question. */
  predicate NeedsExplanation(coll: Collection, a: AnswerRecord) {
    var data := Find(coll, a.questionId).GetOr(map[]);
    !a.isCorrect && !Truthy(Get(data, "explanation")) && |data| > 0
  }

  /** Reviewing changes the collection only by giving the answered question an explanation. */
  lemma ReviewWrites(coll: Collection, a: AnswerRecord, reply: LlmReply)
    ensures var r := Review(coll, a, reply);
      && (!NeedsExplanation(coll, a) ==> r.0 == coll)
      && (NeedsExplanation(coll, a) ==>
            && Find(r.0, a.questionId).Some?
            && Find(r.0, a.questionId).value == Find(coll, a.questionId).value["explanation" := Str(GenerateExplanation(reply))]
            && |r.0| == |coll|
            && Truthy(r.1.explanation) == Truthy(Str(GenerateExplanation(reply))))
    ensures forall k :: k != a.questionId ==> Find(Review(coll, a, reply).0, k) == Find(coll, k)
  {
    var data := Find(coll, a.questionId).GetOr(map[]);
    if NeedsExplanation(coll, a) {
      var e := Str(GenerateExplanation(reply));
      PutShape(coll, a.questionId, data["explanation" := e]);
      forall k | k != a.questionId ensures Find(Put(coll, a.questionId, data["explanation" := e]), k) == Find(coll, k) {
        PutKeepsOthers(coll, a.questionId, data["explanation" := e], k);
      }
    }
  }

  /** Correct?-marks of the answers keyed by topic, the input of the topic tally. */
  function Marks(answers: seq<AnswerRecord>): (r: seq<(Value, bool)>)
    ensures |r| == |answers|
    ensures forall i :: 0 <= i < |answers| ==> r[i] == (answers[i].topic, answers[i].isCorrect)
  {
    if |answers| == 0 then [] else [(answers[0].topic, answers[0].isCorrect)] + Marks(answers[1..])
  }

  /**
   * The report loop over `answers` (the `offset`-th answer of the session first): history
   * entries in order and the topic tally continued from `tally`. A list or object topic raises
   * after that answer's explanation has been stored.
   */
  function Walk(coll: Collection, answers: seq<AnswerRecord>, offset: nat, explain: nat -> LlmReply, tally: seq<(Value, Counter)>)
    : (r: (Collection, Result<(seq<HistoryEntry>, seq<(Value, Counter)>), AdaptiveError>))
    ensures r.1.Ok? ==> |r.1.value.0| == |answers|
    ensures r.1.Ok? ==> forall i :: 0 <= i < |answers| ==> r.1.value.0[i].questionId == answers[i].questionId && r.1.value.0[i].isCorrect == answers[i].isCorrect
    ensures r.1.Ok? <==> forall i :: 0 <= i < |answers| ==> Hashable(answers[i].topic)
    decreases |answers|
  {
    if |answers| == 0 then (coll, Ok(([], tally)))
    else
      var a := answers[0];
      var (coll1, entry) := Review(coll, a, explain(offset));
      if !Hashable(a.topic) then (coll1, Err(UnhashableTopic))
      else
        var (coll2, rest) := Walk(coll1, answers[1..], offset + 1, explain, Bump(tally, a.topic, a.isCorrect));
        HashableTail(answers);
        assert forall i :: 1 <= i < |answers| ==> answers[i] == answers[1..][i - 1];
        (coll2, PrependEntry(entry, rest))
  }

  /** The walk's result with `entry` put in front of its history. */
  function PrependEntry(entry: HistoryEntry, rest: Result<(seq<HistoryEntry>, seq<(Value, Counter)>), AdaptiveError>)
    : (r: Result<(seq<HistoryEntry>, seq<(Value, Counter)>), AdaptiveError>)
    ensures r.Ok? <==> rest.Ok?
    ensures r.Ok? ==> r.value.0 == [entry] + rest.value.0 && r.value.1 == rest.value.1
  {
    if rest.Err? then rest else Ok(([entry] + rest.value.0, rest.value.1))
  }

  /** Every topic is hashable exactly when the first is and every later one is. */
  lemma HashableTail(answers: seq<AnswerRecord>)
    requires |answers| > 0
    ensures (forall i :: 0 <= i < |answers| ==> Hashable(answers[i].topic))
      <==> Hashable(answers[0].topic) && forall i :: 0 <= i < |answers| - 1 ==> Hashable(answers[1..][i].topic)
  {
    assert forall i :: 1 <= i < |answers| ==> answers[i] == answers[1..][i - 1];
  }

  /** The walk's tally is the topic tally of the answers. */
  lemma {:induction false} WalkTally(coll: Collection, answers: seq<AnswerRecord>, offset: nat, explain: nat -> LlmReply, tally: seq<(Value, Counter)>)
    requires Walk(coll, answers, offset, explain, tally).1.Ok?
    ensures Walk(coll, answers, offset, explain, tally).1.value.1 == TallyFrom(tally, Marks(answers))
    decreases |answers|
  {
    if |answers| > 0 {
      var a := answers[0];
      var (coll1, _) := Review(coll, a, explain(offset));
      WalkTally(coll1, answers[1..], offset + 1, explain, Bump(tally, a.topic, a.isCorrect));
      assert Marks(answers)[1..] == Marks(answers[1..]);
    }
  }

  /** `int(correct / total * 100)` for a sound counter. */
  function Accuracy(c: Counter): (r: nat)
    requires Sound(c)
    ensures r <= 100
    ensures r * c.total <= 100 * c.correct < (r + 1) * c.total
  {
    (100 * c.correct) / c.total
  }

  /** `topic_analysis`: one line per topic in first-seen order. */
  function TopicLines(t: seq<(Value, Counter)>): (r: seq<TopicLine>)
    requires WellFormed(t)
    ensures |r| == |t|
    ensures forall i :: 0 <= i < |t| ==> r[i].topic == t[i].0 && r[i].total == t[i].1.total && r[i].accuracy <= 100
    ensures forall i :: 0 <= i < |t| ==> Sound(t[i].1) && r[i].accuracy == Accuracy(t[i].1)
  {
    if |t| == 0 then [] else [TopicLine(t[0].0, Accuracy(t[0].1), t[0].1.total)] + TopicLines(t[1..])
  }

  /**
   * Each line of the report is its topic's share of the answers: the total is the number of
   * answers on that topic, and the accuracy is the truncated percentage of those answered correctly.
   */
  lemma TopicAccuracy(answers: seq<AnswerRecord>, i: nat)
    requires i < |TallyFrom([], Marks(answers))|
    ensures WellFormed(TallyFrom([], Marks(answers)))
    ensures var line := TopicLines(TallyFrom([], Marks(answers)))[i];
      && line.total == Answered(Marks(answers), line.topic)
      && line.accuracy * line.total <= 100 * AnsweredCorrectly(Marks(answers), line.topic) < (line.accuracy + 1) * line.total
  {
    var t := TallyFrom([], Marks(answers));
    TallyWellFormed([], Marks(answers));
    TallyDistinct([], Marks(answers));
    DistinctFind(t, i);
    TallyCounts([], Marks(answers), t[i].0);
  }

  /** How many of the answers are correct. */
  function Score(answers: seq<AnswerRecord>): (n: nat)
    ensures n <= |answers|
  {
    if |answers| == 0 then 0 else (if answers[0].isCorrect then 1 else 0) + Score(answers[1..])
  }

  /** `_calculate_results`: the collection after explanations are stored, and the report. */
  function CalculateResults(coll: Collection, s: Session, explain: nat -> LlmReply, summary: LlmReply)
    : (r: (Collection, Result<Report, AdaptiveError>))
    ensures r.1.Ok? ==> r.1.value.score == Score(s.answers) && r.1.value.total == TotalQuestions
    ensures r.1.Ok? ==> r.1.value.scorePercent * TotalQuestions <= 100 * Score(s.answers) < (r.1.value.scorePercent + 1) * TotalQuestions
    ensures r.1.Ok? ==> |r.1.value.history| == |s.answers|
    ensures r.1.Ok? ==> "grade" in s.context && "system" in s.context && r.1.value.course == s.context["system"] + " Math"
    ensures r.1.Ok? ==>
      && WellFormed(TallyFrom([], Marks(s.answers)))
      && r.1.value.topics == TopicLines(TallyFrom([], Marks(s.answers)))
  {
    var (coll1, walked) := Walk(coll, s.answers, 0, explain, []);
    if walked.Err? then (coll1, Err(walked.error))
    else
      var (history, tally) := walked.value;
      WalkTally(coll, s.answers, 0, explain, []);
      TallyWellFormed([], Marks(s.answers));
      var score := Score(s.answers);
      var lines := TopicLines(tally);
      if "grade" !in s.context then (coll1, Err(MissingField("grade")))
      else
        var recommendation := PerformanceSummary(summary);
        if "system" !in s.context then (coll1, Err(MissingField("system")))
        else
          (coll1, Ok(Report(score, TotalQuestions, (100 * score) / TotalQuestions, recommendation,
                            s.context["system"] + " Math", "Personalized Module", history, lines)))
  }

  /**
   * One submit that gets past the lookups: the session is written back as `Advance` makes it,
   * other sessions are untouched, and the outcome is a report exactly when the index reached
   * the limit. A session that was `Consistent` stays so.
   */
  lemma SubmitStep(store: Store, sessionId: string, questionId: string, answer: string, o: SubmitOracle)
    requires sessionId in store.sessions
    requires Find(store.questions, questionId).Some?
    requires Grade(Find(store.questions, questionId).value, questionId, answer).Ok?
    ensures var r := SubmitAnswer(store, sessionId, questionId, answer, o);
      var rec := Grade(Find(store.questions, questionId).value, questionId, answer).value;
      var s := Advance(store.sessions[sessionId], rec);
      && sessionId in r.0.sessions && r.0.sessions[sessionId] == s
      && (forall id :: id in store.sessions && id != sessionId ==> id in r.0.sessions && r.0.sessions[id] == store.sessions[id])
      && (r.1.Ok? ==> (r.1.value.Finished? <==> s.index >= TotalQuestions))
      && (Consistent(store.sessions[sessionId]) ==> Consistent(s))
  {
    var rec := Grade(Find(store.questions, questionId).value, questionId, answer).value;
    SubmitWrites(store, sessionId, questionId, answer, o);
    SubmitReports(store, sessionId, questionId, answer, o);
    if Consistent(store.sessions[sessionId]) {
      AdvanceConsistent(store.sessions[sessionId], rec);
    }
  }

  /** Past the lookups, the store's sessions are the old ones with this session advanced. */
  lemma SubmitWrites(store: Store, sessionId: string, questionId: string, answer: string, o: SubmitOracle)
    requires sessionId in store.sessions
    requires Find(store.questions, questionId).Some?
    requires Grade(Find(store.questions, questionId).value, questionId, answer).Ok?
    ensures SubmitAnswer(store, sessionId, questionId, answer, o).0.sessions
      == store.sessions[sessionId := Advance(store.sessions[sessionId], Grade(Find(store.questions, questionId).value, questionId, answer).value)]
  {
  }

  /** Past the lookups, a successful outcome is the report exactly when the index reached the limit. */
  lemma SubmitReports(store: Store, sessionId: string, questionId: string, answer: string, o: SubmitOracle)
    requires sessionId in store.sessions
    requires Find(store.questions, questionId).Some?
    requires Grade(Find(store.questions, questionId).value, questionId, answer).Ok?
    ensures var r := SubmitAnswer(store, sessionId, questionId, answer, o);
      var s := Advance(store.sessions[sessionId], Grade(Find(store.questions, questionId).value, questionId, answer).value);
      r.1.Ok? ==> (r.1.value.Finished? <==> s.index >= TotalQuestions)
  {
  }

  /** The criteria of the next question: the session's system and grade at its new difficulty. */
  function NextCriteria(s: Session): Criteria
    requires "system" in s.context && "grade" in s.context
  {
    Criteria(s.context["system"], s.context["grade"], s.difficulty, None)
  }

  /**
   * When the test goes on and the first batch of matches has a usable question, the one handed
   * out is never a question this session has answered, the one just answered included.
   */
  lemma SubmitNextUnseen(store: Store, sessionId: string, questionId: string, answer: string, o: SubmitOracle)
    requires sessionId in store.sessions
    requires Find(store.questions, questionId).Some?
    requires Grade(Find(store.questions, questionId).value, questionId, answer).Ok?
    requires var s := Advance(store.sessions[sessionId], Grade(Find(store.questions, questionId).value, questionId, answer).value);
      && s.index < TotalQuestions && "system" in s.context && "grade" in s.context
      && InBatch(store.questions, NextCriteria(s), AnsweredIds(s.answers))
    ensures var r := SubmitAnswer(store, sessionId, questionId, answer, o);
      var s := Advance(store.sessions[sessionId], Grade(Find(store.questions, questionId).value, questionId, answer).value);
      && r.0 == store.(sessions := store.sessions[sessionId := s])
      && r.1.Ok? && r.1.value.Next?
      && "id" in r.1.value.question && r.1.value.question["id"].Str?
      && r.1.value.question["id"].s !in AnsweredIds(s.answers)
      && r.1.value.question["id"].s != questionId
  {
    var rec := Grade(Find(store.questions, questionId).value, questionId, answer).value;
    var s := Advance(store.sessions[sessionId], rec);
    var written := store.(sessions := store.sessions[sessionId := s]);
    var g := GetQuestion(store.questions, NextCriteria(s), AnsweredIds(s.answers), o.next);
    assert g.0 == store.questions && g.1.Ok?;
    SubmitContinues(store, sessionId, questionId, answer, o);
    assert AnsweredIds(s.answers)[|s.answers| - 1] == questionId;
  }

  /** Before the limit, a submit writes the session and hands out what the question lookup returns. */
  lemma SubmitContinues(store: Store, sessionId: string, questionId: string, answer: string, o: SubmitOracle)
    requires sessionId in store.sessions
    requires Find(store.questions, questionId).Some?
    requires Grade(Find(store.questions, questionId).value, questionId, answer).Ok?
    requires var s := Advance(store.sessions[sessionId], Grade(Find(store.questions, questionId).value, questionId, answer).value);
      s.index < TotalQuestions && "system" in s.context && "grade" in s.context
    ensures var s := Advance(store.sessions[sessionId], Grade(Find(store.questions, questionId).value, questionId, answer).value);
      var g := GetQuestion(store.questions, NextCriteria(s), AnsweredIds(s.answers), o.next);
      SubmitAnswer(store, sessionId, questionId, answer, o)
        == (store.(sessions := store.sessions[sessionId := s], questions := g.0), if g.1.Err? then Err(Question(g.1.error)) else Ok(Next(Sanitize(g.1.value))))
  {
  }

  /** An answer keeps a session's shape. */
  lemma AdvanceConsistent(s: Session, rec: AnswerRecord)
    requires Consistent(s)
    ensures Consistent(Advance(s, rec))
  {
  }

  /**
   * There is no guard against a finished session: another submit still appends a record, moves
   * the index past the limit and reports again.
   */
  lemma SubmitAfterFinish(store: Store, sessionId: string, questionId: string, answer: string, o: SubmitOracle)
    requires sessionId in store.sessions && store.sessions[sessionId].finished
    requires store.sessions[sessionId].index >= TotalQuestions
    requires Find(store.questions, questionId).Some?
    requires Grade(Find(store.questions, questionId).value, questionId, answer).Ok?
    ensures var r := SubmitAnswer(store, sessionId, questionId, answer, o);
      && |r.0.sessions[sessionId].answers| == |store.sessions[sessionId].answers| + 1
      && r.0.sessions[sessionId].finished
      && (r.1.Ok? ==> r.1.value.Finished?)
  {
    SubmitStep(store, sessionId, questionId, answer, o);
  }

  /**
   * Three answers from a fresh session: the first two step the ladder from Medium, the third
   * finishes the session and leaves the difficulty where the second put it.
   */
  lemma ThreeAnswers(context: map<string, string>, a: AnswerRecord, b: AnswerRecord, c: AnswerRecord)
    ensures var s := Advance(Advance(Advance(Fresh(context), a), b), c);
      && s.finished && s.index == 3 && s.answers == [a, b, c]
      && s.difficulty == NextDifficulty(NextDifficulty("Medium", a.isCorrect), b.isCorrect)
      && s.difficulty == Trail("Medium", [a.isCorrect, b.isCorrect])[2]
  {
    var t := Trail("Medium", [a.isCorrect, b.isCorrect]);
    var m1 := NextDifficulty("Medium", a.isCorrect);
    assert t == ["Medium"] + Trail(m1, [b.isCorrect]);
    assert Trail(m1, [b.isCorrect]) == [m1] + Trail(NextDifficulty(m1, b.isCorrect), []);
  }

  /** The sum of the report's per-topic totals. */
  function LineTotals(lines: seq<TopicLine>): nat {
    if |lines| == 0 then 0 else lines[0].total + LineTotals(lines[1..])
  }

  lemma {:induction false} LineTotalsOfTally(t: seq<(Value, Counter)>)
    requires WellFormed(t)
    ensures LineTotals(TopicLines(t)) == SumTotals(t)
  {
    if |t| > 0 {
      assert TopicLines(t)[1..] == TopicLines(t[1..]);
      LineTotalsOfTally(t[1..]);
    }
  }

  lemma {:induction false} ScoreCountsMarks(answers: seq<AnswerRecord>)
    ensures Score(answers) == CountCorrect(Marks(answers))
  {
    if |answers| > 0 {
      assert Marks(answers)[1..] == Marks(answers[1..]);
      ScoreCountsMarks(answers[1..]);
    }
  }

  /**
   * Every answer of the session lands in exactly one topic line: the per-topic totals add up to
   * the number of answers, and the score counts the correct ones.
   */
  lemma ReportTotals(coll: Collection, s: Session, explain: nat -> LlmReply, summary: LlmReply)
    requires CalculateResults(coll, s, explain, summary).1.Ok?
    ensures var report := CalculateResults(coll, s, explain, summary).1.value;
      && LineTotals(report.topics) == |s.answers|
      && report.score == CountCorrect(Marks(s.answers))
  {
    var walked := Walk(coll, s.answers, 0, explain, []).1;
    WalkTally(coll, s.answers, 0, explain, []);
    TallyWellFormed([], Marks(s.answers));
    TallySums([], Marks(s.answers));
    LineTotalsOfTally(walked.value.1);
    ScoreCountsMarks(s.answers);
  }
}

=== FILE: ai_service.dfy ===
/**
 * `AIService`: clean-up of a generated solution (`generate_solution`) and the inputs and
 * fallbacks of the weakness analysis (`analyze_weakness`). The three clean-up substitutions
 * are written as the left-to-right scans Python's `re.sub` performs for these patterns.
 */
module AiService {
  import opened Wrappers
  import opened Json
  import opened Text
  import opened Llm

  // ---------------------------------------------------------------- <br> variants  ->  "\n"

  /** How many white-space characters `s` starts with (a greedy `\s*`). */
  function SpaceRun(s: string): (n: nat)
    ensures n <= |s|
    ensures forall k :: 0 <= k < n ==> IsPySpace(s[k])
    ensures n < |s| ==> !IsPySpace(s[n])
  {
    if |s| > 0 && IsPySpace(s[0]) then
      var n := 1 + SpaceRun(s[1..]);
      assert forall k :: 1 <= k < n ==> s[k] == s[1..][k - 1];
      n
    else 0
  }

  /**
   * The length of the `<br>`-variant match at the start of `s`, if any. Every white-space
   * character is taken first; what follows must then be ">" or "/>".
   */
  function BrMatch(s: string): (r: Option<nat>)
    ensures r.Some? ==> 4 <= r.value <= |s| && StartsWith(s, "<br") && s[r.value - 1] == '>'
  {
    if !StartsWith(s, "<br") then None
    else
      var k := 3 + SpaceRun(s[3..]);
      if k < |s| && s[k] == '>' then Some(k + 1)
      else if k + 1 < |s| && s[k] == '/' && s[k + 1] == '>' then Some(k + 2)
      else None
  }

  /** The first substitution: every `<br`, white space, optional `/`, `>` becomes a newline. */
  function ReplaceBr(s: string): (r: string)
    ensures |r| <= |s|
    decreases |s|
  {
    if |s| == 0 then ""
    else match BrMatch(s)
      case Some(n) => "\n" + ReplaceBr(s[n..])
      case None => [s[0]] + ReplaceBr(s[1..])
  }

  /** The replacement only deletes characters and adds newlines. */
  lemma {:induction false} ReplaceBrChars(s: string)
    ensures forall c :: c in ReplaceBr(s) ==> c in s || c == '\n'
    decreases |s|
  {
    if |s| > 0 {
      match BrMatch(s)
      case Some(n) =>
        ReplaceBrChars(s[n..]);
        assert forall c :: c in s[n..] ==> c in s;
      case None =>
        ReplaceBrChars(s[1..]);
        assert forall c :: c in s[1..] ==> c in s;
    }
  }

  /** The scan runs left to right: a stretch without '<' is copied and the rest is scanned after it. */
  lemma {:induction false} ReplaceBrPrefix(a: string, b: string)
    requires '<' !in a
    ensures ReplaceBr(a + b) == a + ReplaceBr(b)
    decreases |a|
  {
    if |a| > 0 {
      var s := a + b;
      assert s[0] == a[0];
      NoBrAtOther(s);
      assert s[1..] == a[1..] + b;
      NotInTail(a, '<');
      ReplaceBrPrefix(a[1..], b);
      var rb := ReplaceBr(b);
      assert ReplaceBr(s) == [a[0]] + (a[1..] + rb);
      HeadTailAppend(a, rb);
    } else {
      assert a + b == b;
    }
  }

  /** `<br>` and `<br/>` each become one newline. */
  lemma BrPlain()
    ensures ReplaceBr("<br>") == "\n"
    ensures ReplaceBr("<br/>") == "\n"
  {
    var a := "<br>";
    assert a[..3] == "<br" && a[3..] == ">";
    assert SpaceRun(a[3..]) == 0;
    assert BrMatch(a) == Some(4);
    assert a[4..] == [];
    var b := "<br/>";
    assert b[..3] == "<br" && b[3..] == "/>";
    assert SpaceRun(b[3..]) == 0;
    assert BrMatch(b) == Some(5);
    assert b[5..] == [];
  }

  /** White space may stand between `<br` and the closing `/>`. */
  lemma BrSpaced()
    ensures ReplaceBr("<br \t/>") == "\n"
  {
    var a := "<br \t/>";
    assert a[..3] == "<br" && a[3..] == " \t/>";
    var t := a[3..];
    assert t[1..] == "\t/>" && t[1..][1..] == "/>";
    assert SpaceRun("/>") == 0;
    assert SpaceRun(t) == 2;
    assert BrMatch(a) == Some(7);
    assert a[7..] == [];
  }

  /** Text without '<' has nothing to replace. */
  lemma {:induction false} ReplaceBrNoAngle(s: string)
    requires '<' !in s
    ensures ReplaceBr(s) == s
  {
    if |s| > 0 {
      NoBrAtOther(s);
      NotInTail(s, '<');
      ReplaceBrNoAngle(s[1..]);
    }
  }

  /** A text that does not start with '<' matches no `<br>` variant and keeps its first character. */
  lemma NoBrAtOther(s: string)
    requires |s| > 0 && s[0] != '<'
    ensures BrMatch(s).None?
    ensures ReplaceBr(s) == [s[0]] + ReplaceBr(s[1..])
  {
    assert |s| < 3 || s[..3][0] == s[0];
  }

  // ---------------------------------------------------------------- <[^>]+>  ->  ""

  /** A tag `<[^>]+>` starts at `i`: a '<', a first character other than '>', and a '>' later. */
  predicate TagAt(s: string, i: nat) {
    i + 1 < |s| && s[i] == '<' && s[i + 1] != '>' && '>' in s[i + 2..]
  }

  /** Text in which no tag starts anywhere. */
  predicate TagFree(s: string) {
    forall i: nat :: i < |s| ==> !TagAt(s, i)
  }

  /** The first '>' at or after `from`. */
  function FirstGt(s: string, from: nat): (j: nat)
    requires from <= |s| && '>' in s[from..]
    ensures from <= j < |s| && s[j] == '>'
    ensures '>' !in s[from..j]
    decreases |s| - from
  {
    if s[from] == '>' then from
    else
      assert s[from..] == [s[from]] + s[from + 1..];
      var j := FirstGt(s, from + 1);
      assert s[from..j] == [s[from]] + s[from + 1..j];
      j
  }

  /** `re.sub(r'<[^>]+>', '', s)`: a tag at the front runs to the first '>' after its first character. */
  function StripTags(s: string): (r: string)
    ensures |r| <= |s|
    decreases |s|
  {
    if |s| == 0 then ""
    else if TagAt(s, 0) then StripTags(s[FirstGt(s, 2) + 1..])
    else [s[0]] + StripTags(s[1..])
  }

  /** Stripping only deletes characters. */
  lemma {:induction false} StripTagsChars(s: string)
    ensures forall c :: c in StripTags(s) ==> c in s
    decreases |s|
  {
    if |s| > 0 {
      if TagAt(s, 0) {
        var j := FirstGt(s, 2);
        StripTagsChars(s[j + 1..]);
        assert forall c :: c in s[j + 1..] ==> c in s;
      } else {
        StripTagsChars(s[1..]);
        assert forall c :: c in s[1..] ==> c in s;
      }
    }
  }

  /** Prepending one character shifts every tag position by one. */
  lemma ConsTagAt(c: char, r: string, i: nat)
    ensures TagAt([c] + r, i + 1) <==> TagAt(r, i)
  {
    var t := [c] + r;
    if i + 1 < |r| {
      assert t[i + 3..] == r[i + 2..];
    }
  }

  /** No tag survives: the result of `StripTags` is tag-free. */
  lemma {:induction false} StripTagsTagFree(s: string)
    ensures TagFree(StripTags(s))
    decreases |s|
  {
    if |s| > 0 {
      if TagAt(s, 0) {
        StripTagsTagFree(s[FirstGt(s, 2) + 1..]);
      } else {
        var rest := StripTags(s[1..]);
        StripTagsTagFree(s[1..]);
        var r := [s[0]] + rest;
        assert r == StripTags(s);
        forall i: nat | i < |r| ensures !TagAt(r, i) {
          if i > 0 {
            ConsTagAt(s[0], rest, i - 1);
          } else if s[0] == '<' && |s| > 1 {
            if s[1] == '>' {
              assert s[1..][0] == '>' && !TagAt(s[1..], 0);
              assert rest[0] == '>';
            } else {
              assert '>' !in s[2..];
              assert '>' !in s[1..] by {
                assert s[1..] == [s[1]] + s[2..];
              }
              StripTagsChars(s[1..]);
              assert '>' !in rest;
              assert |rest| >= 1 ==> r[2..] == rest[1..];
            }
          }
        }
      }
    }
  }

  // ---------------------------------------------------------------- \n{3,}  ->  "\n\n"

  /** How many newlines `s` starts with (a greedy `\n+`). */
  function NewlineRun(s: string): (n: nat)
    ensures n <= |s|
    ensures forall k :: 0 <= k < n ==> s[k] == '\n'
    ensures n < |s| ==> s[n] != '\n'
  {
    if |s| > 0 && s[0] == '\n' then
      var n := 1 + NewlineRun(s[1..]);
      assert forall k :: 1 <= k < n ==> s[k] == s[1..][k - 1];
      n
    else 0
  }

  /** `re.sub(r'\n{3,}', '\n\n', s)`. */
  function CollapseNewlines(s: string): (r: string)
    ensures |r| <= |s|
    decreases |s|
  {
    if |s| == 0 then ""
    else
      var n := NewlineRun(s);
      if n >= 3 then "\n\n" + CollapseNewlines(s[n..])
      else [s[0]] + CollapseNewlines(s[1..])
  }

  /** No three newlines in a row. */
  predicate NoTripleNewline(s: string) {
    forall i: nat :: i + 2 < |s| ==> !(s[i] == '\n' && s[i + 1] == '\n' && s[i + 2] == '\n')
  }

  /** A run of three or more newlines at the front becomes exactly two; shorter runs stay. */
  lemma {:induction false} CollapseHead(s: string)
    ensures NewlineRun(CollapseNewlines(s)) == if NewlineRun(s) >= 3 then 2 else NewlineRun(s)
    decreases |s|
  {
    if |s| > 0 {
      var n := NewlineRun(s);
      if n >= 3 {
        CollapseHead(s[n..]);
        var rest := CollapseNewlines(s[n..]);
        assert NewlineRun(s[n..]) == 0;
        var r := "\n\n" + rest;
        assert r[1..] == "\n" + rest && r[2..] == rest;
        assert NewlineRun(r[2..]) == 0;
        assert NewlineRun(r[1..]) == 1;
      } else if n > 0 {
        CollapseHead(s[1..]);
        assert NewlineRun(s[1..]) == n - 1;
        var r := [s[0]] + CollapseNewlines(s[1..]);
        assert r[1..] == CollapseNewlines(s[1..]);
      }
    }
  }

  /** The collapse leaves no run of three newlines. */
  lemma {:induction false} CollapseNoTriple(s: string)
    ensures NoTripleNewline(CollapseNewlines(s))
    decreases |s|
  {
    if |s| > 0 {
      var n := NewlineRun(s);
      if n >= 3 {
        CollapseNoTriple(s[n..]);
        CollapseHead(s[n..]);
        TwoBeforeNoTriple(CollapseNewlines(s[n..]));
      } else {
        CollapseNoTriple(s[1..]);
        CollapseHead(s[1..]);
        assert s[0] == '\n' ==> NewlineRun(s[1..]) == n - 1;
        ConsNoTriple(s[0], CollapseNewlines(s[1..]));
      }
    }
  }

  /** Two newlines put before a text without a leading newline make no run of three. */
  lemma TwoBeforeNoTriple(rest: string)
    requires NoTripleNewline(rest) && NewlineRun(rest) == 0
    ensures NoTripleNewline("\n\n" + rest)
  {
    var r := "\n\n" + rest;
    forall i: nat | i + 2 < |r| ensures !(r[i] == '\n' && r[i + 1] == '\n' && r[i + 2] == '\n') {
      if i >= 2 {
        assert r[i] == rest[i - 2] && r[i + 1] == rest[i - 1] && r[i + 2] == rest[i];
      } else {
        assert r[2] == rest[0] != '\n';
      }
    }
  }

  /** One character put before a text makes no run of three, unless it is a newline before two more. */
  lemma ConsNoTriple(c: char, rest: string)
    requires NoTripleNewline(rest) && (c == '\n' ==> NewlineRun(rest) <= 1)
    ensures NoTripleNewline([c] + rest)
  {
    var r := [c] + rest;
    forall i: nat | i + 2 < |r| ensures !(r[i] == '\n' && r[i + 1] == '\n' && r[i + 2] == '\n') {
      if i >= 1 {
        assert r[i] == rest[i - 1] && r[i + 1] == rest[i] && r[i + 2] == rest[i + 1];
      } else if c == '\n' {
        assert rest[1] != '\n' || rest[0] != '\n';
      }
    }
  }

  /** The collapse only deletes newlines: every character it leaves was in the text. */
  lemma {:induction false} CollapseChars(s: string)
    ensures forall c :: c in CollapseNewlines(s) ==> c in s
    decreases |s|
  {
    if |s| > 0 {
      var n := NewlineRun(s);
      if n >= 3 {
        CollapseChars(s[n..]);
        assert s[0] == '\n';
        assert forall c :: c in s[n..] ==> c in s;
      } else {
        CollapseChars(s[1..]);
        assert forall c :: c in s[1..] ==> c in s;
      }
    }
  }

  /** Past its first character, the collapsed text holds a '>' only if the text did. */
  lemma CollapseTailGt(t: string)
    requires |t| > 0
    ensures |CollapseNewlines(t)| > 0
    ensures '>' in CollapseNewlines(t)[1..] ==> '>' in t[1..]
  {
    var n := NewlineRun(t);
    if n >= 3 {
      var rest := CollapseNewlines(t[n..]);
      assert CollapseNewlines(t)[1..] == "\n" + rest;
      CollapseChars(t[n..]);
      assert forall c :: c in t[n..] ==> c in t[1..];
    } else {
      CollapseChars(t[1..]);
    }
  }

  /** A suffix of a tag-free text is tag-free. */
  lemma TagFreeTail(s: string, k: nat)
    requires TagFree(s) && k <= |s|
    ensures TagFree(s[k..])
  {
    forall i: nat | i < |s[k..]| ensures !TagAt(s[k..], i) {
      assert !TagAt(s, i + k);
      if i + 1 < |s[k..]| {
        assert s[k..][i + 2..] == s[i + k + 2..];
      }
    }
  }

  /** Capping newline runs cannot bring a '<' and a '>' together: tag-free text stays tag-free. */
  lemma {:induction false} CollapseTagFree(s: string)
    requires TagFree(s)
    ensures TagFree(CollapseNewlines(s))
    decreases |s|
  {
    if |s| > 0 {
      var n := NewlineRun(s);
      if n >= 3 {
        TagFreeTail(s, n);
        CollapseTagFree(s[n..]);
        var rest := CollapseNewlines(s[n..]);
        var r := "\n\n" + rest;
        assert r == ['\n'] + (['\n'] + rest);
        forall i: nat | i < |r| ensures !TagAt(r, i) {
          if i >= 2 {
            ConsTagAt('\n', ['\n'] + rest, i - 1);
            ConsTagAt('\n', rest, i - 2);
          }
        }
      } else {
        TagFreeTail(s, 1);
        CollapseTagFree(s[1..]);
        var rest := CollapseNewlines(s[1..]);
        var r := [s[0]] + rest;
        forall i: nat | i < |r| ensures !TagAt(r, i) {
          if i > 0 {
            ConsTagAt(s[0], rest, i - 1);
          } else if s[0] == '<' && |s| > 1 {
            assert !TagAt(s, 0);
            CollapseTailGt(s[1..]);
            if s[1] == '>' {
              assert rest[0] == '>';
            } else {
              assert s[1..][1..] == s[2..];
              assert r[2..] == rest[1..];
            }
          }
        }
      }
    }
  }

  // ---------------------------------------------------------------- generate_solution

  const SolutionNoText: string := "AI 해설 생성 중 문제가 발생했습니다."
  const SolutionErrorPrefix: string := "AI 해설 생성 중 오류가 발생했습니다: "

  /** The clean-up chain: strip, `<br>` variants to newlines, tags removed, newline runs capped at two. */
  function CleanSolution(t: string): (r: string)
    ensures NoTripleNewline(r)
    ensures TagFree(r)
  {
    CollapseNoTriple(StripTags(ReplaceBr(PyStrip(t))));
    StripTagsTagFree(ReplaceBr(PyStrip(t)));
    CollapseTagFree(StripTags(ReplaceBr(PyStrip(t))));
    CollapseNewlines(StripTags(ReplaceBr(PyStrip(t))))
  }

  /** Text without '<' has no tag to strip. */
  lemma {:induction false} StripTagsNoAngle(s: string)
    requires '<' !in s
    ensures StripTags(s) == s
    decreases |s|
  {
    if |s| > 0 {
      NotInTail(s, '<');
      StripTagsNoAngle(s[1..]);
    }
  }

  /** A text that neither starts nor ends with white space is its own `strip()`. */
  lemma StripKeeps(t: string)
    requires |t| > 0 && !IsPySpace(t[0]) && !IsPySpace(t[|t| - 1])
    ensures PyStrip(t) == t
  {
  }

  /** A `<br>` at the front becomes a newline and the rest is scanned on. */
  lemma LeadingBr(rest: string)
    requires '<' !in rest
    ensures ReplaceBr("<br>" + rest) == "\n" + rest
  {
    var u := "<br>" + rest;
    assert u[..3] == "<br" && u[3] == '>';
    assert SpaceRun(u[3..]) == 0;
    assert u[4..] == rest;
    ReplaceBrNoAngle(rest);
  }

  /** Text with no run of three newlines is left alone by the collapse. */
  lemma {:induction false} CollapseKeeps(s: string)
    requires NoTripleNewline(s)
    ensures CollapseNewlines(s) == s
    decreases |s|
  {
    if |s| > 0 {
      if |s| >= 3 {
        assert !(s[0] == '\n' && s[1] == '\n' && s[2] == '\n');
      }
      assert NewlineRun(s) < 3;
      var t := s[1..];
      forall i: nat | i + 2 < |t| ensures !(t[i] == '\n' && t[i + 1] == '\n' && t[i + 2] == '\n') {
        assert t[i] == s[i + 1] && t[i + 1] == s[i + 2] && t[i + 2] == s[i + 3];
      }
      CollapseKeeps(s[1..]);
    }
  }

  /** A single line feed between two texts without one makes no run of three. */
  lemma OneNewline(a: string, b: string)
    requires '\n' !in a && '\n' !in b
    ensures NoTripleNewline(a + "\n" + b)
  {
    var s := a + "\n" + b;
    forall i: nat | i + 2 < |s| ensures !(s[i] == '\n' && s[i + 1] == '\n' && s[i + 2] == '\n') {
      if i + 1 < |a| {
        assert s[i] == a[i];
      } else if i + 1 == |a| {
        assert s[i + 2] == b[0];
      } else {
        assert s[i + 1] == b[i - |a|];
      }
    }
  }

  /**
   * End to end: between two plain texts, a `<br>` in a reply comes out of the clean-up as exactly
   * one line break.
   */
  lemma CleanLineBreak(a: string, b: string)
    requires |a| > 0 && |b| > 0 && !IsPySpace(a[0]) && !IsPySpace(b[|b| - 1])
    requires '<' !in a && '<' !in b && '\n' !in a && '\n' !in b
    ensures CleanSolution(a + "<br>" + b) == a + "\n" + b
  {
    var t := a + "<br>" + b;
    var v := a + "\n" + b;
    assert t[0] == a[0] && t[|t| - 1] == b[|b| - 1];
    StripKeeps(t);
    assert t == a + ("<br>" + b);
    LeadingBr(b);
    ReplaceBrPrefix(a, "<br>" + b);
    assert ReplaceBr(t) == v;
    assert '<' !in v;
    StripTagsNoAngle(v);
    OneNewline(a, b);
    CollapseKeeps(v);
  }

  /** What the model is asked: the problem, its answer, and the stored solution only when it is truthy. */
  datatype SolutionRequest = SolutionRequest(problemText: Value, correctAnswer: Value, reference: Option<Value>)

  function MakeSolutionRequest(problemText: Value, correctAnswer: Value, dbSolution: Value): (r: SolutionRequest)
    ensures r.reference.Some? <==> Truthy(dbSolution)
    ensures r.reference.Some? ==> r.reference.value == dbSolution
    ensures r.problemText == problemText && r.correctAnswer == correctAnswer
  {
    SolutionRequest(problemText, correctAnswer, if Truthy(dbSolution) then Some(dbSolution) else None)
  }

  /** `generate_solution`: the cleaned reply, or a fixed text when the reply is empty or the call raised. */
  function GenerateSolution(reply: LlmReply): (r: string)
    ensures reply.Text? && reply.text != "" ==> r == CleanSolution(reply.text) && NoTripleNewline(r) && TagFree(r)
    ensures reply.NoText? || reply == Text("") ==> r == SolutionNoText
    ensures reply.Raised? ==> r == SolutionErrorPrefix + reply.message
  {
    match reply
    case Raised(m) => SolutionErrorPrefix + m
    case NoText => SolutionNoText
    case Text(t) => if t == "" then SolutionNoText else CleanSolution(t)
  }

  // ---------------------------------------------------------------- analyze_weakness

  const AllCorrect: string := "모든 문제를 맞추셨습니다! 훌륭해요!"
  const AnalysisNoText: string := "AI 약점 분석 중 문제가 발생했습니다."
  const AnalysisErrorPrefix: string := "AI 약점 분석 중 오류가 발생했습니다: "

  /** The time fields handed to the analysis; an absent field takes the method's default. */
  datatype TimeInfo = TimeInfo(totalTimeSpent: Option<int>, timeLimit: Option<int>, isOvertime: bool)

  /** A duration split as Python's `//` and `%` by 60 do: the seconds are never negative. */
  datatype MinSec = MinSec(minutes: int, seconds: nat)

  function Split(x: int): (r: MinSec)
    ensures r.minutes * 60 + r.seconds == x && r.seconds < 60
  {
    MinSec(x / 60, x % 60)
  }

  /** A negative amount rounds its minutes down, not toward zero. */
  lemma SplitNegative()
    ensures Split(-30) == MinSec(-1, 30)
    ensures Split(-60) == MinSec(-1, 0)
  {
  }

  /** The time section of the analysis prompt. */
  datatype TimeContext = TimeContext(limitMinutes: int, spent: MinSec, overtime: bool, difference: MinSec)

  function MakeTimeContext(t: TimeInfo): (r: TimeContext)
    ensures var total := t.totalTimeSpent.GetOr(0);
      var limit := t.timeLimit.GetOr(1800);
      && r.spent.minutes * 60 + r.spent.seconds == total
      && r.limitMinutes == limit / 60
      && r.overtime == t.isOvertime
      && r.difference.minutes * 60 + r.difference.seconds == (if t.isOvertime then total - limit else limit - total)
  {
    var total := t.totalTimeSpent.GetOr(0);
    var limit := t.timeLimit.GetOr(1800);
    TimeContext(limit / 60, Split(total), t.isOvertime, Split(if t.isOvertime then total - limit else limit - total))
  }

  /** What the analysis model is asked: the wrong categories and, when time data came along, its summary. */
  datatype AnalysisRequest = AnalysisRequest(categories: seq<Value>, time: Option<TimeContext>)

  /**
   * `analyze_weakness`: no wrong category means the fixed congratulation and no request at all;
   * otherwise the request that is sent and the text that comes back, or a fixed text on failure.
   */
  function AnalyzeWeakness(wrong: seq<Value>, time: Option<TimeInfo>, reply: LlmReply): (r: (Option<AnalysisRequest>, string))
    ensures |wrong| == 0 <==> r.0.None?
    ensures |wrong| == 0 ==> r.1 == AllCorrect
    ensures r.0.Some? ==> r.0.value.categories == wrong && (r.0.value.time.Some? <==> time.Some?)
    ensures |wrong| > 0 && reply.Text? && reply.text != "" ==> r.1 == reply.text
    ensures |wrong| > 0 && reply.Raised? ==> r.1 == AnalysisErrorPrefix + reply.message
    ensures |wrong| > 0 && (reply.NoText? || reply == Text("")) ==> r.1 == AnalysisNoText
    ensures r.0.Some? ==> r.0.value.time == (if time.Some? then Some(MakeTimeContext(time.value)) else None)
  {
    if |wrong| == 0 then (None, AllCorrect)
    else
      var request := AnalysisRequest(wrong, if time.Some? then Some(MakeTimeContext(time.value)) else None);
      var text := match reply
        case Raised(m) => AnalysisErrorPrefix + m
        case NoText => AnalysisNoText
        case Text(t) => if t == "" then AnalysisNoText else t;
      (Some(request), text)
  }

  /**
   * The time data shapes only the request: the returned text is the same whatever time
   * information came along, and the time summary sent reads back as the seconds spent.
   */
  lemma AnalysisTimeOnlyInRequest(wrong: seq<Value>, t: TimeInfo, reply: LlmReply)
    requires |wrong| > 0
    ensures AnalyzeWeakness(wrong, Some(t), reply).1 == AnalyzeWeakness(wrong, None, reply).1
    ensures var c := AnalyzeWeakness(wrong, Some(t), reply).0.value.time.value;
      && c.spent.minutes * 60 + c.spent.seconds == t.totalTimeSpent.GetOr(0)
      && c.overtime == t.isOvertime
  {
  }
}

=== FILE: app_state.dfy ===
/**
 * The front end's application state: loaded problems, answers, results, and the count-down
 * timer. The clock is a parameter (`now`, in milliseconds) and the timer length `DURATION`
 * comes from a configuration file that is not part of this model, so it is a parameter too.
 */
module AppState {
  import opened Wrappers
  import opened Json

  /** What `setInterval` hands back: always a positive number. */
  type IntervalId = n: nat | n > 0 witness 1

  datatype Timer = Timer(
    isRunning: bool,
    timeRemaining: int,
    intervalId: Option<IntervalId>,
    startTime: Option<int>,
    isOvertime: bool)

  datatype State = State(
    problems: seq<Value>,
    userAnswers: map<string, Value>,
    testResults: Option<Value>,
    analysisReport: Option<Value>,
    timer: Timer)

  /** The state the page starts in. */
  function Initial(duration: int): (r: State)
    ensures r.problems == [] && r.userAnswers == map[] && r.testResults.None? && r.analysisReport.None?
    ensures !r.timer.isRunning && r.timer.timeRemaining == duration && r.timer.intervalId.None?
    ensures r.timer.startTime.None? && !r.timer.isOvertime
  {
    State([], map[], None, None, Timer(false, duration, None, None, false))
  }

  /** `startTimer`: running, full time again, no overtime, started `now`. */
  function StartTimer(s: State, duration: int, now: int): (r: State)
    ensures r.timer.isRunning && r.timer.timeRemaining == duration && !r.timer.isOvertime
    ensures r.timer.startTime == Some(now) && r.timer.intervalId == s.timer.intervalId
    ensures r.problems == s.problems && r.userAnswers == s.userAnswers
    ensures r.testResults == s.testResults && r.analysisReport == s.analysisReport
  {
    s.(timer := s.timer.(isRunning := true, startTime := Some(now), timeRemaining := duration, isOvertime := false))
  }

  /** `stopTimer`: not running, and the interval (when there is one) cleared. */
  function StopTimer(t: Timer): (r: Timer)
    ensures !r.isRunning && r.intervalId.None?
    ensures r.timeRemaining == t.timeRemaining && r.startTime == t.startTime && r.isOvertime == t.isOvertime
  {
    t.(isRunning := false, intervalId := None)
  }

  /** `decrementTimer`: one second off while time remains; at zero or below, overtime instead. */
  function Decrement(t: Timer): (r: Timer)
    ensures t.timeRemaining > 0 ==> r.timeRemaining == t.timeRemaining - 1 && r.isOvertime == t.isOvertime
    ensures t.timeRemaining <= 0 ==> r.timeRemaining == t.timeRemaining && r.isOvertime
    ensures r.isRunning == t.isRunning && r.startTime == t.startTime && r.intervalId == t.intervalId
  {
    if t.timeRemaining > 0 then t.(timeRemaining := t.timeRemaining - 1) else t.(isOvertime := true)
  }

  /** `n` calls of `decrementTimer`. */
  function Decrements(t: Timer, n: nat): Timer
    decreases n
  {
    if n == 0 then t else Decrements(Decrement(t), n - 1)
  }

  /** Overtime, once set, survives every further decrement. */
  lemma {:induction false} OvertimeLatches(t: Timer, n: nat)
    requires t.isOvertime
    ensures Decrements(t, n).isOvertime
    decreases n
  {
    if n > 0 {
      OvertimeLatches(Decrement(t), n - 1);
    }
  }

  /** The remaining time never drops below zero when it starts there or above. */
  lemma {:induction false} NeverNegative(t: Timer, n: nat)
    requires t.timeRemaining >= 0
    ensures Decrements(t, n).timeRemaining >= 0
    decreases n
  {
    if n > 0 {
      NeverNegative(Decrement(t), n - 1);
    }
  }

  /**
   * From a fresh start of `duration` seconds, `n` ticks leave `duration - n` seconds, floored at
   * zero, and overtime is on exactly when there were more ticks than seconds.
   */
  lemma {:induction false} TicksFromStart(t: Timer, n: nat)
    requires t.timeRemaining >= 0 && !t.isOvertime
    ensures Decrements(t, n).timeRemaining == if n <= t.timeRemaining then t.timeRemaining - n else 0
    ensures Decrements(t, n).isOvertime <==> n > t.timeRemaining
    decreases n
  {
    if n > 0 {
      if t.timeRemaining > 0 {
        TicksFromStart(Decrement(t), n - 1);
      } else {
        OvertimeLatches(Decrement(t), n - 1);
        NeverNegative(Decrement(t), n - 1);
        ZeroStaysZero(Decrement(t), n - 1);
      }
    }
  }

  lemma {:induction false} ZeroStaysZero(t: Timer, n: nat)
    requires t.timeRemaining == 0
    ensures Decrements(t, n).timeRemaining == 0
    decreases n
  {
    if n > 0 {
      ZeroStaysZero(Decrement(t), n - 1);
    }
  }

  /** `getTotalTimeSpent`: whole seconds since the start, 0 when there is no (truthy) start time. */
  function TimeSpent(startTime: Option<int>, now: int): (r: int)
    ensures startTime.None? ==> r == 0
    ensures startTime.Some? && startTime.value != 0 ==> r * 1000 <= now - startTime.value < r * 1000 + 1000
  {
    if startTime.None? || startTime.value == 0 then 0 else (now - startTime.value) / 1000
  }

  /** `reset`: whatever came before, everything is back to the page's initial state. */
  function Reset(s: State, duration: int): (r: State)
    ensures r == Initial(duration)
  {
    var t := StopTimer(s.timer);
    State([], map[], None, None, t.(timeRemaining := duration, startTime := None, isOvertime := false))
  }
}

=== FILE: decimal.dfy ===
/**
 * Decimal rendering of naturals (Python `str(n)`/`f"{n}"`, JavaScript `String(n)`),
 * left padding (`padStart`) and the parse that inverts them.
 */
module Decimal {

  predicate IsDigit(c: char) {
    '0' <= c <= '9'
  }

  predicate AllDigits(s: string) {
    forall i :: 0 <= i < |s| ==> IsDigit(s[i])
  }

  function DigitChar(d: nat): (c: char)
    requires d < 10
    ensures IsDigit(c) && c as int - '0' as int == d
  {
    (d + '0' as int) as char
  }

  /** The shortest decimal spelling of `n`. */
  function NatToString(n: nat): (r: string)
    ensures |r| >= 1 && AllDigits(r)
    ensures |r| > 1 ==> r[0] != '0'
    decreases n
  {
    if n < 10 then [DigitChar(n)] else NatToString(n / 10) + [DigitChar(n % 10)]
  }

  /** The number a string of digits spells; leading zeros do not count. */
  function ParseNat(s: string): nat
    requires AllDigits(s)
  {
    if |s| == 0 then 0 else 10 * ParseNat(s[..|s| - 1]) + (s[|s| - 1] as int - '0' as int)
  }

  /** `s.padStart(width, c)`: `c` repeated in front until the length reaches `width`. */
  function PadStart(s: string, width: nat, c: char): (r: string)
    ensures |r| == if |s| >= width then |s| else width
    ensures r[|r| - |s|..] == s
    ensures forall i :: 0 <= i < |r| - |s| ==> r[i] == c
    decreases width - |s|
  {
    if |s| >= width then s else PadStart([c] + s, width, c)
  }

  /** Parsing inverts rendering. */
  lemma {:induction false} ParseRender(n: nat)
    ensures ParseNat(NatToString(n)) == n
    decreases n
  {
    if n >= 10 {
      var r := NatToString(n);
      assert r[..|r| - 1] == NatToString(n / 10);
      ParseRender(n / 10);
    }
  }

  /** Leading zeros do not change the parsed value. */
  lemma {:induction false} ParseIgnoresLeadingZeros(z: string, s: string)
    requires forall i :: 0 <= i < |z| ==> z[i] == '0'
    requires AllDigits(s)
    ensures AllDigits(z + s) && ParseNat(z + s) == ParseNat(s)
    decreases |s|
  {
    if |s| == 0 {
      ZerosParseToZero(z);
      assert z + s == z;
    } else {
      assert (z + s)[..|z + s| - 1] == z + s[..|s| - 1];
      ParseIgnoresLeadingZeros(z, s[..|s| - 1]);
    }
  }

  lemma {:induction false} ZerosParseToZero(z: string)
    requires forall i :: 0 <= i < |z| ==> z[i] == '0'
    ensures AllDigits(z) && ParseNat(z) == 0
  {
    if |z| > 0 {
      ZerosParseToZero(z[..|z| - 1]);
    }
  }

  /** A zero-padded rendering still parses back to the number. */
  lemma ParsePadded(n: nat, width: nat)
    ensures AllDigits(PadStart(NatToString(n), width, '0'))
    ensures ParseNat(PadStart(NatToString(n), width, '0')) == n
  {
    var s := NatToString(n);
    var r := PadStart(s, width, '0');
    var z := r[..|r| - |s|];
    assert r == z + s;
    ParseIgnoresLeadingZeros(z, s);
    ParseRender(n);
  }
}

=== FILE: difficulty.dfy ===
/**
 * The Easy/Medium/Hard ladder of the adaptive test and the step rule applied after
 * every answer (`AdaptiveTestService._calculate_next_difficulty`).
 */
module Difficulty {
  import opened Wrappers

  /** The ladder, lowest first: index 0, 1, 2. */
  const Levels: seq<string> := ["Easy", "Medium", "Hard"]

  /** `levels.index(d)`, or None where Python raises ValueError. */
  function IndexOf(d: string): (r: Option<nat>)
    ensures r.Some? <==> d in Levels
    ensures r.Some? ==> r.value < |Levels| && Levels[r.value] == d
  {
    if d == "Easy" then Some(0) else if d == "Medium" then Some(1) else if d == "Hard" then Some(2) else None
  }

  /** The rung a stored difficulty stands on: an unrecognised level counts as Medium. */
  function Rung(d: string): (i: nat)
    ensures i < |Levels|
    ensures d in Levels ==> Levels[i] == d
    ensures d !in Levels ==> Levels[i] == "Medium"
  {
    IndexOf(d).GetOr(1)
  }

  /** One step up the ladder after a correct answer, one step down after a wrong one, clamped at both ends. */
  function NextDifficulty(current: string, isCorrect: bool): (r: string)
    ensures r in Levels
    ensures isCorrect ==> Rung(r) == Rung(current) + 1 || (Rung(current) == 2 && r == "Hard")
    ensures !isCorrect ==> Rung(r) + 1 == Rung(current) || (Rung(current) == 0 && r == "Easy")
  {
    var i := Rung(current);
    if isCorrect then Levels[if i + 1 < |Levels| - 1 then i + 1 else |Levels| - 1]
    else Levels[if i - 1 > 0 then i - 1 else 0]
  }

  /** A correct answer never lowers the rung and a wrong one never raises it. */
  lemma StepDirection(current: string)
    ensures Rung(NextDifficulty(current, true)) >= Rung(current)
    ensures Rung(NextDifficulty(current, false)) <= Rung(current)
    ensures NextDifficulty("Hard", true) == "Hard"
    ensures NextDifficulty("Easy", false) == "Easy"
  {
  }

  /** The step is monotone in the starting rung: a higher start never ends lower. */
  lemma StepMonotone(a: string, b: string, isCorrect: bool)
    requires Rung(a) <= Rung(b)
    ensures Rung(NextDifficulty(a, isCorrect)) <= Rung(NextDifficulty(b, isCorrect))
  {
  }

  /** The difficulties visited from `start` when the answers' correctness is `marks`, `start` included. */
  function Trail(start: string, marks: seq<bool>): (r: seq<string>)
    ensures |r| == |marks| + 1 && r[0] == start
    ensures forall i :: 0 < i < |r| ==> r[i] in Levels
    decreases |marks|
  {
    if |marks| == 0 then [start] else [start] + Trail(NextDifficulty(start, marks[0]), marks[1..])
  }

  /** Two correct answers from Medium climb to Hard and stay there; two wrong ones fall to Easy and stay. */
  lemma ClampedTrails()
    ensures Trail("Medium", [true, true]) == ["Medium", "Hard", "Hard"]
    ensures Trail("Medium", [false, false]) == ["Medium", "Easy", "Easy"]
  {
    assert Trail("Hard", [true]) == ["Hard", "Hard"];
    assert Trail("Easy", [false]) == ["Easy", "Easy"];
  }
}

=== FILE: grade_level.dfy ===
/**
 * The migration that adds a `grade_level` list to every stored problem that lacks one, chosen
 * from the problem's difficulty. The store's update call is an oracle: `updateOk(id)` says
 * whether the update of document `id` went through.
 */
module GradeLevel {
  import opened Json

  /** `[lo, lo + 1, ..., hi]`. */
  function Range(lo: int, hi: int): (r: seq<int>)
    requires lo <= hi + 1
    ensures |r| == hi - lo + 1
    ensures forall i :: 0 <= i < |r| ==> r[i] == lo + i
    decreases hi - lo + 1
  {
    if lo > hi then [] else [lo] + Range(lo + 1, hi)
  }

  /** Grades taught at all: 6 to 12. */
  const AllGrades: seq<int> := Range(6, 12)

  /** The default grade levels for a difficulty; anything other than the three names gets every grade. */
  function GradesFor(difficulty: Value): (r: seq<int>)
    ensures |r| > 0 && 6 <= r[0] && r[|r| - 1] <= 12
    ensures forall i :: 0 <= i < |r| ==> r[i] == r[0] + i
    ensures difficulty == Str("Easy") ==> r[0] == 6 && |r| == 4
    ensures difficulty == Str("Medium") ==> r[0] == 8 && |r| == 4
    ensures difficulty == Str("Hard") ==> r[0] == 10 && |r| == 3
    ensures difficulty !in {Str("Easy"), Str("Medium"), Str("Hard")} ==> r == AllGrades
  {
    if difficulty == Str("Easy") then Range(6, 9)
    else if difficulty == Str("Medium") then Range(8, 11)
    else if difficulty == Str("Hard") then Range(10, 12)
    else AllGrades
  }

  /** The levels given to a document: a missing difficulty counts as Medium (a present `None` does not). */
  function GradesOf(doc: Doc): (r: seq<int>)
    ensures "difficulty" !in doc ==> r == GradesFor(Str("Medium"))
    ensures "difficulty" in doc ==> r == GradesFor(doc["difficulty"])
  {
    GradesFor(GetOr(doc, "difficulty", Str("Medium")))
  }

  /** Every level list lies inside the full range 6..12, strictly ascending. */
  lemma GradesWithinAll(difficulty: Value)
    ensures forall i :: 0 <= i < |GradesFor(difficulty)| ==> GradesFor(difficulty)[i] in AllGrades
    ensures forall i, j :: 0 <= i < j < |GradesFor(difficulty)| ==> GradesFor(difficulty)[i] < GradesFor(difficulty)[j]
  {
    var r := GradesFor(difficulty);
    forall i | 0 <= i < |r| ensures r[i] in AllGrades {
      assert AllGrades[r[i] - 6] == r[i];
    }
  }

  predicate Graded(doc: Doc) {
    "grade_level" in doc
  }

  /** The update one document gets: none when it already has levels or when the store refuses it. */
  function WriteOf(id: string, doc: Doc, updateOk: string -> bool): (w: seq<(string, seq<int>)>)
    ensures |w| <= 1
    ensures |w| == 1 <==> !Graded(doc) && updateOk(id)
  {
    if !Graded(doc) && updateOk(id) then [(id, GradesOf(doc))] else []
  }

  /** 1 for a document that already has levels. */
  function SkipOf(doc: Doc): (n: nat)
    ensures n <= 1
  {
    if Graded(doc) then 1 else 0
  }

  /** Documents that already have levels, counted over a prefix of the stream. */
  function SkippedIn(docs: seq<(string, Doc)>): (r: nat)
    ensures r <= |docs|
  {
    if |docs| == 0 then 0
    else SkippedIn(docs[..|docs| - 1]) + SkipOf(docs[|docs| - 1].1)
  }

  /** The updates that go through, in stream order: id and the levels written. */
  function WritesIn(docs: seq<(string, Doc)>, updateOk: string -> bool): (r: seq<(string, seq<int>)>)
    ensures |r| + SkippedIn(docs) <= |docs|
  {
    if |docs| == 0 then []
    else
      var last := docs[|docs| - 1];
      WritesIn(docs[..|docs| - 1], updateOk) + WriteOf(last.0, last.1, updateOk)
  }

  /** Only documents without levels are written, each with the levels of its own difficulty. */
  lemma {:induction false} WritesOnlyUngraded(docs: seq<(string, Doc)>, updateOk: string -> bool)
    ensures forall w :: w in WritesIn(docs, updateOk) ==>
      exists k :: 0 <= k < |docs| && docs[k].0 == w.0 && !Graded(docs[k].1) && updateOk(w.0) && w.1 == GradesOf(docs[k].1)
  {
    if |docs| > 0 {
      var front := docs[..|docs| - 1];
      WritesOnlyUngraded(front, updateOk);
      forall w | w in WritesIn(docs, updateOk)
        ensures exists k :: 0 <= k < |docs| && docs[k].0 == w.0 && !Graded(docs[k].1) && updateOk(w.0) && w.1 == GradesOf(docs[k].1)
      {
        if w in WritesIn(front, updateOk) {
          var k :| 0 <= k < |front| && front[k].0 == w.0 && !Graded(front[k].1) && updateOk(w.0) && w.1 == GradesOf(front[k].1);
          assert docs[k] == front[k];
        } else {
          assert docs[|docs| - 1].0 == w.0;
        }
      }
    }
  }

  /** When every update succeeds, every document is either skipped or written. */
  lemma {:induction false} AllSucceedCoversAll(docs: seq<(string, Doc)>, updateOk: string -> bool)
    requires forall k :: 0 <= k < |docs| ==> updateOk(docs[k].0)
    ensures |WritesIn(docs, updateOk)| + SkippedIn(docs) == |docs|
  {
    if |docs| > 0 {
      AllSucceedCoversAll(docs[..|docs| - 1], updateOk);
    }
  }

  /** One more document of the stream: skipped when graded, otherwise written when its update goes through. */
  lemma StreamStep(docs: seq<(string, Doc)>, i: nat, updateOk: string -> bool)
    requires i < |docs|
    ensures SkippedIn(docs[..i + 1]) == SkippedIn(docs[..i]) + SkipOf(docs[i].1)
    ensures WritesIn(docs[..i + 1], updateOk) == WritesIn(docs[..i], updateOk) + WriteOf(docs[i].0, docs[i].1, updateOk)
  {
    assert docs[..i + 1][..i] == docs[..i];
  }

  /** `add_grade_level_to_problems`: the counts it prints and the updates it makes. */
  method AddGradeLevels(docs: seq<(string, Doc)>, updateOk: string -> bool)
    returns (updated: nat, skipped: nat, writes: seq<(string, seq<int>)>)
    ensures writes == WritesIn(docs, updateOk)
    ensures updated == |writes| && skipped == SkippedIn(docs)
    ensures updated + skipped <= |docs|
  {
    updated, skipped, writes := 0, 0, [];
    var i := 0;
    while i < |docs|
      invariant 0 <= i <= |docs|
      invariant writes == WritesIn(docs[..i], updateOk) && updated == |writes|
      invariant skipped == SkippedIn(docs[..i])
    {
      var id, doc := docs[i].0, docs[i].1;
      StreamStep(docs, i, updateOk);
      if Graded(doc) {
        skipped := skipped + 1;
        assert SkipOf(doc) == 1 && WriteOf(id, doc, updateOk) == [];
      } else {
        var levels := GradesOf(doc);
        if updateOk(id) {
          writes := writes + [(id, levels)];
          updated := updated + 1;
          assert WriteOf(id, doc, updateOk) == [(id, levels)];
        } else {
          assert WriteOf(id, doc, updateOk) == [];
        }
      }
      i := i + 1;
    }
    assert docs[..i] == docs;
  }
}

=== FILE: grading.dfy ===
/**
 * `GradingService.grade_answers`: one result per submitted answer, in submission order, and
 * the categories of the wrong ones.
 */
module Grading {
  import opened Wrappers
  import opened Json
  import opened Problems

  datatype GradedResult = GradedResult(
    id: Value, userAnswer: Value, correctAnswer: Value, isCorrect: bool,
    text: Value, solution: Value, category: Value)

  /** `problems.get(problem_id, {})` read field by field: a missing problem reads as all None. */
  function ProblemOf(problems: map<string, Problem>, id: Value): (p: Problem)
    ensures !(id.Str? && id.s in problems) ==> p == Problem(Null, Null, Null, Null, Null)
    ensures id.Str? && id.s in problems ==> p == problems[id.s]
  {
    if id.Str? && id.s in problems then problems[id.s] else Problem(Null, Null, Null, Null, Null)
  }

  /** One answer graded: correct only against a truthy stored answer, by exact equality. */
  function GradeOne(problems: map<string, Problem>, id: Value, answer: Value): (r: GradedResult)
    ensures r.id == id && r.userAnswer == answer && r.correctAnswer == ProblemOf(problems, id).correctAnswer
    ensures r.category == ProblemOf(problems, id).category
    ensures r.isCorrect <==> Truthy(r.correctAnswer) && answer == r.correctAnswer
  {
    var p := ProblemOf(problems, id);
    GradedResult(id, answer, p.correctAnswer, Truthy(p.correctAnswer) && answer == p.correctAnswer, p.text, p.solution, p.category)
  }

  /** The categories of the wrong results that have a truthy category, in order, repeats kept. */
  function WrongCategories(results: seq<GradedResult>): (r: seq<Value>)
    ensures |r| <= CountIncorrect(results)
    ensures forall v :: v in r ==> Truthy(v)
    ensures forall v :: v in r <==> exists i :: 0 <= i < |results| && WrongWith(results[i], v)
  {
    if |results| == 0 then []
    else
      var head := if !results[0].isCorrect && Truthy(results[0].category) then [results[0].category] else [];
      head + WrongCategories(results[1..])
  }

  /** A wrong result filed under the truthy category `v`. */
  predicate WrongWith(g: GradedResult, v: Value) {
    !g.isCorrect && Truthy(g.category) && g.category == v
  }

  /** The categories of one result: its own, when it is wrong and the category is truthy. */
  lemma WrongCategoriesOne(g: GradedResult)
    ensures !g.isCorrect && Truthy(g.category) ==> WrongCategories([g]) == [g.category]
    ensures g.isCorrect || !Truthy(g.category) ==> WrongCategories([g]) == []
  {
    assert [g][1..] == [];
  }

  /** The categories are collected result by result, in order: a split of the results splits the list. */
  lemma {:induction false} WrongCategoriesAppend(a: seq<GradedResult>, b: seq<GradedResult>)
    ensures WrongCategories(a + b) == WrongCategories(a) + WrongCategories(b)
    decreases |a|
  {
    if |a| > 0 {
      assert (a + b)[0] == a[0];
      assert (a + b)[1..] == a[1..] + b;
      WrongCategoriesAppend(a[1..], b);
    } else {
      assert a + b == b;
    }
  }

  function CountIncorrect(results: seq<GradedResult>): nat {
    if |results| == 0 then 0 else (if results[0].isCorrect then 0 else 1) + CountIncorrect(results[1..])
  }

  /** `grade_answers(user_answers, problems)`, the answers in their insertion order. */
  function GradeAnswers(answers: seq<(Value, Value)>, problems: map<string, Problem>): (r: (seq<GradedResult>, seq<Value>))
    ensures |r.0| == |answers|
    ensures forall i :: 0 <= i < |answers| ==> r.0[i] == GradeOne(problems, answers[i].0, answers[i].1)
    ensures r.1 == WrongCategories(r.0)
  {
    if |answers| == 0 then ([], [])
    else
      var (results, wrong) := GradeAnswers(answers[1..], problems);
      var first := GradeOne(problems, answers[0].0, answers[0].1);
      var all := [first] + results;
      assert all[1..] == results;
      (all, (if !first.isCorrect && Truthy(first.category) then [first.category] else []) + wrong)
  }

  /** An answer to a problem that is missing, or whose stored answer is empty, is never correct. */
  lemma NoKeyNoCredit(answers: seq<(Value, Value)>, problems: map<string, Problem>, i: nat)
    requires i < |answers|
    requires !Truthy(ProblemOf(problems, answers[i].0).correctAnswer)
    ensures !GradeAnswers(answers, problems).0[i].isCorrect
  {
  }
}

=== FILE: jira.dfy ===
/**
 * The pure parts of the Jira client: the instance URL and an issue's browse URL, the choice
 * of workflow transition for a requested status, the plain text of a comment written in the
 * Atlassian Document Format (ADF), and the decision of the approval-wait loop. The REST
 * requests are left out; what `get_issue` returns on each poll is a parameter.
 */
module Jira {
  import opened Wrappers
  import opened Text
  import opened Json

  /** The exceptions Python raises on a malformed document. */
  datatype Fault =
    | TypeError       // iterating a number, `None` or a boolean; subscripting a non-dict; joining a non-string
    | AttributeError  // `.get` on an element that is not a dict
    | KeyError        // a comment without a `body`

  // ----- URLs -----

  /** `config['base_url'].rstrip('/')`: the configured URL without its trailing slashes. */
  function BaseUrl(configured: string): (r: string)
    ensures |r| <= |configured| && configured[..|r|] == r
    ensures r == [] || r[|r| - 1] != '/'
    ensures forall i :: |r| <= i < |configured| ==> configured[i] == '/'
  {
    TrimEnd(configured, c => c == '/')
  }

  /** Stripping once is enough: a stripped URL is left alone. */
  lemma BaseUrlIdempotent(configured: string)
    ensures BaseUrl(BaseUrl(configured)) == BaseUrl(configured)
  {
    var b := BaseUrl(configured);
    if |b| > 0 {
      assert b[|b| - 1] != '/';
    }
  }

  /** The URL an issue is reported under: the base URL, `/browse/`, the key. */
  function IssueUrl(configured: string, key: string): (r: string)
    ensures |r| == |BaseUrl(configured)| + 8 + |key|
    ensures r[..|BaseUrl(configured)|] == BaseUrl(configured)
    ensures r[|BaseUrl(configured)|..] == "/browse/" + key
  {
    BaseUrl(configured) + "/browse/" + key
  }

  /** However many slashes the configured URL ends with, the issue URL is the same. */
  lemma {:induction false} IssueUrlIgnoresSlashes(configured: string, key: string)
    ensures IssueUrl(configured + "/", key) == IssueUrl(configured, key)
  {
    var s := configured + "/";
    assert s[..|s| - 1] == configured;
  }

  // ----- Transitions -----

  /** One entry of the issue's `transitions` list: its id, its name and the name of the status it leads to. */
  datatype Transition = Transition(id: string, name: string, target: string)

  /** Whether a transition leads to the status `want` (already lower-cased) by its own or its target's name. */
  predicate Leads(t: Transition, want: string) {
    Lower(t.name) == want || Lower(t.target) == want
  }

  /** The index of the first transition from `i` on that leads to `want`. */
  function FirstFrom(ts: seq<Transition>, want: string, i: nat): (r: Option<nat>)
    requires i <= |ts|
    ensures r.Some? ==> i <= r.value < |ts| && Leads(ts[r.value], want)
    ensures r.Some? ==> forall j :: i <= j < r.value ==> !Leads(ts[j], want)
    ensures r.None? <==> forall j :: i <= j < |ts| ==> !Leads(ts[j], want)
    decreases |ts| - i
  {
    if i == |ts| then None
    else if Leads(ts[i], want) then Some(i)
    else FirstFrom(ts, want, i + 1)
  }

  /**
   * `update_status`'s choice: the id of the first transition whose name or target matches the
   * requested status regardless of case; None (no request is made) when nothing matches or the
   * matching id is empty.
   */
  function TransitionToPost(ts: seq<Transition>, status: string): (r: Option<string>)
    ensures r.Some? ==> r.value != "" && exists j :: 0 <= j < |ts| && ts[j].id == r.value && Leads(ts[j], Lower(status))
    ensures r.None? <==> FirstFrom(ts, Lower(status), 0).None? || ts[FirstFrom(ts, Lower(status), 0).value].id == ""
  {
    match FirstFrom(ts, Lower(status), 0)
    case None => None
    case Some(j) => if ts[j].id == "" then None else Some(ts[j].id)
  }

  /** Asking for "DONE", "done" or "Done" picks the same transition. */
  lemma TransitionIgnoresCase(ts: seq<Transition>, status: string)
    ensures TransitionToPost(ts, Lower(status)) == TransitionToPost(ts, status)
  {
    LowerIdempotent(status);
  }

  /** The first matching transition is the one requested, whatever matches after it. */
  lemma FirstMatchWins(ts: seq<Transition>, status: string, j: nat)
    requires j < |ts| && Leads(ts[j], Lower(status)) && ts[j].id != ""
    requires forall k :: 0 <= k < j ==> !Leads(ts[k], Lower(status))
    ensures TransitionToPost(ts, status) == Some(ts[j].id)
  {
    var f := FirstFrom(ts, Lower(status), 0);
    assert f.Some?;
    assert f.value == j;
  }

  // ----- Document text -----

  /**
   * Iterating a value and calling `.get` on each element: a list gives its elements; an empty
   * string or dict gives none; a non-empty string or dict gives strings, whose `.get` fails;
   * anything else is not iterable.
   */
  function Iterate(v: Value): (r: Result<seq<Value>, Fault>)
    ensures v.List? ==> r == Ok(v.items)
    ensures r.Ok? ==> v.List? || (!Truthy(v) && r.value == [])
    ensures (v.Str? || v.Obj?) && Truthy(v) ==> r == Err(AttributeError)
    ensures v.Null? || v.Bool? || v.Int? || v.ServerTime? ==> r == Err(TypeError)
  {
    match v
    case List(xs) => Ok(xs)
    case Str(s) => if s == "" then Ok([]) else Err(AttributeError)
    case Obj(m) => if |m| == 0 then Ok([]) else Err(AttributeError)
    case _ => Err(TypeError)
  }

  predicate IsText(item: Value) {
    item.Obj? && Get(item.fields, "type") == Str("text")
  }

  predicate IsParagraph(block: Value) {
    block.Obj? && Get(block.fields, "type") == Str("paragraph")
  }

  /** The `text` of every text item, in order, a missing one counting as the empty string. */
  function ItemParts(items: seq<Value>): (r: Result<seq<Value>, Fault>)
    ensures r.Ok? <==> forall i :: 0 <= i < |items| ==> items[i].Obj?
    ensures r.Ok? ==> |r.value| <= |items|
    ensures r.Err? ==> r.error == AttributeError
  {
    if |items| == 0 then Ok([])
    else if !items[0].Obj? then Err(AttributeError)
    else
      var here := if IsText(items[0]) then [GetOr(items[0].fields, "text", Str(""))] else [];
      match ItemParts(items[1..])
      case Err(e) => Err(e)
      case Ok(rest) =>
        assert forall i :: 1 <= i < |items| ==> items[i] == items[1..][i - 1];
        Ok(here + rest)
  }

  /** An object item that is not a text item contributes nothing. */
  lemma SkipsNonText(items: seq<Value>, x: Value)
    requires x.Obj? && !IsText(x)
    ensures ItemParts([x] + items) == ItemParts(items)
  {
    assert ([x] + items)[0] == x;
    assert ([x] + items)[1..] == items;
    if ItemParts(items).Ok? {
      assert [] + ItemParts(items).value == ItemParts(items).value;
    }
  }

  /** A text item without `text` contributes the empty string. */
  lemma MissingTextIsEmpty()
    ensures ItemParts([Obj(map["type" := Str("text")])]) == Ok([Str("")])
  {
    var x := Obj(map["type" := Str("text")]);
    assert "type"[1] != "text"[1];
    assert IsText(x) && "text" !in x.fields;
    assert GetOr(x.fields, "text", Str("")) == Str("");
    assert [x][1..] == [];
    assert ItemParts([x][1..]) == Ok([]);
    assert [Str("")] + [] == [Str("")];
  }

  /** The items of a paragraph are read independently, in order. */
  lemma {:induction false} ItemPartsAppend(a: seq<Value>, b: seq<Value>)
    ensures ItemParts(a).Err? ==> ItemParts(a + b) == ItemParts(a)
    ensures ItemParts(a).Ok? ==> ItemParts(a + b) == (match ItemParts(b) case Err(e) => Err(e) case Ok(q) => Ok(ItemParts(a).value + q))
  {
    if |a| > 0 {
      assert (a + b)[0] == a[0];
      assert (a + b)[1..] == a[1..] + b;
      ItemPartsAppend(a[1..], b);
      if a[0].Obj? && ItemParts(a[1..]).Ok? && ItemParts(b).Ok? {
        var here := if IsText(a[0]) then [GetOr(a[0].fields, "text", Str(""))] else [];
        assert here + (ItemParts(a[1..]).value + ItemParts(b).value)
            == here + ItemParts(a[1..]).value + ItemParts(b).value;
      }
    } else {
      assert a + b == b;
      if ItemParts(b).Ok? {
        assert ItemParts(a).value + ItemParts(b).value == ItemParts(b).value;
      }
    }
  }

  /** The parts of one block: a paragraph's text items; nothing for any other block. */
  function BlockPart(block: Value): (r: Result<seq<Value>, Fault>)
    requires block.Obj?
    ensures !IsParagraph(block) ==> r == Ok([])
  {
    if !IsParagraph(block) then Ok([])
    else
      match Iterate(GetOr(block.fields, "content", List([])))
      case Err(e) => Err(e)
      case Ok(items) => ItemParts(items)
  }

  /** The parts of every block, in document order; the first malformed block decides the error. */
  function BlockParts(blocks: seq<Value>): (r: Result<seq<Value>, Fault>)
    ensures r.Ok? <==> forall i :: 0 <= i < |blocks| ==> blocks[i].Obj? && BlockPart(blocks[i]).Ok?
  {
    if |blocks| == 0 then Ok([])
    else if !blocks[0].Obj? then Err(AttributeError)
    else
      match BlockPart(blocks[0])
      case Err(e) => Err(e)
      case Ok(here) =>
        match BlockParts(blocks[1..])
        case Err(e) => Err(e)
        case Ok(rest) =>
          assert forall i :: 1 <= i < |blocks| ==> blocks[i] == blocks[1..][i - 1];
          Ok(here + rest)
  }

  /** The blocks of a document are read independently: the parts of `a + b` are those of `a`, then those of `b`. */
  lemma {:induction false} BlockPartsAppend(a: seq<Value>, b: seq<Value>)
    ensures BlockParts(a).Err? ==> BlockParts(a + b) == BlockParts(a)
    ensures BlockParts(a).Ok? ==> BlockParts(a + b) == (match BlockParts(b) case Err(e) => Err(e) case Ok(q) => Ok(BlockParts(a).value + q))
  {
    if |a| > 0 {
      assert (a + b)[0] == a[0];
      assert (a + b)[1..] == a[1..] + b;
      BlockPartsAppend(a[1..], b);
      if a[0].Obj? && BlockPart(a[0]).Ok? && BlockParts(a[1..]).Ok? && BlockParts(b).Ok? {
        assert BlockPart(a[0]).value + (BlockParts(a[1..]).value + BlockParts(b).value)
            == BlockPart(a[0]).value + BlockParts(a[1..]).value + BlockParts(b).value;
      }
    } else {
      assert a + b == b;
      if BlockParts(b).Ok? {
        assert BlockParts(a).value + BlockParts(b).value == BlockParts(b).value;
      }
    }
  }

  /** The strings of a list of parts, None when one of them is not a string. */
  function Strings(parts: seq<Value>): (r: Option<seq<string>>)
    ensures r.Some? <==> forall i :: 0 <= i < |parts| ==> parts[i].Str?
    ensures r.Some? ==> |r.value| == |parts| && forall i :: 0 <= i < |parts| ==> r.value[i] == parts[i].s
  {
    if |parts| == 0 then Some([])
    else if !parts[0].Str? then None
    else
      match Strings(parts[1..])
      case None => None
      case Some(rest) =>
        assert forall i :: 1 <= i < |parts| ==> parts[i] == parts[1..][i - 1];
        Some([parts[0].s] + rest)
  }

  /**
   * `_extract_text_from_adf`: "" for a falsy document or one without `content`; otherwise the
   * text items of the paragraph blocks, in order, joined with single spaces.
   */
  function ExtractText(adf: Value): (r: Result<string, Fault>)
    ensures !Truthy(adf) ==> r == Ok("")
    ensures adf.Obj? && "content" !in adf.fields ==> r == Ok("")
    ensures r.Ok? && r.value != "" ==> adf.Obj? && "content" in adf.fields
    ensures adf.Null? || adf.Bool? || adf.Int? ==> r == Ok("") || r == Err(TypeError)
  {
    if !Truthy(adf) then Ok("")
    else
      match PyIn("content", adf)
      case None => Err(TypeError)
      case Some(false) => Ok("")
      case Some(true) =>
        if !adf.Obj? then Err(TypeError)
        else
          match Iterate(adf.fields["content"])
          case Err(e) => Err(e)
          case Ok(blocks) =>
            match BlockParts(blocks)
            case Err(e) => Err(e)
            case Ok(parts) =>
              match Strings(parts)
              case None => Err(TypeError)
              case Some(strs) => Ok(Join(strs, " "))
  }

  // ----- Building documents, for the round trip -----

  function TextItem(t: string): Value {
    Obj(map["type" := Str("text"), "text" := Str(t)])
  }

  function TextItems(texts: seq<string>): (r: seq<Value>)
    ensures |r| == |texts|
    ensures forall i :: 0 <= i < |texts| ==> r[i] == TextItem(texts[i])
  {
    seq(|texts|, i requires 0 <= i < |texts| => TextItem(texts[i]))
  }

  function Paragraph(texts: seq<string>): Value {
    Obj(map["type" := Str("paragraph"), "content" := List(TextItems(texts))])
  }

  function Paragraphs(paras: seq<seq<string>>): (r: seq<Value>)
    ensures |r| == |paras|
    ensures forall i :: 0 <= i < |paras| ==> r[i] == Paragraph(paras[i])
  {
    seq(|paras|, i requires 0 <= i < |paras| => Paragraph(paras[i]))
  }

  /** A document of paragraphs of plain text, as Jira stores a typed comment. */
  function Document(paras: seq<seq<string>>): Value {
    Obj(map["type" := Str("doc"), "content" := List(Paragraphs(paras))])
  }

  function Flatten(paras: seq<seq<string>>): (r: seq<string>)
    ensures |paras| > 0 ==> r == paras[0] + Flatten(paras[1..])
  {
    if |paras| == 0 then [] else paras[0] + Flatten(paras[1..])
  }

  function StrValues(texts: seq<string>): (r: seq<Value>)
    ensures |r| == |texts|
    ensures forall i :: 0 <= i < |texts| ==> r[i] == Str(texts[i])
  {
    seq(|texts|, i requires 0 <= i < |texts| => Str(texts[i]))
  }

  lemma {:induction false} TextItemParts(texts: seq<string>)
    ensures ItemParts(TextItems(texts)) == Ok(StrValues(texts))
    decreases |texts|
  {
    if |texts| > 0 {
      var items := TextItems(texts);
      assert items[1..] == TextItems(texts[1..]);
      TextItemParts(texts[1..]);
      assert IsText(items[0]);
      assert [Str(texts[0])] + StrValues(texts[1..]) == StrValues(texts);
    }
  }

  lemma ParagraphPart(texts: seq<string>)
    ensures BlockPart(Paragraph(texts)) == Ok(StrValues(texts))
  {
    var p := Paragraph(texts);
    assert IsParagraph(p);
    assert GetOr(p.fields, "content", List([])) == List(TextItems(texts));
    TextItemParts(texts);
  }

  lemma StrValuesAppend(x: seq<string>, y: seq<string>)
    ensures StrValues(x + y) == StrValues(x) + StrValues(y)
  {
  }

  /** One step of `BlockParts` over a list that starts with a paragraph of plain text. */
  lemma ParagraphFirst(blocks: seq<Value>, texts: seq<string>)
    requires |blocks| > 0 && blocks[0] == Paragraph(texts)
    ensures BlockParts(blocks) == (match BlockParts(blocks[1..]) case Err(e) => Err(e) case Ok(q) => Ok(StrValues(texts) + q))
  {
    ParagraphPart(texts);
  }

  lemma {:induction false} ParagraphsParts(paras: seq<seq<string>>)
    ensures BlockParts(Paragraphs(paras)) == Ok(StrValues(Flatten(paras)))
    decreases |paras|
  {
    if |paras| > 0 {
      var blocks := Paragraphs(paras);
      assert blocks[1..] == Paragraphs(paras[1..]);
      ParagraphsParts(paras[1..]);
      ParagraphFirst(blocks, paras[0]);
      StrValuesAppend(paras[0], Flatten(paras[1..]));
    } else {
      assert StrValues(Flatten(paras)) == [];
    }
  }

  /** Round trip: the text read back from a document of paragraphs is its words joined by spaces. */
  lemma ExtractDocument(paras: seq<seq<string>>)
    ensures ExtractText(Document(paras)) == Ok(Join(Flatten(paras), " "))
  {
    var d := Document(paras);
    assert Truthy(d);
    assert d.fields["content"] == List(Paragraphs(paras));
    ParagraphsParts(paras);
    var strs := Strings(StrValues(Flatten(paras)));
    assert strs.value == Flatten(paras);
  }

  // ----- Waiting for approval -----

  /** What one poll sees of the issue: its status name and its list of comments. */
  datatype Issue = Issue(status: string, comments: seq<Value>)

  /** Statuses that count as approval: "In Progress" or "Done", in any case. */
  predicate ApprovingStatus(status: string) {
    Lower(status) == "in progress" || Lower(status) == "done"
  }

  /** `comment['body']` read as text. */
  function CommentText(comment: Value): (r: Result<string, Fault>)
    ensures comment.Obj? && "body" in comment.fields ==> r == ExtractText(comment.fields["body"])
    ensures comment.Obj? && "body" !in comment.fields ==> r == Err(KeyError)
    ensures !comment.Obj? ==> r == Err(TypeError)
  {
    match comment
    case Obj(m) => if "body" in m then ExtractText(m["body"]) else Err(KeyError)
    case _ => Err(TypeError)
  }

  /** A comment whose text contains the keyword. */
  predicate Approves(comment: Value, keyword: string) {
    CommentText(comment).Ok? && Contains(CommentText(comment).value, keyword)
  }

  /** The new comments in order, stopping at the first that approves or cannot be read. */
  function ScanComments(cs: seq<Value>, keyword: string): (r: Result<bool, Fault>)
    ensures r == Ok(true) ==> exists i :: 0 <= i < |cs| && Approves(cs[i], keyword)
    ensures r == Ok(false) <==> forall i :: 0 <= i < |cs| ==> CommentText(cs[i]).Ok? && !Approves(cs[i], keyword)
  {
    if |cs| == 0 then Ok(false)
    else
      match CommentText(cs[0])
      case Err(e) => Err(e)
      case Ok(t) =>
        if Contains(t, keyword) then Ok(true)
        else
          var rest := ScanComments(cs[1..], keyword);
          assert forall i :: 1 <= i < |cs| ==> cs[i] == cs[1..][i - 1];
          rest
  }

  /** A readable run of comments ending in an approving one is an approval. */
  lemma {:induction false} ScanFindsApproval(cs: seq<Value>, keyword: string, i: nat)
    requires i < |cs| && Approves(cs[i], keyword)
    requires forall j :: 0 <= j < i ==> CommentText(cs[j]).Ok?
    ensures ScanComments(cs, keyword) == Ok(true)
    decreases i
  {
    var first := CommentText(cs[0]);
    assert first.Ok?;
    if i > 0 && !Contains(first.value, keyword) {
      var tail := cs[1..];
      assert tail[i - 1] == cs[i];
      assert forall j :: 0 <= j < i - 1 ==> tail[j] == cs[j + 1];
      ScanFindsApproval(tail, keyword, i - 1);
      assert ScanComments(cs, keyword) == ScanComments(tail, keyword);
    }
  }

  datatype Poll = Approved | Waiting(seen: nat)

  /**
   * One round of `wait_for_approval`: no issue, keep waiting; an approving status, approved;
   * otherwise the comments after the `seen` first are scanned for the keyword, and when there
   * are more comments than before the count moves up to their number.
   */
  function PollOnce(issue: Option<Issue>, seen: nat, keyword: string): (r: Result<Poll, Fault>)
    ensures issue.None? ==> r == Ok(Waiting(seen))
    ensures issue.Some? && ApprovingStatus(issue.value.status) ==> r == Ok(Approved)
    ensures r.Ok? && r.value.Waiting? ==>
      r.value.seen == (if issue.Some? && |issue.value.comments| > seen then |issue.value.comments| else seen)
    ensures r == Ok(Approved) ==>
      issue.Some? && (ApprovingStatus(issue.value.status) || exists i :: seen <= i < |issue.value.comments| && Approves(issue.value.comments[i], keyword))
  {
    match issue
    case None => Ok(Waiting(seen))
    case Some(Issue(status, cs)) =>
      if ApprovingStatus(status) then Ok(Approved)
      else if |cs| > seen then
        match ScanComments(cs[seen..], keyword)
        case Err(e) => Err(e)
        case Ok(found) =>
          if found then
            ghost var k :| 0 <= k < |cs[seen..]| && Approves(cs[seen..][k], keyword);
            assert cs[seen + k] == cs[seen..][k];
            Ok(Approved)
          else Ok(Waiting(|cs|))
      else Ok(Waiting(seen))
  }

  /** Comments already seen are never read again: changing them does not change the poll. */
  lemma PollIgnoresSeen(status: string, a: seq<Value>, b: seq<Value>, seen: nat, keyword: string)
    requires |a| == |b|
    requires seen <= |a| ==> a[seen..] == b[seen..]
    ensures PollOnce(Some(Issue(status, a)), seen, keyword) == PollOnce(Some(Issue(status, b)), seen, keyword)
  {
  }

  /** A new comment carrying the keyword approves, provided the comments before it can be read. */
  lemma NewCommentApproves(status: string, cs: seq<Value>, seen: nat, keyword: string, i: nat)
    requires seen <= i < |cs| && Approves(cs[i], keyword)
    requires forall j :: seen <= j < i ==> CommentText(cs[j]).Ok?
    ensures PollOnce(Some(Issue(status, cs)), seen, keyword) == Ok(Approved)
  {
    if !ApprovingStatus(status) {
      var tail := cs[seen..];
      assert tail[i - seen] == cs[i];
      assert forall j :: 0 <= j < i - seen ==> tail[j] == cs[seen + j];
      ScanFindsApproval(tail, keyword, i - seen);
    }
  }

  /**
   * The loop over the polls made before the timeout: true as soon as a poll approves, false
   * when the time runs out, and the fault when a comment cannot be read.
   */
  function WaitFor(polls: seq<Option<Issue>>, seen: nat, keyword: string): (r: Result<bool, Fault>)
    ensures |polls| == 0 ==> r == Ok(false)
    ensures |polls| > 0 && PollOnce(polls[0], seen, keyword) == Ok(Approved) ==> r == Ok(true)
    ensures |polls| > 0 && PollOnce(polls[0], seen, keyword).Err? ==> r == Err(PollOnce(polls[0], seen, keyword).error)
    ensures r == Ok(true) ==> exists i :: 0 <= i < |polls| && polls[i].Some?
    decreases |polls|
  {
    if |polls| == 0 then Ok(false)
    else
      match PollOnce(polls[0], seen, keyword)
      case Err(e) => Err(e)
      case Ok(Approved) => Ok(true)
      case Ok(Waiting(seen')) =>
        var r := WaitFor(polls[1..], seen', keyword);
        assert r == Ok(true) ==> exists i :: 1 <= i < |polls| && polls[i].Some? by {
          if r == Ok(true) {
            var i :| 0 <= i < |polls[1..]| && polls[1..][i].Some?;
            assert polls[i + 1] == polls[1..][i];
          }
        }
        r
  }

  /** An approval or a fault ends the wait: later polls change nothing. */
  lemma {:induction false} WaitOutcomeFinal(polls: seq<Option<Issue>>, more: seq<Option<Issue>>, seen: nat, keyword: string)
    requires WaitFor(polls, seen, keyword) != Ok(false)
    ensures WaitFor(polls + more, seen, keyword) == WaitFor(polls, seen, keyword)
    decreases |polls|
  {
    assert (polls + more)[0] == polls[0];
    match PollOnce(polls[0], seen, keyword)
    case Err(_) =>
    case Ok(Approved) =>
    case Ok(Waiting(seen')) =>
      assert (polls + more)[1..] == polls[1..] + more;
      WaitOutcomeFinal(polls[1..], more, seen', keyword);
  }

  /** Polls that never find the issue end in a timeout. */
  lemma {:induction false} UnreachableIssueTimesOut(polls: seq<Option<Issue>>, seen: nat, keyword: string)
    requires forall i :: 0 <= i < |polls| ==> polls[i].None?
    ensures WaitFor(polls, seen, keyword) == Ok(false)
    decreases |polls|
  {
    if |polls| > 0 {
      assert forall i :: 0 <= i < |polls| - 1 ==> polls[1..][i] == polls[i + 1];
      UnreachableIssueTimesOut(polls[1..], seen, keyword);
    }
  }
}

=== FILE: json.dfy ===
/**
 * JSON-like document values as the backend reads them from the document store and from
 * request bodies, with Python's truthiness rule. `ServerTime` stands for the store's
 * server-assigned timestamp sentinel, whose value the model never inspects.
 */
module Json {
  import opened Wrappers
  import opened Text

  datatype Value =
    | Null
    | Bool(b: bool)
    | Int(i: int)
    | Str(s: string)
    | List(items: seq<Value>)
    | Obj(fields: map<string, Value>)
    | ServerTime

  /** A stored document: field name to value. */
  type Doc = map<string, Value>

  /** Python truthiness (`if v:`): None, False, 0, "", [] and {} are false. */
  predicate Truthy(v: Value) {
    match v
    case Null => false
    case Bool(b) => b
    case Int(i) => i != 0
    case Str(s) => s != ""
    case List(xs) => |xs| > 0
    case Obj(m) => |m| > 0
    case ServerTime => true
  }

  /** `d.get(k)`: the field's value, or None when the field is absent. */
  function Get(d: Doc, k: string): Value {
    if k in d then d[k] else Null
  }

  /** `d.get(k, default)`: a present field wins even when it holds None. */
  function GetOr(d: Doc, k: string, default: Value): Value {
    if k in d then d[k] else default
  }

  /** The text of a string value, "" for anything else. */
  function TextOf(v: Value): string {
    if v.Str? then v.s else ""
  }

  /**
   * Python's `key in v` for a string key: a dict's keys, a substring of a string, an element of
   * a list; None when `in` raises because the value is not a container.
   */
  function PyIn(key: string, v: Value): (r: Option<bool>)
    ensures r.None? <==> !(v.Obj? || v.Str? || v.List?)
    ensures v.Obj? ==> r == Some(key in v.fields)
  {
    match v
    case Obj(m) => Some(key in m)
    case Str(s) => Some(Contains(s, key))
    case List(xs) => Some(Str(key) in xs)
    case _ => None
  }
}

=== FILE: latex_fix.dfy ===
/**
 * The one-off clean-up of LaTeX text markup in stored questions: `clean_text` drops the
 * `\textit{}`, `\textbf{}` and `\text{}` wrappers and un-escapes `\%`; `fix_questions` writes
 * back exactly the documents whose text fields that changes.
 */
module LatexFix {
  import opened Wrappers
  import opened Json
  import opened Text

  const TextItalic: string := "\\textit{"
  const TextBold: string := "\\textbf{"
  const TextPlain: string := "\\text{"
  const PercentEscape: string := "\\%"

  // ---------------------------------------------------------------- one regular-expression pass

  /**
   * Where the lazy group `(.*?)\}` that starts at `k` closes: the first '}' at or after `k`,
   * provided no line break comes before it (`.` does not match a line break).
   */
  function Close(s: string, k: nat): (r: Option<nat>)
    requires k <= |s|
    ensures r.Some? ==> k <= r.value < |s| && s[r.value] == '}'
    ensures r.Some? ==> forall i :: k <= i < r.value ==> s[i] != '}' && s[i] != '\n'
    ensures r.None? ==> forall j :: k <= j < |s| && s[j] == '}' ==> exists i :: k <= i < j && s[i] == '\n'
    decreases |s| - k
  {
    if k == |s| then None
    else if s[k] == '}' then Some(k)
    else if s[k] == '\n' then None
    else Close(s, k + 1)
  }

  /** The pattern `<p>(.*?)\}` matches at the front of `s`. */
  predicate MatchesHere(p: string, s: string) {
    StartsWith(s, p) && Close(s, |p|).Some?
  }

  /** The pattern matches somewhere in `s`. */
  predicate HasMatch(p: string, s: string) {
    |s| > 0 && (MatchesHere(p, s) || HasMatch(p, s[1..]))
  }

  /**
   * `re.sub(<p>(.*?)\}, r'\1', s)`: scanning left to right, each match is replaced by its group
   * and the scan resumes after the closing brace, so replaced text is not looked at again.
   */
  function Sub(p: string, s: string): (r: string)
    ensures |r| <= |s|
    ensures HasMatch(p, s) ==> |r| < |s|
    decreases |s|
  {
    if |s| == 0 then ""
    else if MatchesHere(p, s) then
      var j := Close(s, |p|).value;
      s[|p|..j] + Sub(p, s[j + 1..])
    else [s[0]] + Sub(p, s[1..])
  }

  /** A pass changes the text exactly when its pattern matches somewhere. */
  lemma {:induction false} SubUnchangedIff(p: string, s: string)
    ensures Sub(p, s) == s <==> !HasMatch(p, s)
    decreases |s|
  {
    if |s| > 0 && !MatchesHere(p, s) {
      SubUnchangedIff(p, s[1..]);
      assert Sub(p, s) == [s[0]] + Sub(p, s[1..]);
      if Sub(p, s[1..]) == s[1..] {
        assert [s[0]] + s[1..] == s;
      }
      if Sub(p, s) == s {
        assert Sub(p, s)[1..] == Sub(p, s[1..]);
      }
    }
  }

  /** A pattern starting with a backslash never matches a text without one. */
  lemma {:induction false} NoBackslashNoMatch(p: string, s: string)
    requires |p| > 0 && p[0] == '\\' && '\\' !in s
    ensures !HasMatch(p, s)
    decreases |s|
  {
    if |s| > 0 {
      assert s[0] != p[0];
      NoBackslashNoMatch(p, s[1..]);
    }
  }

  // ---------------------------------------------------------------- `\%` -> `%`

  /** `s.replace('\\%', '%')`: every non-overlapping `\%`, left to right, loses its backslash. */
  function UnescapePercent(s: string): (r: string)
    ensures |r| <= |s|
    ensures Contains(s, PercentEscape) ==> |r| < |s|
    decreases |s|
  {
    if StartsWith(s, PercentEscape) then "%" + UnescapePercent(s[2..])
    else if |s| == 0 then ""
    else [s[0]] + UnescapePercent(s[1..])
  }

  /** Un-escaping changes the text exactly when it holds a `\%`. */
  lemma {:induction false} UnescapeUnchangedIff(s: string)
    ensures UnescapePercent(s) == s <==> !Contains(s, PercentEscape)
    decreases |s|
  {
    if |s| > 0 && !StartsWith(s, PercentEscape) {
      UnescapeUnchangedIff(s[1..]);
      if UnescapePercent(s[1..]) == s[1..] {
        assert [s[0]] + s[1..] == s;
      }
      if UnescapePercent(s) == s {
        assert UnescapePercent(s)[1..] == UnescapePercent(s[1..]);
      }
    }
  }

  // ---------------------------------------------------------------- clean_text

  /** `clean_text` on a string: the three wrapper passes in order, then the `\%` pass. */
  function Clean(s: string): (r: string)
    ensures |r| <= |s|
  {
    UnescapePercent(Sub(TextPlain, Sub(TextBold, Sub(TextItalic, s))))
  }

  /** Nothing in `s` for any of the four passes to act on. */
  predicate NothingToClean(s: string) {
    !HasMatch(TextItalic, s) && !HasMatch(TextBold, s) && !HasMatch(TextPlain, s) && !Contains(s, PercentEscape)
  }

  /** `clean_text` leaves a string as it is exactly when no pass finds anything. */
  lemma CleanUnchangedIff(s: string)
    ensures Clean(s) == s <==> NothingToClean(s)
  {
    var a := Sub(TextItalic, s);
    var b := Sub(TextBold, a);
    var c := Sub(TextPlain, b);
    SubUnchangedIff(TextItalic, s);
    SubUnchangedIff(TextBold, a);
    SubUnchangedIff(TextPlain, b);
    UnescapeUnchangedIff(c);
  }

  /** A text without a backslash is returned unchanged. */
  lemma CleanNoBackslash(s: string)
    requires '\\' !in s
    ensures Clean(s) == s
  {
    NoBackslashNoMatch(TextItalic, s);
    NoBackslashNoMatch(TextBold, s);
    NoBackslashNoMatch(TextPlain, s);
    ContainsNeedsChar(s, PercentEscape, '\\');
    CleanUnchangedIff(s);
  }

  /** `clean_text(v)`: a value that is not a string comes back as it is. */
  function CleanText(v: Value): (r: Value)
    ensures !v.Str? ==> r == v
    ensures v.Str? ==> r.Str? && r.s == Clean(v.s)
  {
    if v.Str? then Str(Clean(v.s)) else v
  }

  // ---------------------------------------------------------------- fix_questions

  /** `'text' in choice` on a value that is not a container, or `choice['text']` on a string or a list. */
  datatype Fault = TypeError

  /**
   * One choice: a dict's `text` is cleaned in place; a string or list choice for which
   * `'text' in choice` holds cannot be subscripted by 'text'; a scalar cannot be searched at all.
   */
  function FixChoice(c: Value): (r: Result<(Value, bool), Fault>)
    ensures r.Ok? && c.Obj? && "text" in c.fields ==>
      var n := CleanText(c.fields["text"]);
      r.value == (if n != c.fields["text"] then (Obj(c.fields["text" := n]), true) else (c, false))
    ensures r.Ok? && !(c.Obj? && "text" in c.fields) ==> r.value == (c, false)
    ensures r.Err? <==> PyIn("text", c) != Some(false) && !c.Obj?
  {
    match PyIn("text", c)
    case None => Err(TypeError)
    case Some(false) => Ok((c, false))
    case Some(true) =>
      if !c.Obj? then Err(TypeError)
      else
        var n := CleanText(c.fields["text"]);
        if n != c.fields["text"] then Ok((Obj(c.fields["text" := n]), true)) else Ok((c, false))
  }

  /** Every choice in order; the flag says whether some choice's text changed. */
  function FixChoices(cs: seq<Value>): (r: Result<(seq<Value>, bool), Fault>)
    ensures r.Ok? ==> |r.value.0| == |cs|
    ensures r.Ok? ==> forall i :: 0 <= i < |cs| ==> FixChoice(cs[i]).Ok? && r.value.0[i] == FixChoice(cs[i]).value.0
    ensures r.Ok? ==> (r.value.1 <==> exists i :: 0 <= i < |cs| && FixChoice(cs[i]).value.1)
    ensures r.Err? <==> exists i :: 0 <= i < |cs| && FixChoice(cs[i]).Err?
    decreases |cs|
  {
    if |cs| == 0 then Ok(([], false))
    else
      match FixChoice(cs[0])
      case Err(e) => Err(e)
      case Ok(first) =>
        match FixChoices(cs[1..])
        case Err(e) =>
          ghost var i :| 0 <= i < |cs[1..]| && FixChoice(cs[1..][i]).Err?;
          assert FixChoice(cs[i + 1]).Err?;
          Err(e)
        case Ok(rest) =>
          var r := ([first.0] + rest.0, first.1 || rest.1);
          assert forall i :: 1 <= i < |cs| ==> cs[i] == cs[1..][i - 1];
          Ok(r)
  }

  /** A choice's flag is set exactly when the choice itself changed. */
  lemma ChoiceFlagIff(c: Value)
    requires FixChoice(c).Ok?
    ensures FixChoice(c).value.1 <==> FixChoice(c).value.0 != c
  {
    if c.Obj? && "text" in c.fields {
      var n := CleanText(c.fields["text"]);
      if n != c.fields["text"] {
        assert c.fields["text" := n]["text"] != c.fields["text"];
      }
    }
  }

  /** One top-level text field cleaned; the flag says whether it changed. */
  function FixField(data: Doc, k: string): (r: (Doc, bool))
    ensures r.1 <==> k in data && CleanText(data[k]) != data[k]
    ensures r.0 == if r.1 then data[k := CleanText(data[k])] else data
  {
    if k in data && CleanText(data[k]) != data[k] then (data[k := CleanText(data[k])], true) else (data, false)
  }

  /** One document: `text_latex`, then `explanation`, then the choices when `choices` is a list. */
  function FixDoc(data: Doc): (r: Result<(Doc, bool), Fault>)
  {
    var (d1, c1) := FixField(data, "text_latex");
    var (d2, c2) := FixField(d1, "explanation");
    if "choices" in d2 && d2["choices"].List? then
      match FixChoices(d2["choices"].items)
      case Err(e) => Err(e)
      case Ok((cs, changed)) =>
        if changed then Ok((d2["choices" := List(cs)], true)) else Ok((d2, c1 || c2))
    else Ok((d2, c1 || c2))
  }

  /** A choice list whose flag is clear is left exactly as it was. */
  lemma {:induction false} ChoicesFlagIff(cs: seq<Value>)
    requires FixChoices(cs).Ok?
    ensures FixChoices(cs).value.1 <==> FixChoices(cs).value.0 != cs
  {
    var r := FixChoices(cs).value;
    if r.1 {
      var i :| 0 <= i < |cs| && FixChoice(cs[i]).value.1;
      ChoiceFlagIff(cs[i]);
      assert r.0[i] != cs[i];
    } else {
      forall i | 0 <= i < |cs| ensures r.0[i] == cs[i] {
        ChoiceFlagIff(cs[i]);
      }
    }
  }

  /** The two text fields: flagged exactly when one of them changed, and nothing else touched. */
  lemma TextFieldsFlagIff(data: Doc)
    ensures var (d1, c1) := FixField(data, "text_latex"); var (d2, c2) := FixField(d1, "explanation");
      && (c1 || c2 <==> d2 != data)
      && d2.Keys == data.Keys
      && forall k :: k in data && k != "text_latex" && k != "explanation" ==> d2[k] == data[k]
  {
    var (d1, c1) := FixField(data, "text_latex");
    var (d2, c2) := FixField(d1, "explanation");
    if c1 {
      assert d2["text_latex"] == d1["text_latex"] != data["text_latex"];
    }
  }

  /** A document is written back exactly when cleaning changed it. */
  lemma FixDocFlagIff(data: Doc)
    requires FixDoc(data).Ok?
    ensures FixDoc(data).value.1 <==> FixDoc(data).value.0 != data
  {
    TextFieldsFlagIff(data);
    var (d1, c1) := FixField(data, "text_latex");
    var (d2, c2) := FixField(d1, "explanation");
    if "choices" in d2 && d2["choices"].List? {
      ChoicesFlagIff(d2["choices"].items);
      var cs := FixChoices(d2["choices"].items).value;
      if cs.1 {
        assert d2["choices" := List(cs.0)]["choices"] != data["choices"];
      }
    }
  }

  /** Cleaning a document keeps its fields and leaves every field other than the three alone. */
  lemma FixDocKeepsOthers(data: Doc)
    requires FixDoc(data).Ok?
    ensures var d := FixDoc(data).value.0;
      && d.Keys == data.Keys
      && forall k :: k in data && k != "text_latex" && k != "explanation" && k != "choices" ==> d[k] == data[k]
  {
    TextFieldsFlagIff(data);
  }

  /** What a run of `fix_questions` did: documents scanned, writes made, and the error that stopped it. */
  datatype Cleanup = Cleanup(scanned: nat, writes: seq<(string, Doc)>, fault: Option<Fault>)

  /** `fix_questions` over the stored documents, in stream order; an error ends the run. */
  function FixQuestions(docs: seq<(string, Doc)>): (r: Cleanup)
    ensures |r.writes| <= r.scanned <= |docs|
    ensures r.fault.None? ==> r.scanned == |docs|
    decreases |docs|
  {
    if |docs| == 0 then Cleanup(0, [], None)
    else
      match FixDoc(docs[0].1)
      case Err(e) => Cleanup(0, [], Some(e))
      case Ok((d, changed)) =>
        var rest := FixQuestions(docs[1..]);
        Cleanup(1 + rest.scanned, if changed then [(docs[0].0, d)] + rest.writes else rest.writes, rest.fault)
  }

  /** The run stops exactly at the first document that cannot be cleaned. */
  lemma FixQuestionsStops(docs: seq<(string, Doc)>)
    ensures var r := FixQuestions(docs);
      && (r.fault.None? <==> forall i :: 0 <= i < |docs| ==> FixDoc(docs[i].1).Ok?)
      && (r.fault.Some? ==> r.scanned < |docs| && FixDoc(docs[r.scanned].1).Err?)
      && forall i :: 0 <= i < r.scanned ==> FixDoc(docs[i].1).Ok?
  {
    ScannedCleanable(docs);
    FaultAtScanned(docs);
  }

  /** Every document the run got past could be cleaned. */
  lemma {:induction false} ScannedCleanable(docs: seq<(string, Doc)>)
    ensures forall i :: 0 <= i < FixQuestions(docs).scanned ==> FixDoc(docs[i].1).Ok?
    decreases |docs|
  {
    if |docs| > 0 && FixDoc(docs[0].1).Ok? {
      ScannedCleanable(docs[1..]);
      FixQuestionsCons(docs);
      forall i | 1 <= i < FixQuestions(docs).scanned ensures FixDoc(docs[i].1).Ok? {
        assert docs[i] == docs[1..][i - 1];
      }
    }
  }

  /** A run that failed stopped on a document that cannot be cleaned. */
  lemma {:induction false} FaultAtScanned(docs: seq<(string, Doc)>)
    ensures var r := FixQuestions(docs);
      r.fault.Some? ==> r.scanned < |docs| && FixDoc(docs[r.scanned].1).Err?
    decreases |docs|
  {
    if |docs| > 0 && FixDoc(docs[0].1).Ok? {
      FaultAtScanned(docs[1..]);
      FixQuestionsCons(docs);
      var r, rest := FixQuestions(docs), FixQuestions(docs[1..]);
      if r.fault.Some? {
        assert docs[r.scanned] == docs[1..][rest.scanned];
      }
    }
  }

  /** A first document that can be cleaned counts once and passes the rest of the run through. */
  lemma FixQuestionsCons(docs: seq<(string, Doc)>)
    requires |docs| > 0 && FixDoc(docs[0].1).Ok?
    ensures FixQuestions(docs).scanned == 1 + FixQuestions(docs[1..]).scanned
    ensures FixQuestions(docs).fault == FixQuestions(docs[1..]).fault
  {
  }

  /** Every write is the cleaned form of a scanned document whose cleaning changed something. */
  lemma {:induction false} WritesFromChanges(docs: seq<(string, Doc)>)
    ensures var r := FixQuestions(docs);
      forall w :: w in r.writes ==> exists i :: 0 <= i < r.scanned && docs[i].0 == w.0 && FixDoc(docs[i].1) == Ok((w.1, true))
    decreases |docs|
  {
    if |docs| > 0 && FixDoc(docs[0].1).Ok? {
      WritesFromChanges(docs[1..]);
      var rest := FixQuestions(docs[1..]);
      var r := FixQuestions(docs);
      forall w | w in r.writes
        ensures exists i :: 0 <= i < r.scanned && docs[i].0 == w.0 && FixDoc(docs[i].1) == Ok((w.1, true))
      {
        if w in rest.writes {
          var i :| 0 <= i < rest.scanned && docs[1..][i].0 == w.0 && FixDoc(docs[1..][i].1) == Ok((w.1, true));
          assert docs[i + 1] == docs[1..][i];
        } else {
          assert docs[0].0 == w.0 && FixDoc(docs[0].1) == Ok((w.1, true));
        }
      }
    }
  }

  /** Every document written differs from what was read: nothing is rewritten for nothing. */
  lemma WritesChangeSomething(docs: seq<(string, Doc)>)
    ensures forall w :: w in FixQuestions(docs).writes ==> exists i :: 0 <= i < |docs| && docs[i].0 == w.0 && w.1 != docs[i].1
  {
    var r := FixQuestions(docs);
    WritesFromChanges(docs);
    forall w | w in r.writes ensures exists i :: 0 <= i < |docs| && docs[i].0 == w.0 && w.1 != docs[i].1 {
      var i :| 0 <= i < r.scanned && docs[i].0 == w.0 && FixDoc(docs[i].1) == Ok((w.1, true));
      FixDocFlagIff(docs[i].1);
    }
  }
}

=== FILE: llm.dfy ===
/**
 * What a call to a hosted language model can come back with. The model is an oracle: the
 * reply is an input of every operation that asks for one.
 */
module Llm {

  datatype LlmReply =
    | Raised(message: string)   // the client library raised; `message` is `str(e)`
    | NoText                    // a response without usable text (`response.text` missing or None)
    | Text(text: string)        // `response.text`
}

=== FILE: mvp_test.dfy ===
/**
 * The stand-alone level-test page: its timer constants, the once-a-second tick, the clock's
 * text and colour, and the overtime flag it submits. Unlike the main front end's timer, this
 * one keeps counting below zero.
 */
module MvpTest {
  import opened Wrappers
  import opened UiFormat
  import opened AppState

  /** `TIMER_CONFIG`: thirty minutes, warning at five, danger at one. */
  const Duration: int := 1800
  const WarningTime: int := 300
  const DangerTime: int := 60

  datatype Countdown = Countdown(timeRemaining: int, isOvertime: bool)

  /**
   * One interval tick: a second off (possibly below zero); the time-out dialog opens when the
   * time has just reached zero and overtime was not yet set; overtime latches below zero.
   */
  function Tick(c: Countdown): (r: (Countdown, bool))
    ensures r.0.timeRemaining == c.timeRemaining - 1
    ensures r.0.isOvertime <==> c.isOvertime || r.0.timeRemaining < 0
    ensures r.1 <==> r.0.timeRemaining == 0 && !c.isOvertime
  {
    var remaining := c.timeRemaining - 1;
    (Countdown(remaining, c.isOvertime || remaining < 0), remaining == 0 && !c.isOvertime)
  }

  /** The countdown after `n` ticks. */
  function Run(c: Countdown, n: nat): Countdown
    decreases n
  {
    if n == 0 then c else Tick(Run(c, n - 1)).0
  }

  /** Whether the `k`-th tick (counting from 1) opens the time-out dialog. */
  predicate DialogAt(c: Countdown, k: nat)
    requires k >= 1
  {
    Tick(Run(c, k - 1)).1
  }

  /** From a fresh start, `n` ticks leave `start - n` seconds, and overtime holds once that is negative. */
  lemma {:induction false} RunFromStart(start: int, n: nat)
    requires start >= 0
    ensures Run(Countdown(start, false), n) == Countdown(start - n, n > start)
    decreases n
  {
    if n > 0 {
      RunFromStart(start, n - 1);
    }
  }

  /** The time-out dialog opens on exactly one tick: the one that reaches zero. */
  lemma DialogOnce(start: int, k: nat)
    requires start >= 0 && k >= 1
    ensures DialogAt(Countdown(start, false), k) <==> k == start
  {
    RunFromStart(start, k - 1);
  }

  /** `updateTimer`'s text: '-' when over, minutes without padding, two-digit seconds. */
  function ClockText(seconds: int): (r: string)
    ensures ParseClock(r) == Some(seconds)
    ensures (|r| > 0 && r[0] == '-') <==> seconds < 0
  {
    ClockRoundTrip(seconds, 0);
    Clock(seconds, 0)
  }

  /** `updateTimer`'s class, with the page's own thresholds. */
  function ClockColour(seconds: int): Colour {
    if seconds < 0 then Danger
    else if seconds <= DangerTime then Danger
    else if seconds <= WarningTime then Warning
    else Normal
  }

  /** This page's colour rule is the shared one with its constants, zero included. */
  lemma ClockColourAgrees(seconds: int)
    ensures ClockColour(seconds) == TimerColour(seconds, DangerTime, WarningTime)
    ensures ClockColour(seconds) == Danger <==> seconds <= DangerTime
    ensures ClockColour(seconds) == Normal <==> seconds > WarningTime
  {
  }

  /** The `is_overtime` flag submitted with the answers: more than thirty minutes of wall-clock time. */
  function SubmittedOvertime(startTime: Option<int>, now: int): (r: bool)
    ensures startTime.None? ==> !r
    ensures startTime.Some? && startTime.value != 0 ==> (r <==> now - startTime.value >= (Duration + 1) * 1000)
  {
    TimeSpent(startTime, now) > Duration
  }
}

=== FILE: navigator.dfy ===
/**
 * The curriculum navigator's data preparation: `slugify`, `canonicalSubject`, the folding of
 * an array of curricula into a map keyed by exam and subject (`normalizeData`), and the order
 * in which the exam list is shown. JSON values follow JavaScript's rules here: truthiness and
 * `toString` differ from Python's.
 */
module Navigator {
  import opened Wrappers
  import opened Json
  import opened Text
  import opened Decimal
  import opened ODict

  // ---------------------------------------------------------------- slugify

  /** The characters a slug keeps: `[a-z0-9]`. */
  predicate SlugChar(c: char) {
    'a' <= c <= 'z' || '0' <= c <= '9'
  }

  /** The characters a slug may hold. */
  predicate KeyChar(c: char) {
    SlugChar(c) || c == '-'
  }

  predicate NoDoubleDash(s: string) {
    forall i :: 0 <= i < |s| - 1 ==> !(s[i] == '-' && s[i + 1] == '-')
  }

  /** Only `[a-z0-9-]`, never "--", and no '-' at either end. */
  predicate IsSlug(s: string) {
    && (forall i :: 0 <= i < |s| ==> KeyChar(s[i]))
    && NoDoubleDash(s)
    && (|s| == 0 || (s[0] != '-' && s[|s| - 1] != '-'))
  }

  /** `s` without its leading characters outside `[a-z0-9]`. */
  function SkipRun(s: string): (r: string)
    ensures |r| <= |s| && r == s[|s| - |r|..]
    ensures |r| == 0 || SlugChar(r[0])
    ensures |s| == 0 || SlugChar(s[0]) ==> r == s
  {
    if |s| > 0 && !SlugChar(s[0]) then SkipRun(s[1..]) else s
  }

  /** Putting a slug character, or a '-' before a non-dash, in front of a dashed text keeps it dashed. */
  lemma ConsDashed(c: char, rest: string)
    requires KeyChar(c) && (forall i :: 0 <= i < |rest| ==> KeyChar(rest[i])) && NoDoubleDash(rest)
    requires c == '-' ==> |rest| == 0 || rest[0] != '-'
    ensures var r := [c] + rest; (forall i :: 0 <= i < |r| ==> KeyChar(r[i])) && NoDoubleDash(r)
  {
    var r := [c] + rest;
    assert forall i :: 1 <= i < |r| ==> r[i] == rest[i - 1];
  }

  /** `.replace(/[^a-z0-9]+/g, '-')`: every maximal run outside `[a-z0-9]` becomes one '-'. */
  function Dashify(s: string): (r: string)
    ensures |r| == 0 <==> |s| == 0
    ensures |s| > 0 && SlugChar(s[0]) ==> r[0] == s[0]
    ensures forall i :: 0 <= i < |r| ==> KeyChar(r[i])
    ensures NoDoubleDash(r)
    decreases |s|
  {
    if |s| == 0 then ""
    else if SlugChar(s[0]) then
      var rest := Dashify(s[1..]);
      ConsDashed(s[0], rest);
      [s[0]] + rest
    else
      var rest := Dashify(SkipRun(s[1..]));
      ConsDashed('-', rest);
      ['-'] + rest
  }

  /** `.replace(/^-|-$/g, '')`: one leading and one trailing '-' removed. */
  function StripEdgeDashes(s: string): (r: string)
    requires NoDoubleDash(s) && forall i :: 0 <= i < |s| ==> KeyChar(s[i])
    ensures IsSlug(r)
  {
    var t := if |s| > 0 && s[0] == '-' then s[1..] else s;
    assert forall i :: 0 <= i < |t| ==> KeyChar(t[i]);
    assert NoDoubleDash(t) by {
      forall i | 0 <= i < |t| - 1 ensures !(t[i] == '-' && t[i + 1] == '-') {
        if |s| > 0 && s[0] == '-' {
          assert t[i] == s[i + 1] && t[i + 1] == s[i + 2];
        }
      }
    }
    assert |s| > 1 && s[0] == '-' ==> s[1] != '-';
    var r := if |t| > 0 && t[|t| - 1] == '-' then t[..|t| - 1] else t;
    assert |t| > 1 && t[|t| - 1] == '-' ==> t[|t| - 2] != '-';
    assert forall i :: 0 <= i < |r| ==> r[i] == t[i];
    r
  }

  /** `slugify(value)` for a string value. */
  function Slugify(s: string): (r: string)
    ensures IsSlug(r)
  {
    StripEdgeDashes(Dashify(Lower(JsTrim(s))))
  }

  /** Trimming a string with no white space at either end changes nothing. */
  lemma TrimNoop(s: string, ws: char -> bool)
    requires |s| == 0 || (!ws(s[0]) && !ws(s[|s| - 1]))
    ensures Trim(s, ws) == s
  {
  }

  /** The tail of a dashed text is dashed. */
  lemma TailDashed(s: string)
    requires |s| > 0 && (forall i :: 0 <= i < |s| ==> KeyChar(s[i])) && NoDoubleDash(s)
    ensures (forall i :: 0 <= i < |s[1..]| ==> KeyChar(s[1..][i])) && NoDoubleDash(s[1..])
    ensures s[0] == '-' ==> |s| == 1 || SlugChar(s[1])
  {
    assert forall i :: 0 <= i < |s[1..]| ==> s[1..][i] == s[i + 1];
  }

  /** Dashing a string that is already dashed changes nothing. */
  lemma {:induction false} DashifyFixed(s: string)
    requires (forall i :: 0 <= i < |s| ==> KeyChar(s[i])) && NoDoubleDash(s)
    ensures Dashify(s) == s
    decreases |s|
  {
    if |s| > 0 {
      var t := s[1..];
      TailDashed(s);
      DashifyFixed(t);
      if SlugChar(s[0]) {
        assert Dashify(s) == [s[0]] + Dashify(t);
      } else {
        assert SkipRun(t) == t;
        assert Dashify(s) == ['-'] + Dashify(t);
      }
      assert [s[0]] + t == s;
    }
  }

  /** A slug has no edge dash to strip. */
  lemma StripFixed(s: string)
    requires IsSlug(s)
    ensures StripEdgeDashes(s) == s
  {
  }

  /** A slug character is neither white space nor a capital. */
  lemma KeyCharPlain(c: char)
    requires KeyChar(c)
    ensures !IsJsSpace(c) && !IsUpper(c)
  {
  }

  /** A slug is its own slug. */
  lemma SlugFixed(s: string)
    requires IsSlug(s)
    ensures Slugify(s) == s
  {
    if |s| > 0 {
      KeyCharPlain(s[0]);
      KeyCharPlain(s[|s| - 1]);
    }
    TrimNoop(s, IsJsSpace);
    assert JsTrim(s) == s;
    forall i | 0 <= i < |s| ensures !IsUpper(s[i]) {
      KeyCharPlain(s[i]);
    }
    LowerNoop(s);
    DashifyFixed(s);
    StripFixed(s);
  }

  /** `slugify` is idempotent. */
  lemma SlugifyIdempotent(s: string)
    ensures Slugify(Slugify(s)) == Slugify(s)
  {
    SlugFixed(Slugify(s));
  }

  // ---------------------------------------------------------------- canonicalSubject

  /** `canonicalSubject` for a string subject: blank is "general", both spellings of math are "mathematics". */
  function CanonicalSubject(subject: string): (r: string)
    ensures var n := Lower(JsTrim(subject));
      && (n == "" ==> r == "general")
      && (n == "math" || n == "mathematics" ==> r == "mathematics")
      && (n != "" && n != "math" && n != "mathematics" ==> r == n)
  {
    var n := Lower(JsTrim(subject));
    if n == "" then "general" else if n == "math" || n == "mathematics" then "mathematics" else n
  }

  /** Lower-casing neither makes nor removes white space. */
  lemma LowerKeepsSpace(c: char)
    ensures IsJsSpace(LowerChar(c)) <==> IsJsSpace(c)
  {
  }

  /** A trimmed, lower-cased text is left as it is by trimming and lower-casing again. */
  lemma NormalizedFixed(s: string)
    ensures Lower(JsTrim(Lower(JsTrim(s)))) == Lower(JsTrim(s))
  {
    var t := JsTrim(s);
    var n := Lower(t);
    if |n| > 0 {
      LowerKeepsSpace(t[0]);
      LowerKeepsSpace(t[|t| - 1]);
    }
    TrimNoop(n, IsJsSpace);
    LowerNoop(n);
  }

  /** A text without capitals and without white space at its ends is already normalised. */
  lemma NormalNoop(s: string)
    requires forall i :: 0 <= i < |s| ==> !IsUpper(s[i])
    requires |s| == 0 || (!IsJsSpace(s[0]) && !IsJsSpace(s[|s| - 1]))
    ensures Lower(JsTrim(s)) == s
  {
    TrimNoop(s, IsJsSpace);
    LowerNoop(s);
  }

  lemma GeneralNormal()
    ensures Lower(JsTrim("general")) == "general"
  {
    NormalNoop("general");
  }

  lemma MathematicsNormal()
    ensures Lower(JsTrim("mathematics")) == "mathematics"
  {
    NormalNoop("mathematics");
  }

  /** `canonicalSubject` is idempotent. */
  lemma CanonicalIdempotent(subject: string)
    ensures CanonicalSubject(CanonicalSubject(subject)) == CanonicalSubject(subject)
  {
    var n := Lower(JsTrim(subject));
    var c := CanonicalSubject(subject);
    if n == "" {
      assert c == "general";
      GeneralNormal();
    } else if n == "math" || n == "mathematics" {
      assert c == "mathematics";
      MathematicsNormal();
    } else {
      NormalizedFixed(subject);
    }
  }

  // ---------------------------------------------------------------- JavaScript views of JSON values

  /** JavaScript truthiness: unlike Python, every array and object is truthy. */
  predicate JsTruthy(v: Value) {
    match v
    case Null => false
    case Bool(b) => b
    case Int(i) => i != 0
    case Str(s) => s != ""
    case _ => true
  }

  /** The decimal text of an integer, as `Number.prototype.toString` writes it. */
  function IntText(i: int): string {
    if i < 0 then "-" + NatToString(-i) else NatToString(i)
  }

  /** `String(v)`: arrays join their elements with ',' (null elements as ""), objects show a fixed text. */
  function JsString(v: Value): string
    decreases v
  {
    match v
    case Null => "null"
    case Bool(b) => if b then "true" else "false"
    case Int(i) => IntText(i)
    case Str(s) => s
    case List(xs) => Join(seq(|xs|, i requires 0 <= i < |xs| => if xs[i].Null? then "" else JsString(xs[i])), ",")
    case Obj(_) => "[object Object]"
    case ServerTime => ""
  }

  // ---------------------------------------------------------------- normalizeData

  /** The map key of a curriculum: exam slug, '-', subject slug. */
  function ExamKey(examType: string, subject: string): (r: string)
    ensures |r| > 0 && '-' in r
    ensures forall i :: 0 <= i < |r| ==> KeyChar(r[i])
  {
    JoinedKey(Slugify(examType), Slugify(CanonicalSubject(subject)));
    Slugify(examType) + "-" + Slugify(CanonicalSubject(subject))
  }

  /** Two slugs joined by '-' hold only slug characters and a '-'. */
  lemma JoinedKey(a: string, b: string)
    requires IsSlug(a) && IsSlug(b)
    ensures var r := a + "-" + b; |r| > 0 && '-' in r && forall i :: 0 <= i < |r| ==> KeyChar(r[i])
  {
    var r := a + "-" + b;
    assert r[|a|] == '-';
    forall i | 0 <= i < |r| ensures KeyChar(r[i]) {
      if i < |a| {
        assert r[i] == a[i];
      } else if i > |a| {
        assert r[i] == b[i - |a| - 1];
      }
    }
  }

  /** Why `normalizeData` throws: a truthy subject that is not a string has no `trim`. */
  datatype NavError = SubjectNotText

  /** An item `normalizeData` keeps: an object whose `domains` is a non-empty array. */
  predicate Kept(item: Value) {
    item.Obj? && "domains" in item.fields && item.fields["domains"].List? && |item.fields["domains"].items| > 0
  }

  /** The key of a kept item, or the error its subject raises. */
  function ItemKey(item: map<string, Value>): (r: Result<string, NavError>)
    ensures r.Ok? ==> |r.value| > 0 && forall i :: 0 <= i < |r.value| ==> KeyChar(r.value[i])
  {
    var exam := Get(item, "exam_type");
    var subject := Get(item, "subject");
    if JsTruthy(subject) && !subject.Str? then Err(SubjectNotText)
    else Ok(ExamKey(if JsTruthy(exam) then JsString(exam) else "exam", if JsTruthy(subject) then subject.s else ""))
  }

  /** Topics under one domain; None is NaN (`topics` is a number, a boolean or an object). */
  function DomainTopics(domain: Value): Option<nat> {
    if !domain.Obj? then Some(0)
    else
      var t := Get(domain.fields, "topics");
      if !JsTruthy(t) then Some(0)
      else match t
        case List(xs) => Some(|xs|)
        case Str(s) => Some(|s|)
        case _ => None
  }

  /** `topicCount`: the topics of every domain added up; one NaN makes the sum NaN. */
  function TopicCount(domains: seq<Value>): Option<nat> {
    if |domains| == 0 then Some(0)
    else
      match (DomainTopics(domains[0]), TopicCount(domains[1..]))
      case (Some(a), Some(b)) => Some(a + b)
      case _ => None
  }

  function ItemTopics(item: map<string, Value>): Option<nat> {
    var d := Get(item, "domains");
    if d.List? then TopicCount(d.items) else Some(0)
  }

  /** `topicCount(item) > topicCount(stored)`: a comparison with NaN is false. */
  predicate MoreTopics(item: map<string, Value>, stored: map<string, Value>) {
    match (ItemTopics(item), ItemTopics(stored))
    case (Some(a), Some(b)) => a > b
    case _ => false
  }

  /** The item as stored: its own truthy `curriculum_id`, else `curriculum-<entries so far>`. */
  function Stored(item: map<string, Value>, entries: nat): (r: map<string, Value>)
    ensures "curriculum_id" in r && JsTruthy(r["curriculum_id"])
    ensures forall k :: k in item && k != "curriculum_id" ==> k in r && r[k] == item[k]
  {
    var id := Get(item, "curriculum_id");
    item["curriculum_id" := if JsTruthy(id) then id else Str("curriculum-" + NatToString(entries))]
  }

  type CurriculumMap = seq<(string, map<string, Value>)>

  /** Whether a kept item with key `key` takes the slot: the key is new, or the item has strictly more topics. */
  predicate Replaces(acc: CurriculumMap, item: map<string, Value>, key: string) {
    Find(acc, key).None? || MoreTopics(item, Find(acc, key).value)
  }

  /** One array item folded in: a new key is appended; a taken key is replaced only by strictly more topics. */
  function Insert(acc: CurriculumMap, item: Value): (r: Result<CurriculumMap, NavError>)
    ensures !Kept(item) ==> r == Ok(acc)
    ensures Kept(item) ==> (r.Err? <==> ItemKey(item.fields).Err?)
    ensures Kept(item) && ItemKey(item.fields).Ok? && Replaces(acc, item.fields, ItemKey(item.fields).value) ==>
      r.Ok? && Find(r.value, ItemKey(item.fields).value) == Some(Stored(item.fields, |acc|))
    ensures Kept(item) && ItemKey(item.fields).Ok? && !Replaces(acc, item.fields, ItemKey(item.fields).value) ==>
      r == Ok(acc)
  {
    if !Kept(item) then Ok(acc)
    else
      match ItemKey(item.fields)
      case Err(e) => Err(e)
      case Ok(key) =>
        match Find(acc, key)
        case None => Ok(Put(acc, key, Stored(item.fields, |acc|)))
        case Some(prior) =>
          if MoreTopics(item.fields, prior) then Ok(Put(acc, key, Stored(item.fields, |acc|))) else Ok(acc)
  }

  function NormalizeFrom(acc: CurriculumMap, items: seq<Value>): Result<CurriculumMap, NavError>
    decreases |items|
  {
    if |items| == 0 then Ok(acc)
    else
      match Insert(acc, items[0])
      case Err(e) => Err(e)
      case Ok(acc') => NormalizeFrom(acc', items[1..])
  }

  /** What `normalizeData` returns: a built map, the data itself when it is not an array, or the error. */
  datatype NavData = Built(entries: CurriculumMap) | AsGiven(data: Value) | Thrown(error: NavError)

  function NormalizeData(data: Value): (r: NavData)
    ensures !JsTruthy(data) ==> r == Built([])
    ensures JsTruthy(data) && !data.List? ==> r == AsGiven(data)
  {
    if !JsTruthy(data) then Built([])
    else if !data.List? then AsGiven(data)
    else
      match NormalizeFrom([], data.items)
      case Ok(m) => Built(m)
      case Err(e) => Thrown(e)
  }

  /** Every stored curriculum has a truthy id, every key is a non-empty slug-charactered key, keys are distinct. */
  predicate GoodMap(m: CurriculumMap) {
    && Distinct(m)
    && (forall i :: 0 <= i < |m| ==> |m[i].0| > 0 && forall j :: 0 <= j < |m[i].0| ==> KeyChar(m[i].0[j]))
    && (forall i :: 0 <= i < |m| ==> "curriculum_id" in m[i].1 && JsTruthy(m[i].1["curriculum_id"]))
  }

  lemma {:induction false} PutGood(m: CurriculumMap, key: string, item: map<string, Value>)
    requires GoodMap(m) && |key| > 0 && (forall j :: 0 <= j < |key| ==> KeyChar(key[j]))
    requires "curriculum_id" in item && JsTruthy(item["curriculum_id"])
    ensures GoodMap(Put(m, key, item))
  {
    PutKeepsDistinct(m, key, item);
    PutShape(m, key, item);
    PutEntries(m, key, item);
  }

  /** Every entry of `Put(m, key, v)` is an entry of `m` or `(key, v)`. */
  lemma {:induction false} PutEntries<V>(m: seq<(string, V)>, key: string, v: V)
    ensures forall i :: 0 <= i < |Put(m, key, v)| ==> Put(m, key, v)[i] in m || Put(m, key, v)[i] == (key, v)
  {
    if |m| > 0 && m[0].0 != key {
      PutEntries(m[1..], key, v);
      var r := Put(m, key, v);
      assert r[1..] == Put(m[1..], key, v);
      forall i | 0 < i < |r| ensures r[i] in m || r[i] == (key, v) {
        assert r[i] == r[1..][i - 1];
        if r[i] in m[1..] {
          var j :| 0 <= j < |m[1..]| && m[1..][j] == r[i];
          assert m[j + 1] == r[i];
        }
      }
    } else if |m| > 0 {
      var r := Put(m, key, v);
      forall i | 0 < i < |r| ensures r[i] in m {
        assert r[i] == m[i];
      }
    }
  }

  /** Folding keeps the map good. */
  lemma {:induction false} NormalizeFromGood(acc: CurriculumMap, items: seq<Value>)
    requires GoodMap(acc) && NormalizeFrom(acc, items).Ok?
    ensures GoodMap(NormalizeFrom(acc, items).value)
    decreases |items|
  {
    if |items| > 0 {
      var item := items[0];
      if Kept(item) {
        var key := ItemKey(item.fields).value;
        PutGood(acc, key, Stored(item.fields, |acc|));
      }
      NormalizeFromGood(Insert(acc, item).value, items[1..]);
    }
  }

  /** A built map has distinct, non-empty keys of slug characters and a truthy `curriculum_id` everywhere. */
  lemma NormalizeDataGood(data: Value)
    requires NormalizeData(data).Built?
    ensures GoodMap(NormalizeData(data).entries)
  {
    if JsTruthy(data) && data.List? {
      NormalizeFromGood([], data.items);
    }
  }

  /** Of two items with the same key and as many topics, the first is kept. */
  lemma TieKeepsFirst(a: Value, b: Value)
    requires Kept(a) && Kept(b) && ItemKey(a.fields).Ok? && ItemKey(a.fields) == ItemKey(b.fields)
    requires ItemTopics(a.fields) == ItemTopics(b.fields)
    ensures NormalizeFrom([], [a, b]) == NormalizeFrom([], [a])
  {
    var key := ItemKey(a.fields).value;
    var st := Stored(a.fields, 0);
    FirstInsert(a);
    StoredTopics(a.fields, 0);
    SameTopicsNotMore(b.fields, st);
    TieInsert([(key, st)], b, key);
    TwoSteps([], a, b);
  }

  /** The first kept item makes a one-entry map. */
  lemma FirstInsert(a: Value)
    requires Kept(a) && ItemKey(a.fields).Ok?
    ensures Insert([], a) == Ok([(ItemKey(a.fields).value, Stored(a.fields, 0))])
  {
  }

  /** Storing an item keeps its topic count. */
  lemma StoredTopics(item: map<string, Value>, entries: nat)
    ensures ItemTopics(Stored(item, entries)) == ItemTopics(item)
  {
    assert Get(Stored(item, entries), "domains") == Get(item, "domains");
  }

  /** An item never has more topics than one with the same count. */
  lemma SameTopicsNotMore(item: map<string, Value>, stored: map<string, Value>)
    requires ItemTopics(item) == ItemTopics(stored)
    ensures !MoreTopics(item, stored)
  {
  }

  /** An item whose key is taken by an entry with at least as many topics changes nothing. */
  lemma TieInsert(acc: CurriculumMap, item: Value, key: string)
    requires Kept(item) && ItemKey(item.fields) == Ok(key)
    requires Find(acc, key).Some? && !MoreTopics(item.fields, Find(acc, key).value)
    ensures Insert(acc, item) == Ok(acc)
  {
  }

  /** Inserting an item never touches the entry of another key. */
  lemma InsertKeepsOthers(acc: CurriculumMap, item: Value, other: string)
    requires Insert(acc, item).Ok?
    requires !(Kept(item) && ItemKey(item.fields) == Ok(other))
    ensures Find(Insert(acc, item).value, other) == Find(acc, other)
  {
    if Kept(item) {
      var key := ItemKey(item.fields).value;
      if Replaces(acc, item.fields, key) {
        PutKeepsOthers(acc, key, Stored(item.fields, |acc|), other);
      }
    }
  }

  /** Folding two items is inserting one, then the other. */
  lemma TwoSteps(acc: CurriculumMap, a: Value, b: Value)
    requires Insert(acc, a).Ok?
    ensures NormalizeFrom(acc, [a, b]) == Insert(Insert(acc, a).value, b)
    ensures NormalizeFrom(acc, [a]) == Insert(acc, a)
  {
    var m := Insert(acc, a).value;
    assert [a, b][1..] == [b];
    assert [b][1..] == [];
    assert [a][1..] == [];
    assert NormalizeFrom(acc, [a, b]) == NormalizeFrom(m, [b]);
    match Insert(m, b)
    case Err(e) =>
    case Ok(m') => assert NormalizeFrom(m, [b]) == NormalizeFrom(m', []);
  }

  // ---------------------------------------------------------------- exam ordering

  /** `EXAM_ORDER` as written. */
  const ExamOrder: seq<string> := [
    "igcse-mathematics", "igcse-additional-mathematics-(0606)", "sat-mathematics",
    "alevel-mathematics", "ap-calculus-ab/bc"]

  /**
   * `EXAM_ORDER` with every entry in the form the keys of `normalizeData` take: exam slug, '-',
   * subject slug, that is "igcse-mathematics", "igcse-additional-mathematics-0606",
   * "sat-mathematics", "alevel-mathematics" and "ap-calculus-ab-bc".
   */
  const CorrectedExamOrder: seq<string> := [
    "igcse" + "-" + "mathematics", "igcse" + "-" + "additional-mathematics-0606", "sat" + "-" + "mathematics",
    "alevel" + "-" + "mathematics", "ap" + "-" + "calculus-ab-bc"]

  /** `order.indexOf(k)`: the first position, or -1. */
  function IndexIn(order: seq<string>, k: string): (r: int)
    ensures -1 <= r < |order|
    ensures r == -1 <==> k !in order
    ensures r >= 0 ==> order[r] == k && forall j :: 0 <= j < r ==> order[j] != k
  {
    if |order| == 0 then -1
    else if order[0] == k then 0
    else
      var r := IndexIn(order[1..], k);
      if r == -1 then -1 else r + 1
  }

  /** The comparator of the exam list; `collate` is `localeCompare`, which depends on the browser's locale. */
  function CompareBy(order: seq<string>, a: string, b: string, collate: (string, string) -> int): int {
    var ia := IndexIn(order, a);
    var ib := IndexIn(order, b);
    if ia == -1 && ib == -1 then collate(a, b)
    else if ia == -1 then 1
    else if ib == -1 then -1
    else ia - ib
  }

  /** A key's place: its position in the order, or after all of them. */
  function Rank(order: seq<string>, k: string): nat {
    if k in order then IndexIn(order, k) as nat else |order|
  }

  /** Listed keys come first, in list order; unlisted keys are left to `collate`. */
  lemma CompareByRank(order: seq<string>, a: string, b: string, collate: (string, string) -> int)
    ensures Rank(order, a) < Rank(order, b) ==> CompareBy(order, a, b, collate) < 0
    ensures Rank(order, a) > Rank(order, b) ==> CompareBy(order, a, b, collate) > 0
    ensures a !in order && b !in order ==> CompareBy(order, a, b, collate) == collate(a, b)
    ensures a in order && a == b ==> CompareBy(order, a, b, collate) == 0
  {
  }

  /** Swapping the arguments flips the sign whenever `collate` does. */
  lemma CompareByAntisymmetric(order: seq<string>, a: string, b: string, collate: (string, string) -> int)
    requires collate(a, b) == -collate(b, a)
    ensures CompareBy(order, a, b, collate) == -CompareBy(order, b, a, collate)
  {
  }

  /** The exam-list comparator, over the corrected order. */
  function CompareExams(a: string, b: string, collate: (string, string) -> int): (r: int)
    ensures a in CorrectedExamOrder && b !in CorrectedExamOrder ==> r < 0
    ensures a in CorrectedExamOrder && b in CorrectedExamOrder ==> (r < 0 <==> IndexIn(CorrectedExamOrder, a) < IndexIn(CorrectedExamOrder, b))
  {
    CompareBy(CorrectedExamOrder, a, b, collate)
  }

  /** The comparator as written. */
  function CompareExamsAsWritten(a: string, b: string, collate: (string, string) -> int): (r: int)
    ensures a in ExamOrder && b !in ExamOrder ==> r < 0
  {
    CompareBy(ExamOrder, a, b, collate)
  }

  /** A text of slug characters is neither of the two written entries that hold '(' or '/'. */
  lemma NotWrittenEntry(k: string)
    requires forall i :: 0 <= i < |k| ==> KeyChar(k[i])
    ensures k != ExamOrder[1] && k != ExamOrder[4]
  {
    var one := ExamOrder[1];
    var four := ExamOrder[4];
    assert |one| == 35 && one[29] == '(';
    assert |four| == 17 && four[14] == '/';
    if |k| == 35 {
      assert KeyChar(k[29]);
    }
    if |k| == 17 {
      assert KeyChar(k[14]);
    }
  }

  /** Two entries of the written order can never be the key of any curriculum built from an array. */
  lemma WrittenOrderUnreachable(examType: string, subject: string)
    ensures ExamKey(examType, subject) != ExamOrder[1]
    ensures ExamKey(examType, subject) != ExamOrder[4]
  {
    NotWrittenEntry(ExamKey(examType, subject));
  }

  /** The key of an exam slug and a subject slug (other than "math") is the two joined by '-'. */
  lemma KeyOfSlugs(exam: string, subject: string)
    requires IsSlug(exam) && IsSlug(subject) && |subject| > 0 && subject != "math" && subject != "mathematics"
    ensures ExamKey(exam, subject) == exam + "-" + subject
  {
    CanonicalOfSlug(subject);
    SlugFixed(exam);
    SlugFixed(subject);
  }

  lemma CanonicalOfSlug(subject: string)
    requires IsSlug(subject) && |subject| > 0 && subject != "math" && subject != "mathematics"
    ensures CanonicalSubject(subject) == subject
  {
    PlainSubject(subject);
  }

  /** Both spellings of math give the subject slug "mathematics". */
  lemma KeyOfMath(exam: string, subject: string)
    requires IsSlug(exam) && CanonicalSubject(subject) == "mathematics"
    ensures ExamKey(exam, subject) == exam + "-" + "mathematics"
  {
    MathematicsSlug();
    KeyOfCanonical(exam, subject, "mathematics");
  }

  /** The key of an exam slug and a subject whose canonical form is a slug `m`. */
  lemma KeyOfCanonical(exam: string, subject: string, m: string)
    requires IsSlug(exam) && CanonicalSubject(subject) == m && Slugify(m) == m
    ensures ExamKey(exam, subject) == exam + "-" + m
  {
    SlugFixed(exam);
  }

  lemma MathematicsSlug()
    ensures Slugify("mathematics") == "mathematics"
  {
    assert IsSlug("mathematics");
    SlugFixed("mathematics");
  }

  lemma CanonicalOfMath(subject: string)
    requires subject == "math" || subject == "mathematics"
    ensures CanonicalSubject(subject) == "mathematics"
  {
    NormalNoop(subject);
  }

  /** Every entry of the corrected order is the key of some curriculum. */
  lemma CorrectedOrderReachable()
    ensures ExamKey("igcse", "mathematics") == CorrectedExamOrder[0]
    ensures ExamKey("igcse", "additional-mathematics-0606") == CorrectedExamOrder[1]
    ensures ExamKey("sat", "math") == CorrectedExamOrder[2]
    ensures ExamKey("alevel", "mathematics") == CorrectedExamOrder[3]
    ensures ExamKey("ap", "calculus-ab-bc") == CorrectedExamOrder[4]
  {
    IgcseMathematicsKey();
    IgcseAdditionalKey();
    SatKey();
    AlevelKey();
    ApCalculusKey();
  }

  lemma IgcseSlug()
    ensures IsSlug("igcse")
  {
  }

  lemma SatSlug()
    ensures IsSlug("sat")
  {
  }

  lemma AlevelSlug()
    ensures IsSlug("alevel")
  {
  }

  lemma ApSlug()
    ensures IsSlug("ap")
  {
  }

  lemma AdditionalSlug()
    ensures IsSlug("additional-mathematics-0606")
  {
  }

  lemma CalculusSlug()
    ensures IsSlug("calculus-ab-bc")
  {
  }

  /** A mathematics entry of the corrected order is the key of its exam and either spelling of the subject. */
  lemma MathEntryKey(exam: string, subject: string, i: nat)
    requires IsSlug(exam) && (subject == "math" || subject == "mathematics")
    requires i < |CorrectedExamOrder| && CorrectedExamOrder[i] == exam + "-" + "mathematics"
    ensures ExamKey(exam, subject) == CorrectedExamOrder[i]
  {
    CanonicalOfMath(subject);
    KeyOfMath(exam, subject);
  }

  /** An entry of the corrected order made of two slugs is the key of those two. */
  lemma SlugEntryKey(exam: string, subject: string, i: nat)
    requires IsSlug(exam) && IsSlug(subject) && |subject| > 0 && subject != "math" && subject != "mathematics"
    requires i < |CorrectedExamOrder| && CorrectedExamOrder[i] == exam + "-" + subject
    ensures ExamKey(exam, subject) == CorrectedExamOrder[i]
  {
    KeyOfSlugs(exam, subject);
  }

  lemma IgcseMathematicsKey()
    ensures ExamKey("igcse", "mathematics") == CorrectedExamOrder[0]
  {
    IgcseSlug();
    MathEntryKey("igcse", "mathematics", 0);
  }

  lemma IgcseAdditionalKey()
    ensures ExamKey("igcse", "additional-mathematics-0606") == CorrectedExamOrder[1]
  {
    IgcseSlug();
    AdditionalSlug();
    SlugEntryKey("igcse", "additional-mathematics-0606", 1);
  }

  lemma SatKey()
    ensures ExamKey("sat", "math") == CorrectedExamOrder[2]
  {
    SatSlug();
    MathEntryKey("sat", "math", 2);
  }

  lemma AlevelKey()
    ensures ExamKey("alevel", "mathematics") == CorrectedExamOrder[3]
  {
    AlevelSlug();
    MathEntryKey("alevel", "mathematics", 3);
  }

  lemma ApCalculusKey()
    ensures ExamKey("ap", "calculus-ab-bc") == CorrectedExamOrder[4]
  {
    ApSlug();
    CalculusSlug();
    SlugEntryKey("ap", "calculus-ab-bc", 4);
  }

  /** A non-empty slug other than "math" is its own canonical subject. */
  lemma PlainSubject(s: string)
    requires IsSlug(s) && |s| > 0
    ensures Lower(JsTrim(s)) == s
  {
    assert forall i :: 0 <= i < |s| ==> !IsUpper(s[i]) by {
      forall i | 0 <= i < |s| ensures !IsUpper(s[i]) {
        assert KeyChar(s[i]);
      }
    }
    assert KeyChar(s[0]) && KeyChar(s[|s| - 1]);
    NormalNoop(s);
  }
}

=== FILE: odict.dfy ===
/**
 * Insertion-ordered dictionaries, the shape of a Python `dict` and of a JavaScript object
 * whose keys are not array indices: iteration follows first insertion, and assigning an
 * existing key replaces its value in place without moving it.
 */
module ODict {
  import opened Wrappers

  function Keys<K, V>(d: seq<(K, V)>): (ks: seq<K>)
    ensures |ks| == |d|
    ensures forall i :: 0 <= i < |d| ==> ks[i] == d[i].0
  {
    if |d| == 0 then [] else [d[0].0] + Keys(d[1..])
  }

  /** No key occurs twice. */
  predicate Distinct<K(==), V>(d: seq<(K, V)>) {
    |d| == 0 || (d[0].0 !in Keys(d[1..]) && Distinct(d[1..]))
  }

  /** `d.get(k)`: the value stored under the first occurrence of `k`. */
  function Find<K(==), V>(d: seq<(K, V)>, k: K): (r: Option<V>)
    ensures r.Some? <==> k in Keys(d)
  {
    if |d| == 0 then None
    else if d[0].0 == k then Some(d[0].1)
    else Find(d[1..], k)
  }

  /** A found value is stored in some entry under that key. */
  lemma {:induction false} FindIsStored<K, V>(d: seq<(K, V)>, k: K)
    requires Find(d, k).Some?
    ensures exists i :: 0 <= i < |d| && d[i] == (k, Find(d, k).value)
  {
    if d[0].0 != k {
      FindIsStored(d[1..], k);
      var i :| 0 <= i < |d[1..]| && d[1..][i] == (k, Find(d, k).value);
      assert d[i + 1] == d[1..][i];
    }
  }

  /** `d[k] = v`: replaces the value of an existing key in place, or appends a new entry. */
  function Put<K(==), V>(d: seq<(K, V)>, k: K, v: V): (r: seq<(K, V)>)
    ensures |r| == |d| || |r| == |d| + 1
    ensures Find(r, k) == Some(v)
  {
    if |d| == 0 then [(k, v)]
    else if d[0].0 == k then
      var r := [(k, v)] + d[1..];
      assert r[1..] == d[1..];
      r
    else
      var r := [d[0]] + Put(d[1..], k, v);
      assert r[1..] == Put(d[1..], k, v);
      r
  }

  /** Assigning an existing key keeps the key order. */
  lemma {:induction false} PutExistingKeys<K, V>(d: seq<(K, V)>, k: K, v: V)
    requires k in Keys(d)
    ensures Keys(Put(d, k, v)) == Keys(d)
  {
    var r := Put(d, k, v);
    assert Keys(d) == [d[0].0] + Keys(d[1..]);
    if d[0].0 == k {
      assert r == [(k, v)] + d[1..];
      assert Keys(r) == [k] + Keys(d[1..]);
    } else {
      assert k in Keys(d[1..]);
      PutExistingKeys(d[1..], k, v);
      assert r == [d[0]] + Put(d[1..], k, v);
      assert Keys(r) == [d[0].0] + Keys(Put(d[1..], k, v));
    }
  }

  /** The keys of a non-empty dictionary: the first entry's, then the rest's. */
  lemma KeysTail<K, V>(d: seq<(K, V)>)
    requires |d| > 0
    ensures forall x :: x in Keys(d) <==> x == d[0].0 || x in Keys(d[1..])
  {
    assert Keys(d) == [d[0].0] + Keys(d[1..]);
  }

  /** Assigning a new key appends it. */
  lemma {:induction false} PutNewAppends<K, V>(d: seq<(K, V)>, k: K, v: V)
    requires k !in Keys(d)
    ensures Put(d, k, v) == d + [(k, v)]
  {
    if |d| > 0 {
      KeysTail(d);
      var t := Put(d[1..], k, v);
      assert Put(d, k, v) == [d[0]] + t;
      PutNewAppends(d[1..], k, v);
      assert [d[0]] + (d[1..] + [(k, v)]) == d + [(k, v)];
    }
  }

  /** An existing key keeps its position and the key order is unchanged; a new key goes at the end. */
  lemma PutShape<K, V>(d: seq<(K, V)>, k: K, v: V)
    ensures k in Keys(d) ==> Keys(Put(d, k, v)) == Keys(d)
    ensures k !in Keys(d) ==> Put(d, k, v) == d + [(k, v)]
  {
    if k in Keys(d) {
      PutExistingKeys(d, k, v);
    } else {
      PutNewAppends(d, k, v);
    }
  }

  /** Assigning one key leaves every other key's value as it was. */
  lemma {:induction false} PutKeepsOthers<K, V>(d: seq<(K, V)>, k: K, v: V, k': K)
    requires k' != k
    ensures Find(Put(d, k, v), k') == Find(d, k')
  {
    if |d| > 0 && d[0].0 != k {
      PutKeepsOthers(d[1..], k, v, k');
    }
  }

  /** The keys after an assignment: the old ones and the assigned one. */
  lemma {:induction false} PutKeyIn<K, V>(d: seq<(K, V)>, k: K, v: V, x: K)
    ensures x in Keys(Put(d, k, v)) <==> x in Keys(d) || x == k
  {
    if |d| > 0 {
      assert Keys(d) == [d[0].0] + Keys(d[1..]);
      if d[0].0 == k {
        assert Keys(Put(d, k, v)) == [k] + Keys(d[1..]);
      } else {
        PutKeyIn(d[1..], k, v, x);
        assert Keys(Put(d, k, v)) == [d[0].0] + Keys(Put(d[1..], k, v));
      }
    }
  }

  /** Assigning a key never introduces a duplicate key. */
  lemma {:induction false} PutKeepsDistinct<K, V>(d: seq<(K, V)>, k: K, v: V)
    requires Distinct(d)
    ensures Distinct(Put(d, k, v))
  {
    if |d| > 0 {
      var r := Put(d, k, v);
      if d[0].0 == k {
        assert r[1..] == d[1..];
      } else {
        var rest := Put(d[1..], k, v);
        assert r[1..] == rest;
        PutKeepsDistinct(d[1..], k, v);
        PutKeyIn(d[1..], k, v, d[0].0);
      }
    }
  }

  /** In a dictionary without duplicate keys, every entry is what `Find` returns for its key. */
  lemma {:induction false} DistinctFind<K, V>(d: seq<(K, V)>, i: nat)
    requires Distinct(d) && i < |d|
    ensures Find(d, d[i].0) == Some(d[i].1)
  {
    if i > 0 {
      assert d[1..][i - 1] == d[i];
      DistinctFind(d[1..], i - 1);
      assert d[i].0 in Keys(d[1..]);
    }
  }
}

=== FILE: problems.dfy ===
/**
 * `ProblemService`: reads of the `problems` collection for the one-shot test, and the
 * explanation cache kept on each problem document.
 */
module Problems {
  import opened Wrappers
  import opened Json
  import opened ODict

  /** The `problems` collection: document id and contents, in the order the store returns them. */
  type ProblemStore = seq<(string, Doc)>

  /** A problem as the grading path sees it, with the stored field names translated. */
  datatype Problem = Problem(text: Value, correctAnswer: Value, solution: Value, category: Value, explanation: Value)

  /** The documents whose `difficulty` equals the requested one, in store order. */
  function WithDifficulty(store: ProblemStore, difficulty: Value): (r: ProblemStore)
    ensures |r| <= |store|
    ensures forall e :: e in r <==> e in store && Get(e.1, "difficulty") == difficulty
  {
    if |store| == 0 then []
    else
      var rest := WithDifficulty(store[1..], difficulty);
      assert forall e :: e in store <==> e == store[0] || e in store[1..];
      if Get(store[0].1, "difficulty") == difficulty then [store[0]] + rest else rest
  }

  /** The non-empty documents of a batch, each with its id added under `id`. */
  function Tagged(batch: ProblemStore): (r: seq<Doc>)
    ensures |r| <= |batch|
    ensures forall d: Doc :: d in r ==> |d| > 0 && "id" in d && d["id"].Str?
    ensures forall d: Doc :: d in r ==> exists e :: e in batch && d == e.1["id" := Str(e.0)] && |e.1| > 0
  {
    if |batch| == 0 then []
    else
      var rest := Tagged(batch[1..]);
      assert forall e :: e in batch[1..] ==> e in batch;
      if |batch[0].1| > 0 then [batch[0].1["id" := Str(batch[0].0)]] + rest else rest
  }

  /** `get_test_problems`: at most `limit` problems of one difficulty, empty documents skipped. */
  function GetTestProblems(store: ProblemStore, difficulty: Value, limit: nat): (r: seq<Doc>)
    ensures |r| <= limit
    ensures forall d: Doc :: d in r ==>
              && "id" in d && d["id"].Str?
              && (exists e :: e in store && Get(e.1, "difficulty") == difficulty && d == e.1["id" := Str(e.0)] && |e.1| > 0)
  {
    var matches := WithDifficulty(store, difficulty);
    var batch := if |matches| <= limit then matches else matches[..limit];
    assert forall e :: e in batch ==> e in matches;
    Tagged(batch)
  }

  /** One batch entry: kept, tagged with its id, exactly when its document is not empty. */
  lemma TaggedOne(e: (string, Doc))
    ensures Tagged([e]) == if |e.1| > 0 then [e.1["id" := Str(e.0)]] else []
  {
    assert [e][1..] == [];
  }

  /** Tagging reads the batch left to right: it distributes over concatenation. */
  lemma {:induction false} TaggedAppend(a: ProblemStore, b: ProblemStore)
    ensures Tagged(a + b) == Tagged(a) + Tagged(b)
  {
    if |a| == 0 {
      assert a + b == b;
    } else {
      assert (a + b)[0] == a[0];
      assert (a + b)[1..] == a[1..] + b;
      TaggedAppend(a[1..], b);
    }
  }

  /** Every non-empty document of a batch comes out, tagged with its own id. */
  lemma TaggedKeeps(batch: ProblemStore, i: nat)
    requires i < |batch| && |batch[i].1| > 0
    ensures batch[i].1["id" := Str(batch[i].0)] in Tagged(batch)
  {
    assert batch == batch[..i] + ([batch[i]] + batch[i + 1..]);
    TaggedAppend(batch[..i], [batch[i]] + batch[i + 1..]);
    TaggedAppend([batch[i]], batch[i + 1..]);
    TaggedOne(batch[i]);
  }

  /**
   * Completeness of `get_test_problems`: every non-empty document among the first `limit`
   * matches of the difficulty is returned, tagged with its id.
   */
  lemma GetTestProblemsComplete(store: ProblemStore, difficulty: Value, limit: nat, i: nat)
    requires i < limit && i < |WithDifficulty(store, difficulty)|
    requires |WithDifficulty(store, difficulty)[i].1| > 0
    ensures var e := WithDifficulty(store, difficulty)[i];
            e.1["id" := Str(e.0)] in GetTestProblems(store, difficulty, limit)
  {
    var matches := WithDifficulty(store, difficulty);
    var batch := if |matches| <= limit then matches else matches[..limit];
    assert batch[i] == matches[i];
    TaggedKeeps(batch, i);
  }

  /** The stored fields under the names the grading path uses. */
  function View(d: Doc): (p: Problem)
    ensures p.text == Get(d, "text_latex") && p.correctAnswer == Get(d, "correct_answer")
    ensures p.solution == Get(d, "solution_step_by_step") && p.category == Get(d, "curriculum_category")
    ensures p.explanation == Get(d, "explanation")
  {
    Problem(Get(d, "text_latex"), Get(d, "correct_answer"), Get(d, "solution_step_by_step"),
            Get(d, "curriculum_category"), Get(d, "explanation"))
  }

  /** The stored, non-empty document under an id, if any. */
  function Lookup(store: ProblemStore, id: Value): (r: Option<Doc>)
    ensures r.Some? <==> id.Str? && Find(store, id.s).Some? && |Find(store, id.s).value| > 0
    ensures r.Some? ==> r == Find(store, id.s)
  {
    if id.Str? && Find(store, id.s).Some? && |Find(store, id.s).value| > 0 then Find(store, id.s) else None
  }

  /** `get_problems_by_ids`: an entry for every requested id whose document exists and is not empty. */
  function GetProblemsByIds(store: ProblemStore, ids: seq<Value>): (r: map<string, Problem>)
    ensures forall k :: k in r <==> Str(k) in ids && Lookup(store, Str(k)).Some?
    ensures forall k :: k in r ==> r[k] == View(Lookup(store, Str(k)).value)
  {
    if |ids| == 0 then map[]
    else
      var rest := GetProblemsByIds(store, ids[1..]);
      assert forall v :: v in ids <==> v == ids[0] || v in ids[1..];
      match Lookup(store, ids[0])
      case Some(d) => rest[ids[0].s := View(d)]
      case None => rest
  }

  /** `get_explanation`: the cached explanation when it is truthy; a missing document gives None. */
  function GetExplanation(store: ProblemStore, id: string): (r: Option<Value>)
    ensures r.Some? ==> Truthy(r.value)
    ensures r.Some? <==> Find(store, id).Some? && Truthy(Get(Find(store, id).value, "explanation"))
    ensures r.Some? ==> r.value == Get(Find(store, id).value, "explanation")
  {
    match Find(store, id)
    case None => None
    case Some(d) => if Truthy(Get(d, "explanation")) then Some(Get(d, "explanation")) else None
  }

  /**
   * `cache_explanation` as written: the update's field values are built first, and building
   * them reads a server-timestamp attribute off the database client object, which that object
   * does not have; the exception is caught and the call reports failure before any write.
   */
  function CacheExplanationAsWritten(store: ProblemStore, id: string, explanation: string): (r: (ProblemStore, bool))
    ensures r.0 == store && !r.1
  {
    (store, false)
  }

  /**
   * `cache_explanation` as intended: an `update` of an existing document sets the explanation
   * and its timestamp; updating a missing document raises, which is reported as failure.
   */
  function CacheExplanation(store: ProblemStore, id: string, explanation: string): (r: (ProblemStore, bool))
    ensures r.1 <==> Find(store, id).Some?
    ensures !r.1 ==> r.0 == store
    ensures forall k :: k != id ==> Find(r.0, k) == Find(store, k)
    ensures r.1 ==> Find(r.0, id).Some? && Get(Find(r.0, id).value, "explanation") == Str(explanation)
  {
    match Find(store, id)
    case None => (store, false)
    case Some(d) =>
      var d' := d["explanation" := Str(explanation)]["explanation_generated_at" := ServerTime];
      forall k | k != id ensures Find(Put(store, id, d'), k) == Find(store, k) {
        PutKeepsOthers(store, id, d', k);
      }
      (Put(store, id, d'), true)
  }

  /** A cached explanation is what the next lookup returns. */
  lemma CacheThenGet(store: ProblemStore, id: string, explanation: string)
    requires Find(store, id).Some? && explanation != ""
    ensures GetExplanation(CacheExplanation(store, id, explanation).0, id) == Some(Str(explanation))
  {
  }

  /** The discrepancy: for an existing problem the intended cache write succeeds, the written one never does. */
  lemma CacheNeverWrites(store: ProblemStore, id: string, explanation: string)
    requires Find(store, id).Some? && explanation != ""
    requires GetExplanation(store, id).None?
    ensures CacheExplanation(store, id, explanation).1 && !CacheExplanationAsWritten(store, id, explanation).1
    ensures GetExplanation(CacheExplanationAsWritten(store, id, explanation).0, id).None?
    ensures GetExplanation(CacheExplanation(store, id, explanation).0, id).Some?
  {
    CacheThenGet(store, id, explanation);
  }
}

=== FILE: questions.dfy ===
/**
 * `QuestionService`: picking a stored question that fits a request, or generating and storing
 * one when none fits, plus the two never-failing text generators used by the report.
 */
module QuestionService {
  import opened Wrappers
  import opened Json
  import opened Text
  import opened Decimal
  import opened ODict
  import opened Llm

  /** How many matching documents one query reads (`limit(20)`). */
  const BatchLimit: nat := 20

  /** The `questions` collection: document id and contents, in the order the store returns them. */
  type Collection = seq<(string, Doc)>

  datatype Criteria = Criteria(system: string, grade: string, difficulty: string, topic: Option<string>)

  /** Why `get_question` raised. */
  datatype QuestionError =
    | ModelFailed(message: string)  // the model call raised or gave no text
    | InvalidJson                   // `json.loads` rejected the cleaned text
    | NotAnObject                   // the JSON was not an object, so adding metadata raised
    | TopicNotIterable              // filtering the `topic` raised: not a string or a list of strings

  /** Python `if topic:` on an optional string. */
  predicate HasTopic(c: Criteria) {
    c.topic.Some? && c.topic.value != ""
  }

  /** The equality filters of the query; the topic filter only applies when a topic is given. */
  predicate Matches(c: Criteria, d: Doc) {
    && Get(d, "curriculum_system") == Str(c.system)
    && Get(d, "grade") == Str(c.grade)
    && Get(d, "difficulty") == Str(c.difficulty)
    && (HasTopic(c) ==> Get(d, "topic") == Str(c.topic.value))
  }

  /** Every document of the collection that passes the filters, in store order. */
  function Filter(coll: Collection, c: Criteria): (r: Collection)
    ensures |r| <= |coll|
    ensures forall e :: e in r <==> e in coll && Matches(c, e.1)
  {
    if |coll| == 0 then []
    else
      var rest := Filter(coll[1..], c);
      assert forall e :: e in coll <==> e == coll[0] || e in coll[1..];
      if Matches(c, coll[0].1) then [coll[0]] + rest else rest
  }

  /** The documents one query reads: the first `BatchLimit` matches. */
  function Query(coll: Collection, c: Criteria): (r: Collection)
    ensures |r| <= BatchLimit
    ensures forall e :: e in r ==> e in coll && Matches(c, e.1)
  {
    var all := Filter(coll, c);
    if |all| <= BatchLimit then all else all[..BatchLimit]
  }

  /** A stored id is usable when it has the current `_`-separated format and was not already asked. */
  predicate Eligible(id: string, exclude: seq<string>) {
    '_' in id && id !in exclude
  }

  /** The document as handed out: its contents plus its id under `id`. */
  function Tag(id: string, d: Doc): (r: Doc)
    ensures "id" in r && r["id"] == Str(id)
    ensures forall k :: k in d && k != "id" ==> k in r && r[k] == d[k]
  {
    d["id" := Str(id)]
  }

  /** The usable documents of a batch, tagged with their ids, in batch order. */
  function Candidates(batch: Collection, exclude: seq<string>): (r: seq<Doc>)
    ensures |r| <= |batch|
    ensures forall q: Doc :: q in r ==> "id" in q && q["id"].Str? && Eligible(q["id"].s, exclude)
  {
    if |batch| == 0 then []
    else
      var rest := Candidates(batch[1..], exclude);
      if Eligible(batch[0].0, exclude) then [Tag(batch[0].0, batch[0].1)] + rest else rest
  }

  /** Every candidate is a batch document tagged with its own id. */
  lemma {:induction false} CandidateFromBatch(batch: Collection, exclude: seq<string>, q: Doc)
    requires q in Candidates(batch, exclude)
    ensures exists i :: 0 <= i < |batch| && Eligible(batch[i].0, exclude) && q == Tag(batch[i].0, batch[i].1)
  {
    if q != Tag(batch[0].0, batch[0].1) || !Eligible(batch[0].0, exclude) {
      CandidateFromBatch(batch[1..], exclude, q);
      var i :| 0 <= i < |batch[1..]| && Eligible(batch[1..][i].0, exclude) && q == Tag(batch[1..][i].0, batch[1..][i].1);
      assert batch[1..][i] == batch[i + 1];
    }
  }

  /** There is a usable document in the batch exactly when `Candidates` is not empty. */
  lemma {:induction false} CandidatesEmpty(batch: Collection, exclude: seq<string>)
    ensures |Candidates(batch, exclude)| == 0 <==> forall i :: 0 <= i < |batch| ==> !Eligible(batch[i].0, exclude)
  {
    if |batch| > 0 {
      CandidatesEmpty(batch[1..], exclude);
      assert forall i :: 0 < i < |batch| ==> batch[i] == batch[1..][i - 1];
    }
  }

  /** Python's `str.isalnum` on one character: ASCII letters and digits and the Hangul syllables. */
  predicate IsAlnum(c: char) {
    ('a' <= c <= 'z') || ('A' <= c <= 'Z') || ('0' <= c <= '9') || (0xac00 <= c as int <= 0xd7a3)
  }

  /** The topic with every non-alphanumeric character removed. */
  function SafeTopic(t: string): (r: string)
    ensures |r| <= |t|
    ensures forall i :: 0 <= i < |r| ==> IsAlnum(r[i])
    ensures forall i :: 0 <= i < |t| && IsAlnum(t[i]) ==> t[i] in r
  {
    if |t| == 0 then ""
    else
      var rest := SafeTopic(t[1..]);
      assert forall i :: 0 < i < |t| ==> t[i] == t[1..][i - 1];
      if IsAlnum(t[0]) then [t[0]] + rest else rest
  }

  /** One character is kept exactly when it is alphanumeric. */
  lemma SafeTopicChar(c: char)
    ensures SafeTopic([c]) == if IsAlnum(c) then [c] else []
  {
    assert [c][1..] == [];
  }

  /** The filter works character by character, in order: a split of the topic splits the result. */
  lemma {:induction false} SafeTopicAppend(a: string, b: string)
    ensures SafeTopic(a + b) == SafeTopic(a) + SafeTopic(b)
    decreases |a|
  {
    if |a| > 0 {
      assert (a + b)[0] == a[0];
      assert (a + b)[1..] == a[1..] + b;
      SafeTopicAppend(a[1..], b);
    } else {
      assert a + b == b;
    }
  }

  /** Removing non-alphanumerics twice is removing them once. */
  lemma {:induction false} SafeTopicIdempotent(t: string)
    ensures SafeTopic(SafeTopic(t)) == SafeTopic(t)
  {
    if |t| > 0 {
      SafeTopicIdempotent(t[1..]);
      if IsAlnum(t[0]) {
        assert ([t[0]] + SafeTopic(t[1..]))[1..] == SafeTopic(t[1..]);
      }
    }
  }

  /** Python's `str.isalnum` on a whole string: not empty, and every character alphanumeric. */
  predicate AlnumWord(s: string) {
    |s| > 0 && forall i :: 0 <= i < |s| ==> IsAlnum(s[i])
  }

  /**
   * The filter over a list topic: each element is one item of the iteration, kept whole when it
   * is an alphanumeric string; an element that is not a string has no `isalnum` and raises.
   */
  function JoinAlnum(xs: seq<Value>): (r: Option<string>)
    ensures r.None? <==> exists i :: 0 <= i < |xs| && !xs[i].Str?
    ensures r.Some? ==> forall i :: 0 <= i < |r.value| ==> IsAlnum(r.value[i])
  {
    if |xs| == 0 then Some("")
    else
      var rest := JoinAlnum(xs[1..]);
      assert forall i :: 0 < i < |xs| ==> xs[i] == xs[1..][i - 1];
      if !xs[0].Str? || rest.None? then None
      else Some((if AlnumWord(xs[0].s) then xs[0].s else "") + rest.value)
  }

  /**
   * `"".join(c for c in topic if c.isalnum())` on whatever the model put under `topic`: a string
   * is filtered character by character, a list element by element; anything else cannot be
   * iterated this way and raises.
   */
  function SafeTopicOf(v: Value): (r: Option<string>)
    ensures r.Some? ==> forall i :: 0 <= i < |r.value| ==> IsAlnum(r.value[i])
    ensures v.Str? ==> r == Some(SafeTopic(v.s))
    ensures r.None? <==> !v.Str? && !(v.List? && JoinAlnum(v.items).Some?)
  {
    match v
    case Str(t) => Some(SafeTopic(t))
    case List(xs) => JoinAlnum(xs)
    case _ => None
  }

  /** A list of one alphanumeric word gives that word. */
  lemma ListTopicWord()
    ensures SafeTopicOf(List([Str("Algebra")])) == Some("Algebra")
  {
    assert AlnumWord("Algebra");
    assert [Str("Algebra")][1..] == [];
    assert JoinAlnum([Str("Algebra")]) == Some("Algebra" + "");
    assert "Algebra" + "" == "Algebra";
  }

  /** An element that is not an alphanumeric word is dropped whole, not filtered. */
  lemma ListTopicDrops()
    ensures SafeTopicOf(List([Str("Algebra 2"), Str("Equations")])) == Some("Equations")
  {
    var e := [Str("Equations")];
    assert AlnumWord("Equations");
    assert e[1..] == [];
    assert JoinAlnum(e) == Some("Equations" + "");
    assert "Equations" + "" == "Equations";
    var ae := [Str("Algebra 2"), Str("Equations")];
    assert !AlnumWord("Algebra 2") by { assert "Algebra 2"[7] == ' '; }
    assert ae[1..] == e;
    assert JoinAlnum(ae) == Some("" + "Equations");
    assert "" + "Equations" == "Equations";
  }

  /** A list holding a number cannot be filtered: `isalnum` does not exist on it. */
  lemma ListTopicRaises()
    ensures SafeTopicOf(List([Str("Algebra"), Int(2)])).None?
  {
    assert List([Str("Algebra"), Int(2)]).items[1] == Int(2);
  }

  /** `{system}_{grade}_{safe topic}_{unix seconds}`. */
  function DocId(system: string, grade: string, safeTopic: string, now: nat): (r: string)
    ensures '_' in r
    ensures StartsWith(r, system + "_" + grade + "_")
    ensures EndsWith(r, "_" + NatToString(now))
  {
    var head := system + "_" + grade + "_";
    var r := head + safeTopic + "_" + NatToString(now);
    assert r[|system|] == '_';
    assert r[..|head|] == head;
    assert r == (head + safeTopic) + ("_" + NatToString(now));
    r
  }

  /** The seconds at the end of a generated id read back as the generation time. */
  lemma GeneratedIdTime(system: string, grade: string, topic: string, now: nat)
    ensures var id := DocId(system, grade, topic, now);
      var digits := id[|id| - |NatToString(now)|..];
      AllDigits(digits) && ParseNat(digits) == now
  {
    var id := DocId(system, grade, topic, now);
    var s := NatToString(now);
    assert id[|id| - |s|..] == ("_" + s)[1..] == s;
    ParseRender(now);
  }

  /** Cleanup of the model's text: a leading "```json" (7 characters) and then a trailing "```" are cut. */
  function StripFences(t: string): (r: string)
    ensures |r| <= |t|
    ensures StartsWith(t, "```json") && EndsWith(t[7..], "```") ==> r == t[7..|t| - 3]
    ensures !StartsWith(t, "```json") && !EndsWith(t, "```") ==> r == t
    ensures StartsWith(t, "```json") && !EndsWith(t[7..], "```") ==> r == t[7..]
    ensures !StartsWith(t, "```json") && EndsWith(t, "```") ==> r == t[..|t| - 3]
  {
    var a := if StartsWith(t, "```json") then t[7..] else t;
    if EndsWith(a, "```") then a[..|a| - 3] else a
  }

  /** A fenced reply loses exactly its fences. */
  lemma FenceRoundTrip(j: string)
    ensures StripFences("```json" + j + "```") == j
  {
    var t := "```json" + j + "```";
    assert t[..7] == "```json";
    assert t[7..] == j + "```";
    assert (j + "```")[|j|..] == "```";
  }

  /** A bare leading "```" is not a fence the cleanup knows: it stays. */
  lemma BareFenceKept(x: string)
    requires !StartsWith(x, "json")
    ensures StripFences("```" + x + "```") == "```" + x
  {
    var t := "```" + x + "```";
    assert |t| < 7 || t[3..7] != "json" by {
      if |x| == 0 {
      } else if |x| >= 4 {
        assert t[3..7] == x[..4];
      } else {
        assert t[3..7][|x|] == '`' != "json"[|x|];
      }
    }
    assert |t| >= 7 ==> t[..7][3..] == t[3..7];
    assert t[|t| - 3..] == "```";
    assert t[..|t| - 3] == "```" + x;
  }

  /** The four metadata field names are distinct. */
  lemma MetadataKeysDistinct()
    ensures "curriculum_system" != "grade" && "curriculum_system" != "difficulty" && "curriculum_system" != "created_at"
    ensures "grade" != "difficulty" && "grade" != "created_at" && "difficulty" != "created_at"
  {
    assert "difficulty"[0] != "created_at"[0];
  }

  /** The generated document with the request's metadata written over whatever the model put there. */
  function Stamped(fields: Doc, c: Criteria): (d: Doc)
    ensures d.Keys == fields.Keys + {"curriculum_system", "grade", "difficulty", "created_at"}
    ensures "curriculum_system" in d && d["curriculum_system"] == Str(c.system)
    ensures "grade" in d && d["grade"] == Str(c.grade)
    ensures "difficulty" in d && d["difficulty"] == Str(c.difficulty)
    ensures "created_at" in d && d["created_at"] == ServerTime
    ensures forall k :: k in fields && k !in {"curriculum_system", "grade", "difficulty", "created_at"} ==> d[k] == fields[k]
  {
    MetadataKeysDistinct();
    fields["curriculum_system" := Str(c.system)]["grade" := Str(c.grade)]["difficulty" := Str(c.difficulty)]["created_at" := ServerTime]
  }

  /**
   * `generate_question` without the store write: the model's reply, trimmed and stripped of
   * fences, parsed by `parse` (`json.loads`), with the request's metadata added; the result
   * is the new document id and the document to store.
   */
  function GenerateQuestion(c: Criteria, reply: LlmReply, parse: string -> Option<Value>, now: nat)
    : (r: Result<(string, Doc), QuestionError>)
    ensures r.Ok? ==> '_' in r.value.0
    ensures r.Ok? ==> var d := r.value.1;
      && "curriculum_system" in d && d["curriculum_system"] == Str(c.system)
      && "grade" in d && d["grade"] == Str(c.grade)
      && "difficulty" in d && d["difficulty"] == Str(c.difficulty)
      && "created_at" in d && d["created_at"] == ServerTime
    ensures !reply.Text? ==> r.Err? && r.error.ModelFailed?
    ensures reply.Text? && parse(StripFences(PyStrip(reply.text))).None? ==> r == Err(InvalidJson)
  {
    match reply
    case Raised(m) => Err(ModelFailed(m))
    case NoText => Err(ModelFailed("response has no text"))
    case Text(t) =>
      match parse(StripFences(PyStrip(t)))
      case None => Err(InvalidJson)
      case Some(v) =>
        if !v.Obj? then Err(NotAnObject)
        else
          var d := Stamped(v.fields, c);
          match SafeTopicOf(GetOr(d, "topic", Str("General")))
          case Some(safeTopic) => Ok((DocId(c.system, c.grade, safeTopic, now), d))
          case None => Err(TopicNotIterable)
  }

  /** The nondeterministic inputs of one `get_question` call. */
  datatype Oracle = Oracle(pick: nat, reply: LlmReply, parse: string -> Option<Value>, now: nat)

  /** The first batch of matches holds a document that may be handed out. */
  predicate InBatch(coll: Collection, c: Criteria, exclude: seq<string>) {
    |Candidates(Query(coll, c), exclude)| > 0
  }

  /**
   * `get_question`: a random usable document of the first batch of matches, or, when the batch
   * has none, a generated question that is stored under its new id. Returns the collection
   * after the call and the question handed out.
   */
  function GetQuestion(coll: Collection, c: Criteria, exclude: seq<string>, o: Oracle)
    : (r: (Collection, Result<Doc, QuestionError>))
    ensures r.1.Ok? ==> "id" in r.1.value && r.1.value["id"].Str? && '_' in r.1.value["id"].s
    ensures InBatch(coll, c, exclude) ==> r.0 == coll && r.1.Ok? && Eligible(r.1.value["id"].s, exclude)
    ensures InBatch(coll, c, exclude) ==> r.1.Ok? && r.1.value in Candidates(Query(coll, c), exclude)
    ensures !InBatch(coll, c, exclude) && r.1.Ok? ==>
      var id := r.1.value["id"].s;
      Find(r.0, id).Some? && Tag(id, Find(r.0, id).value) == r.1.value
    ensures !InBatch(coll, c, exclude) && r.1.Ok? ==>
      forall k :: k != r.1.value["id"].s ==> Find(r.0, k) == Find(coll, k)
    ensures r.1.Err? ==> r.0 == coll
  {
    var cands := Candidates(Query(coll, c), exclude);
    if |cands| > 0 then
      var q := cands[o.pick % |cands|];
      assert q in cands;
      (coll, Ok(q))
    else
      match GenerateQuestion(c, o.reply, o.parse, o.now)
      case Err(e) => (coll, Err(e))
      case Ok((id, d)) =>
        assert forall k :: k != id ==> Find(Put(coll, id, d), k) == Find(coll, k) by {
          forall k | k != id
            ensures Find(Put(coll, id, d), k) == Find(coll, k)
          {
            PutKeepsOthers(coll, id, d, k);
          }
        }
        (Put(coll, id, d), Ok(Tag(id, d)))
  }

  /** Filtering distributes over concatenation. */
  lemma {:induction false} FilterAppend(a: Collection, b: Collection, c: Criteria)
    ensures Filter(a + b, c) == Filter(a, c) + Filter(b, c)
  {
    if |a| > 0 {
      assert (a + b)[1..] == a[1..] + b;
      FilterAppend(a[1..], b, c);
    } else {
      assert a + b == b;
    }
  }

  /**
   * Once the collection holds a full batch of matches that may not be handed out, documents
   * stored after them are never considered, however usable: the call generates a new question.
   */
  lemma BeyondBatchUnseen(coll: Collection, extra: Collection, c: Criteria, exclude: seq<string>)
    requires |Filter(coll, c)| >= BatchLimit
    requires !InBatch(coll, c, exclude)
    ensures !InBatch(coll + extra, c, exclude)
  {
    FilterAppend(coll, extra, c);
    assert Query(coll + extra, c) == Query(coll, c);
  }

  const ExplanationFallback: string := "Explanation currently unavailable."
  const SummaryFallback: string := "You have a solid foundation. Keep practicing to improve further!"

  /**
   * The text of a reply with surrounding white space removed, or `fallback` when the call
   * raised: `generate_explanation` and `generate_performance_summary` never fail.
   */
  function TextOrFallback(reply: LlmReply, fallback: string): (r: string)
    ensures reply.Text? ==> exists i :: TrimmedAt(reply.text, r, i, IsPySpace)
    ensures reply.Text? ==> r == [] || (!IsPySpace(r[0]) && !IsPySpace(r[|r| - 1]))
    ensures !reply.Text? ==> r == fallback
  {
    if reply.Text? then PyStrip(reply.text) else fallback
  }

  /** `generate_explanation`. */
  function GenerateExplanation(reply: LlmReply): string {
    TextOrFallback(reply, ExplanationFallback)
  }

  /** `generate_performance_summary`. */
  function PerformanceSummary(reply: LlmReply): string {
    TextOrFallback(reply, SummaryFallback)
  }
}

=== FILE: routes.dfy ===
/**
 * The decisions of the HTTP routes: `submit_and_analyze` (request validation, answer
 * normalisation, guest gating, the explanation-cache decision and error classification),
 * the webhook signature rule and the Wix webhook dispatch. Status codes stand for the
 * responses; the store, the model and the auth service are inputs.
 */
module Routes {
  import opened Wrappers
  import opened Json
  import opened Text
  import opened ODict
  import opened Llm
  import opened Problems
  import opened Grading
  import opened AiService
  import opened Users
  import opened Decimal

  // ---------------------------------------------------------------- error classification

  /** The `error_type` of a 500 from `submit_and_analyze`. */
  datatype ErrorType = NetworkTimeout | NetworkError | ServiceUnavailable | ServerError

  predicate IsTimeout(m: string) {
    Contains(m, "timeout") || Contains(m, "deadline")
  }

  predicate IsNetwork(m: string) {
    Contains(m, "network") || Contains(m, "connection")
  }

  predicate IsUnavailable(m: string) {
    Contains(m, "unavailable") || Contains(m, "service")
  }

  /** The lower-cased message is tested against the keyword groups in order; the first group that matches decides. */
  function ClassifyError(message: string): (r: ErrorType)
    ensures r == NetworkTimeout <==> IsTimeout(Lower(message))
    ensures r == NetworkError <==> !IsTimeout(Lower(message)) && IsNetwork(Lower(message))
    ensures r == ServiceUnavailable <==> !IsTimeout(Lower(message)) && !IsNetwork(Lower(message)) && IsUnavailable(Lower(message))
    ensures r == ServerError <==> !IsTimeout(Lower(message)) && !IsNetwork(Lower(message)) && !IsUnavailable(Lower(message))
  {
    var m := Lower(message);
    if IsTimeout(m) then NetworkTimeout
    else if IsNetwork(m) then NetworkError
    else if IsUnavailable(m) then ServiceUnavailable
    else ServerError
  }

  /** Classification does not depend on letter case. */
  lemma ClassifyIgnoresCase(message: string)
    ensures ClassifyError(Lower(message)) == ClassifyError(message)
  {
    LowerIdempotent(message);
  }

  /** A timeout that is also a connection problem is a timeout. */
  lemma TimeoutBeatsConnection()
    ensures ClassifyError("connection timeout") == NetworkTimeout
  {
    LowerNoop("connection timeout");
    ContainsAt("connection timeout", "timeout");
    assert OccursAt("connection timeout", "timeout", 11);
  }

  lemma ServiceNoTimeout()
    ensures !IsTimeout("service")
  {
    ContainsNeedsChar("service", "timeout", 'm');
    ContainsNeedsChar("service", "deadline", 'd');
  }

  lemma ServiceNoNetwork()
    ensures !IsNetwork("service")
  {
    ContainsNeedsChar("service", "network", 'w');
    ContainsNeedsChar("service", "connection", 'o');
  }

  lemma ServiceUnavailableWord()
    ensures Lower("service") == "service" && IsUnavailable("service")
  {
    LowerNoop("service");
    assert StartsWith("service", "service");
  }

  /** A service problem that names no timeout and no network is an outage. */
  lemma ServiceIsUnavailable()
    ensures ClassifyError("service") == ServiceUnavailable
  {
    ServiceUnavailableWord();
    ServiceNoTimeout();
    ServiceNoNetwork();
  }

  // ---------------------------------------------------------------- answer normalisation

  /** The exceptions the list branch of the normalisation can raise, by cause. */
  datatype Fault =
    | NotIterable        // `'problem_id' in item` on a number, a boolean or None
    | NotSubscriptable   // `item['problem_id']` on a string or a list that contains both names
    | Unhashable         // a list or object used as a dict key

  predicate Hashable(v: Value) {
    !v.List? && !v.Obj?
  }

  /** The fault a list item raises, if any. */
  function ItemFault(item: Value): (r: Option<Fault>)
    ensures r.None? && item.Obj? && "problem_id" in item.fields && "user_answer" in item.fields ==> Hashable(item.fields["problem_id"])
    ensures item.Null? || item.Bool? || item.Int? || item.ServerTime? ==> r == Some(NotIterable)
  {
    match PyIn("problem_id", item)
    case None => Some(NotIterable)
    case Some(false) => None
    case Some(true) =>
      if PyIn("user_answer", item) != Some(true) then None
      else if !item.Obj? then Some(NotSubscriptable)
      else if !Hashable(item.fields["problem_id"]) then Some(Unhashable)
      else None
  }

  /** The answer an item contributes: objects holding both names. */
  predicate Carries(item: Value) {
    item.Obj? && "problem_id" in item.fields && "user_answer" in item.fields
  }

  /** The list branch from an accumulated dict; the first faulty item stops the loop. */
  function NormalizeFrom(acc: seq<(Value, Value)>, items: seq<Value>): (r: Result<seq<(Value, Value)>, Fault>)
    ensures r.Ok? <==> forall i :: 0 <= i < |items| ==> ItemFault(items[i]).None?
    decreases |items|
  {
    if |items| == 0 then Ok(acc)
    else
      match ItemFault(items[0])
      case Some(f) => Err(f)
      case None =>
        var acc' := if Carries(items[0]) then Put(acc, items[0].fields["problem_id"], items[0].fields["user_answer"]) else acc;
        var rest := NormalizeFrom(acc', items[1..]);
        assert forall i :: 0 < i < |items| ==> items[i] == items[1..][i - 1];
        rest
  }

  /** Reference definition: the answer of the last item that carries `key`, if any. */
  function LastAnswer(items: seq<Value>, key: Value): Option<Value> {
    if |items| == 0 then None
    else
      match LastAnswer(items[1..], key)
      case Some(a) => Some(a)
      case None => if Carries(items[0]) && items[0].fields["problem_id"] == key then Some(items[0].fields["user_answer"]) else None
  }

  /** Later items overwrite earlier ones: each key ends up with its last answer, keys start out unseen. */
  lemma {:induction false} NormalizeFromLast(acc: seq<(Value, Value)>, items: seq<Value>, key: Value)
    requires NormalizeFrom(acc, items).Ok?
    ensures Find(NormalizeFrom(acc, items).value, key) == (if LastAnswer(items, key).Some? then LastAnswer(items, key) else Find(acc, key))
    decreases |items|
  {
    if |items| > 0 {
      var acc' := if Carries(items[0]) then Put(acc, items[0].fields["problem_id"], items[0].fields["user_answer"]) else acc;
      NormalizeFromLast(acc', items[1..], key);
      if Carries(items[0]) && items[0].fields["problem_id"] != key {
        PutKeepsOthers(acc, items[0].fields["problem_id"], items[0].fields["user_answer"], key);
      }
    }
  }

  /** The normalised dict never holds a key twice. */
  lemma {:induction false} NormalizeFromDistinct(acc: seq<(Value, Value)>, items: seq<Value>)
    requires Distinct(acc) && NormalizeFrom(acc, items).Ok?
    ensures Distinct(NormalizeFrom(acc, items).value)
    decreases |items|
  {
    if |items| > 0 {
      if Carries(items[0]) {
        PutKeepsDistinct(acc, items[0].fields["problem_id"], items[0].fields["user_answer"]);
      }
      var acc' := if Carries(items[0]) then Put(acc, items[0].fields["problem_id"], items[0].fields["user_answer"]) else acc;
      NormalizeFromDistinct(acc', items[1..]);
    }
  }

  /** `order` lists the keys of an object once each: the key order of the JSON text. */
  ghost predicate Enumerates(order: seq<string>, m: map<string, Value>) {
    (forall k :: k in m <==> k in order) && forall i, j :: 0 <= i < j < |order| ==> order[i] != order[j]
  }

  /** An object of answers, entry by entry in its key order. */
  function ObjEntries(m: map<string, Value>, order: seq<string>): (r: seq<(Value, Value)>)
    requires forall k :: k in order ==> k in m
    ensures |r| == |order|
    ensures forall i :: 0 <= i < |order| ==> r[i] == (Str(order[i]), m[order[i]])
  {
    if |order| == 0 then [] else [(Str(order[0]), m[order[0]])] + ObjEntries(m, order[1..])
  }

  /** The answers as submitted: a list is folded into a dict, an object is kept, anything else is empty. */
  function NormalizeAnswers(answers: Value, order: seq<string>): (r: Result<seq<(Value, Value)>, Fault>)
    requires answers.Obj? ==> Enumerates(order, answers.fields)
    ensures !answers.List? ==> r.Ok?
    ensures !answers.List? && !answers.Obj? ==> r == Ok([])
    ensures answers.Obj? ==> |r.value| == |answers.fields|
  {
    match answers
    case List(items) => NormalizeFrom([], items)
    case Obj(m) =>
      EnumerationSize(order, m);
      Ok(ObjEntries(m, order))
    case _ => Ok([])
  }

  lemma EnumerationSize(order: seq<string>, m: map<string, Value>)
    requires Enumerates(order, m)
    ensures |m| == |order|
  {
    var ks := set i | 0 <= i < |order| :: order[i];
    assert ks == m.Keys;
    SeqSetSize(order);
  }

  lemma {:induction false} SeqSetSize(order: seq<string>)
    requires forall i, j :: 0 <= i < j < |order| ==> order[i] != order[j]
    ensures |set i | 0 <= i < |order| :: order[i]| == |order|
  {
    if |order| > 0 {
      var rest := order[1..];
      SeqSetSize(rest);
      var s := set i | 0 <= i < |order| :: order[i];
      var t := set i | 0 <= i < |rest| :: rest[i];
      assert s == t + {order[0]} by {
        forall x | x in s ensures x in t + {order[0]} {
          var i :| 0 <= i < |order| && order[i] == x;
          if i > 0 {
            assert rest[i - 1] == x;
          }
        }
        forall x | x in t ensures x in s {
          var i :| 0 <= i < |rest| && rest[i] == x;
          assert order[i + 1] == x;
        }
      }
      assert order[0] !in t by {
        forall i | 0 <= i < |rest| ensures rest[i] != order[0] {
          assert rest[i] == order[i + 1];
        }
      }
    }
  }

  /** What a submitted list normalises to: every key once, with the answer of its last item. */
  lemma ListAnswers(items: seq<Value>, order: seq<string>, key: Value)
    requires NormalizeAnswers(List(items), order).Ok?
    ensures Distinct(NormalizeAnswers(List(items), order).value)
    ensures Find(NormalizeAnswers(List(items), order).value, key) == LastAnswer(items, key)
  {
    NormalizeFromDistinct([], items);
    NormalizeFromLast([], items, key);
  }

  // ---------------------------------------------------------------- submit_and_analyze

  const InvalidRequest: string := "유효하지 않은 요청 형식"
  const MissingUserId: string := "사용자 ID가 필요합니다."
  const NoAnswers: string := "제출된 답안이 없습니다."
  const SessionFailed: string := "테스트 세션 생성 실패"

  /** A graded result with the `ai_solution` attached to it, if any. */
  type Annotated = (GradedResult, Option<Value>)

  datatype Response =
    | Rejected(status: nat, message: string)
    | Failed(kind: ErrorType)
    | Graded(sessionId: Option<string>, results: seq<Annotated>, analysis: string)

  /** What the route has the user service store for a signed-in user. */
  datatype Write =
    | AnswerSaved(problemId: Value, isCorrect: bool)
    | SessionCompleted(summary: SessionSummary)
    | HistorySaved(history: TestHistory)

  /**
   * The outside world of one request: the session id `create_test_session` returns (None for
   * failure), the model's replies to the solution requests (the request made for the result at
   * position `j` gets reply `j`) and to the analysis request, and the messages of the exceptions
   * the interpreter raises.
   */
  datatype World = World(
    session: Option<string>, solutionReplies: nat -> LlmReply, analysisReply: LlmReply,
    faultText: Fault -> string, timeFaultText: string)

  /** The solution attached to one incorrect result: the cached explanation when truthy, else a generated text. */
  function SolutionFor(problems: map<string, Problem>, result: GradedResult, reply: LlmReply): (r: Value)
    ensures Truthy(ProblemOf(problems, result.id).explanation) ==> r == ProblemOf(problems, result.id).explanation
    ensures !Truthy(ProblemOf(problems, result.id).explanation) ==> r == Str(GenerateSolution(reply))
  {
    var cached := ProblemOf(problems, result.id).explanation;
    if Truthy(cached) then cached else Str(GenerateSolution(reply))
  }

  /** Whether attaching a solution to this result writes the explanation cache. */
  predicate Generates(problems: map<string, Problem>, result: GradedResult) {
    !result.isCorrect && !Truthy(ProblemOf(problems, result.id).explanation)
  }

  /**
   * Step 6's answers: a solution for every incorrect result and for no correct one; the solution
   * of result `j` is its cached explanation or the text of reply `j`.
   */
  function Annotate(results: seq<GradedResult>, problems: map<string, Problem>, replies: nat -> LlmReply)
    : (r: seq<Annotated>)
    ensures |r| == |results|
    ensures forall j :: 0 <= j < |results| ==> r[j].0 == results[j]
    ensures forall j :: 0 <= j < |results| ==> (r[j].1.None? <==> results[j].isCorrect)
    ensures forall j :: 0 <= j < |results| && !results[j].isCorrect ==> r[j].1 == Some(SolutionFor(problems, results[j], replies(j)))
  {
    seq(|results|, j requires 0 <= j < |results| =>
      (results[j], if results[j].isCorrect then None else Some(SolutionFor(problems, results[j], replies(j)))))
  }

  /**
   * Step 6's store as written: every generated solution is handed to `cache_explanation`, whose
   * write never happens (see `Problems.CacheExplanationAsWritten`), so the problem store is left
   * as it was.
   */
  function CacheWrites(results: seq<GradedResult>, problems: map<string, Problem>, store: ProblemStore,
                       replies: nat -> LlmReply, i: nat): (r: ProblemStore)
    ensures r == store
    decreases |results|
  {
    if |results| == 0 then store
    else
      var res := results[0];
      var store' := if Generates(problems, res) && res.id.Str?
        then CacheExplanationAsWritten(store, res.id.s, GenerateSolution(replies(i))).0 else store;
      CacheWrites(results[1..], problems, store', replies, i + 1)
  }

  /**
   * Step 6's store with the corrected `cache_explanation`: each generated solution is cached
   * under its result's id. Only a string id can name a document; any other id makes the write fail.
   */
  function CorrectedCacheWrites(results: seq<GradedResult>, problems: map<string, Problem>, store: ProblemStore,
                                replies: nat -> LlmReply, i: nat): ProblemStore
    decreases |results|
  {
    if |results| == 0 then store
    else
      var res := results[0];
      var store' := if Generates(problems, res) && res.id.Str?
        then CacheExplanation(store, res.id.s, GenerateSolution(replies(i))).0 else store;
      CorrectedCacheWrites(results[1..], problems, store', replies, i + 1)
  }

  /** The ids whose explanation step 6 generates and caches. */
  predicate GeneratedFor(results: seq<GradedResult>, problems: map<string, Problem>, k: string) {
    exists j :: 0 <= j < |results| && Generates(problems, results[j]) && results[j].id == Str(k)
  }

  lemma GeneratedForCons(results: seq<GradedResult>, problems: map<string, Problem>, k: string)
    requires |results| > 0
    ensures GeneratedFor(results, problems, k) <==>
      (Generates(problems, results[0]) && results[0].id == Str(k)) || GeneratedFor(results[1..], problems, k)
  {
    if GeneratedFor(results[1..], problems, k) {
      var j :| 0 <= j < |results[1..]| && Generates(problems, results[1..][j]) && results[1..][j].id == Str(k);
      assert results[j + 1] == results[1..][j];
    }
    if GeneratedFor(results, problems, k) && !(Generates(problems, results[0]) && results[0].id == Str(k)) {
      var j :| 0 <= j < |results| && Generates(problems, results[j]) && results[j].id == Str(k);
      assert j > 0;
      assert results[1..][j - 1] == results[j];
    }
  }

  /** The document stored under `k` exists and holds a text explanation. */
  predicate HasTextExplanation(store: ProblemStore, k: string) {
    Find(store, k).Some? && Get(Find(store, k).value, "explanation").Str?
  }

  /**
   * With the corrected cache: a document no generating result names is untouched, no document disappears, and a document
   * a generating result names ends up with a text explanation.
   */
  lemma {:induction false} CorrectedCacheEffect(results: seq<GradedResult>, problems: map<string, Problem>, store: ProblemStore,
                                             replies: nat -> LlmReply, i: nat, k: string)
    ensures !GeneratedFor(results, problems, k) ==> Find(CorrectedCacheWrites(results, problems, store, replies, i), k) == Find(store, k)
    ensures Find(store, k).Some? ==> Find(CorrectedCacheWrites(results, problems, store, replies, i), k).Some?
    ensures HasTextExplanation(store, k) ==> HasTextExplanation(CorrectedCacheWrites(results, problems, store, replies, i), k)
    ensures GeneratedFor(results, problems, k) && Find(store, k).Some? ==>
      HasTextExplanation(CorrectedCacheWrites(results, problems, store, replies, i), k)
    decreases |results|
  {
    if |results| > 0 {
      var res := results[0];
      var store' := if Generates(problems, res) && res.id.Str?
        then CacheExplanation(store, res.id.s, GenerateSolution(replies(i))).0 else store;
      GeneratedForCons(results, problems, k);
      CorrectedCacheEffect(results[1..], problems, store', replies, i + 1, k);
    }
  }

  /** The time data of the request: None when `total_time_spent` is absent or None, Some(None) when it cannot be computed with. */
  function TimeFrom(body: Doc): (r: Option<Option<TimeInfo>>)
    ensures Get(body, "total_time_spent").Null? <==> r.None?
  {
    var total := Get(body, "total_time_spent");
    if total.Null? then None
    else
      match (IntOf(total), IntOf(GetOr(body, "time_limit", Int(600))))
      case (Some(t), Some(l)) => Some(Some(TimeInfo(Some(t), Some(l), Truthy(GetOr(body, "is_overtime", Bool(false))))))
      case _ => Some(None)
  }

  /** The numbers Python's arithmetic accepts here: integers and booleans. */
  function IntOf(v: Value): Option<int> {
    match v
    case Int(i) => Some(i)
    case Bool(b) => Some(if b then 1 else 0)
    case _ => None
  }

  /** Step 7: the analysis text; time data that breaks the arithmetic ends in the fixed error text. */
  function Analysis(wrong: seq<Value>, time: Option<Option<TimeInfo>>, w: World): (r: string)
    ensures |wrong| == 0 ==> r == AllCorrect
    ensures time.None? ==> r == AnalyzeWeakness(wrong, None, w.analysisReply).1
  {
    if |wrong| > 0 && time == Some(None) then AnalysisErrorPrefix + w.timeFaultText
    else AnalyzeWeakness(wrong, if time.Some? then time.value else None, w.analysisReply).1
  }

  /** The test-data writes for a signed-in user: one per answer, then the session and the history. */
  function Persist(results: seq<GradedResult>, analysis: string, body: Doc): (r: seq<Write>)
    ensures |r| == |results| + 2
    ensures forall j :: 0 <= j < |results| ==> r[j] == AnswerSaved(results[j].id, results[j].isCorrect)
  {
    var timeInfo := map["total_time_spent" := Get(body, "total_time_spent"),
                        "time_limit" := GetOr(body, "time_limit", Int(600)),
                        "is_overtime" := GetOr(body, "is_overtime", Bool(false))];
    seq(|results|, j requires 0 <= j < |results| => AnswerSaved(results[j].id, results[j].isCorrect))
      + [SessionCompleted(CompleteTestSession(results, analysis)), HistorySaved(SaveTestResult(results, analysis, timeInfo))]
  }

  /** The key order of the JSON object under `answers`, when that is an object. */
  ghost predicate OrderFits(body: Value, order: seq<string>) {
    body.Obj? && GetOr(body.fields, "answers", Obj(map[])).Obj? ==> Enumerates(order, GetOr(body.fields, "answers", Obj(map[])).fields)
  }

  /** `submit_and_analyze`: the problem store after the cache writes, the user writes, and the response. */
  function SubmitAndAnalyze(body: Value, order: seq<string>, store: ProblemStore, w: World)
    : (r: (ProblemStore, seq<Write>, Response))
    requires OrderFits(body, order)
    ensures r.0 == store
    ensures !body.Obj? || |body.fields| == 0 ==> r == (store, [], Rejected(400, InvalidRequest))
    ensures body.Obj? && |body.fields| > 0 && !Truthy(Get(body.fields, "user_id")) ==> r == (store, [], Rejected(400, MissingUserId))
    ensures body.Obj? && Truthy(GetOr(body.fields, "is_guest", Bool(false))) ==> r.1 == [] && (r.2.Graded? ==> r.2.sessionId.None?)
    ensures r.2.Graded? && !Truthy(GetOr(body.fields, "is_guest", Bool(false))) ==> r.2.sessionId == w.session && w.session.Some?
    ensures r.2 == Rejected(500, SessionFailed) ==> r.0 == store && r.1 == []
    ensures r.2.Failed? ==> r.0 == store && r.1 == []
    ensures r.2.Graded? ==> forall j :: 0 <= j < |r.2.results| ==> (r.2.results[j].1.None? <==> r.2.results[j].0.isCorrect)
  {
    if !body.Obj? || |body.fields| == 0 then (store, [], Rejected(400, InvalidRequest))
    else
      var data := body.fields;
      if !Truthy(Get(data, "user_id")) then (store, [], Rejected(400, MissingUserId))
      else
        var guest := Truthy(GetOr(data, "is_guest", Bool(false)));
        match NormalizeAnswers(GetOr(data, "answers", Obj(map[])), order)
        case Err(f) => (store, [], Failed(ClassifyError(w.faultText(f))))
        case Ok(answers) =>
          if |answers| == 0 then (store, [], Rejected(400, NoAnswers))
          else if !guest && w.session.None? then (store, [], Rejected(500, SessionFailed))
          else GradeSubmission(data, answers, guest, store, w)
  }

  /**
   * The graded part of `submit_and_analyze`: every answer graded in order, a solution for each
   * wrong one, the cache writes, the analysis, and for a member the session's writes.
   */
  function GradeSubmission(data: Doc, answers: seq<(Value, Value)>, guest: bool, store: ProblemStore, w: World)
    : (r: (ProblemStore, seq<Write>, Response))
    ensures r.0 == store
    ensures r.2.Graded? && r.2.sessionId == (if guest then None else w.session)
    ensures guest ==> r.1 == []
    ensures |r.2.results| == |answers|
    ensures forall j :: 0 <= j < |answers| ==>
      r.2.results[j].0 == GradeOne(GetProblemsByIds(store, Keys(answers)), answers[j].0, answers[j].1)
    ensures forall j :: 0 <= j < |r.2.results| ==> (r.2.results[j].1.None? <==> r.2.results[j].0.isCorrect)
  {
    var problems := GetProblemsByIds(store, Keys(answers));
    var (results, wrong) := GradeAnswers(answers, problems);
    var annotated := Annotate(results, problems, w.solutionReplies);
    var store' := CacheWrites(results, problems, store, w.solutionReplies, 0);
    var analysis := Analysis(wrong, TimeFrom(data), w);
    var writes := if guest then [] else Persist(results, analysis, data);
    (store', writes, Graded(if guest then None else w.session, annotated, analysis))
  }

  /** Every answer is graded once, in order, and only incorrect ones get a solution. */
  lemma SubmitGradesEveryAnswer(body: Value, order: seq<string>, store: ProblemStore, w: World)
    requires OrderFits(body, order)
    requires SubmitAndAnalyze(body, order, store, w).2.Graded?
    ensures var answers := NormalizeAnswers(GetOr(body.fields, "answers", Obj(map[])), order).value;
      var results := SubmitAndAnalyze(body, order, store, w).2.results;
      && |results| == |answers| > 0
      && forall j :: 0 <= j < |answers| ==>
        results[j].0 == GradeOne(GetProblemsByIds(store, Keys(answers)), answers[j].0, answers[j].1)
  {
  }

  // ---------------------------------------------------------------- Wix webhook

  /**
   * `verify_wix_signature`: with no secret configured every request is refused; otherwise the
   * HMAC-SHA256 comparison decides, given here as `digestMatches`.
   */
  function VerifySignature(secret: string, digestMatches: bool): (r: bool)
    ensures secret == "" ==> !r
    ensures secret != "" ==> (r <==> digestMatches)
  {
    secret != "" && digestMatches
  }

  const Created: string := "Members/Member Created"
  const ProfileUpdated: string := "Members/Profile Updated"
  const MemberDeleted: string := "Members/Member Deleted"

  datatype WebhookResponse =
    | Unauthorized                 // 401
    | MissingFields(names: string) // 400
    | Synced(uid: string)          // 200 success with the Firebase uid
    | DeletedOk                    // 200 success
    | Ignored                      // 200 ignored
    | ServerFailure                // 500

  /** `wix_webhook`: the users collection after the event, and the response. */
  function WixWebhook(secret: string, digestMatches: bool, body: Value, users: UserStore,
                      create: CreateOutcome, delete: DeleteOutcome): (r: (UserStore, WebhookResponse))
    ensures !VerifySignature(secret, digestMatches) ==> r == (users, Unauthorized)
    ensures !r.1.Synced? && !r.1.DeletedOk? ==> r.0 == users
    ensures r.1.Synced? ==> body.Obj? && GetOr(body.fields, "event", Str("")) in {Str(Created), Str(ProfileUpdated)}
    ensures r.1.DeletedOk? ==> body.Obj? && GetOr(body.fields, "event", Str("")) == Str(MemberDeleted)
    ensures VerifySignature(secret, digestMatches) && body.Obj? && GetOr(body.fields, "event", Str("")) !in {Str(Created), Str(ProfileUpdated), Str(MemberDeleted)}
      ==> r == (users, Ignored)
  {
    if !VerifySignature(secret, digestMatches) then (users, Unauthorized)
    else if !body.Obj? then (users, ServerFailure)
    else
      var event := GetOr(body.fields, "event", Str(""));
      var member := GetOr(body.fields, "data", Obj(map[]));
      if event == Str(Created) || event == Str(ProfileUpdated) then
        if !member.Obj? then (users, ServerFailure)
        else
          var id := Get(member.fields, "id");
          var email := Get(member.fields, "loginEmail");
          if !Truthy(id) || !Truthy(email) then (users, MissingFields("id, loginEmail"))
          else if IdText(id).None? then (users, ServerFailure)
          else
            match SyncWixUser(users, IdText(id).value, id, email, if event == Str(Created) then "created" else "updated", create)
            case Err(_) => (users, ServerFailure)
            case Ok((users', uid)) => (users', Synced(uid))
      else if event == Str(MemberDeleted) then
        if !member.Obj? then (users, ServerFailure)
        else
          var id := Get(member.fields, "id");
          if !Truthy(id) then (users, MissingFields("id"))
          else if IdText(id).None? then (users, ServerFailure)
          else
            var (users', ok) := DeleteWixUser(users, IdText(id).value, delete);
            if ok then (users', DeletedOk) else (users, ServerFailure)
      else (users, Ignored)
  }

  /** With no secret configured, no webhook changes anything. */
  lemma NoSecretNoChange(digestMatches: bool, body: Value, users: UserStore, create: CreateOutcome, delete: DeleteOutcome)
    ensures WixWebhook("", digestMatches, body, users, create, delete) == (users, Unauthorized)
  {
  }

  /** A Created event stamps `created_at`. */
  lemma CreatedStampsCreation(digestMatches: bool, member: map<string, Value>, users: UserStore, create: CreateOutcome, delete: DeleteOutcome)
    requires digestMatches && "id" in member && Truthy(member["id"]) && IdText(member["id"]).Some? && Truthy(Get(member, "loginEmail"))
    requires !create.CreateFailed?
    ensures var uid := WixUid(IdText(member["id"]).value);
      var r := WixWebhook("secret", digestMatches, Obj(map["event" := Str(Created), "data" := Obj(member)]), users, create, delete);
      r.1 == Synced(uid) && "created_at" in r.0[uid]
  {
  }

  /** An update of a profile that never had `created_at` does not stamp one. */
  lemma UpdateLeavesCreation(digestMatches: bool, member: map<string, Value>, users: UserStore, create: CreateOutcome, delete: DeleteOutcome)
    requires digestMatches && "id" in member && Truthy(member["id"]) && IdText(member["id"]).Some? && Truthy(Get(member, "loginEmail"))
    requires !create.CreateFailed?
    ensures var uid := WixUid(IdText(member["id"]).value);
      var r := WixWebhook("secret", digestMatches, Obj(map["event" := Str(ProfileUpdated), "data" := Obj(member)]), users, create, delete);
      !(uid in users && "created_at" in users[uid]) ==> r.1 == Synced(uid) && "created_at" !in r.0[uid]
  {
  }

  /** A numeric member id is deleted under the uid its decimal text spells. */
  lemma NumericIdDeletes(n: nat, users: UserStore, create: CreateOutcome, delete: DeleteOutcome)
    requires n > 0 && !delete.DeleteFailed?
    ensures var body := Obj(map["event" := Str(MemberDeleted), "data" := Obj(map["id" := Int(n)])]);
      var r := WixWebhook("secret", true, body, users, create, delete);
      var uid := "wix_" + NatToString(n);
      && r.1 == DeletedOk
      && uid in r.0 && "sync_status" in r.0[uid] && r.0[uid]["sync_status"] == Str("deleted")
  {
    NumericIdSharesUid(n);
  }
}

=== FILE: tally.dfy ===
/**
 * Per-key {total, correct} counters kept in insertion order: the `topic_stats` of the
 * adaptive report and the `category_stats` / `difficulty_stats` of the user statistics.
 */
module Tally {
  import opened Wrappers
  import opened ODict

  datatype Counter = Counter(total: nat, correct: nat)

  /** The counter stored under `key`, or {0, 0} for a key not seen yet. */
  function CounterOf<K(==)>(d: seq<(K, Counter)>, key: K): Counter {
    Find(d, key).GetOr(Counter(0, 0))
  }

  /** A counter after one more answer. */
  function Next(c: Counter, isCorrect: bool): Counter {
    Counter(c.total + 1, c.correct + if isCorrect then 1 else 0)
  }

  /** One more answer under `key`; a key seen for the first time starts at {0, 0}. */
  function Bump<K(==)>(d: seq<(K, Counter)>, key: K, isCorrect: bool): seq<(K, Counter)> {
    Put(d, key, Next(CounterOf(d, key), isCorrect))
  }

  /** The counter under `key` goes up by one answer, and by one correct answer when `isCorrect`. */
  lemma BumpCounts<K>(d: seq<(K, Counter)>, key: K, isCorrect: bool)
    ensures key in Keys(Bump(d, key, isCorrect))
    ensures CounterOf(Bump(d, key, isCorrect), key).total == CounterOf(d, key).total + 1
    ensures CounterOf(Bump(d, key, isCorrect), key).correct == CounterOf(d, key).correct + if isCorrect then 1 else 0
  {
  }

  /** Counters after folding `marks` (key, correct?) into `start`, first answer first. */
  function TallyFrom<K(==)>(start: seq<(K, Counter)>, marks: seq<(K, bool)>): seq<(K, Counter)>
    decreases |marks|
  {
    if |marks| == 0 then start else TallyFrom(Bump(start, marks[0].0, marks[0].1), marks[1..])
  }

  function SumTotals<K>(d: seq<(K, Counter)>): nat {
    if |d| == 0 then 0 else d[0].1.total + SumTotals(d[1..])
  }

  function SumCorrect<K>(d: seq<(K, Counter)>): nat {
    if |d| == 0 then 0 else d[0].1.correct + SumCorrect(d[1..])
  }

  /** How many of `marks` are correct. */
  function CountCorrect<K>(marks: seq<(K, bool)>): (n: nat)
    ensures n <= |marks|
  {
    if |marks| == 0 then 0 else (if marks[0].1 then 1 else 0) + CountCorrect(marks[1..])
  }

  /** A counter that has seen at least one answer, and no more correct answers than answers. */
  predicate Sound(c: Counter) {
    0 < c.total && c.correct <= c.total
  }

  /** Every counter is sound. */
  predicate WellFormed<K>(d: seq<(K, Counter)>) {
    |d| == 0 || (Sound(d[0].1) && WellFormed(d[1..]))
  }

  /** Replacing an entry's counter changes the sums by the difference. */
  lemma {:induction false} PutSums<K>(d: seq<(K, Counter)>, key: K, c: Counter)
    ensures SumTotals(Put(d, key, c)) == SumTotals(d) - CounterOf(d, key).total + c.total
    ensures SumCorrect(Put(d, key, c)) == SumCorrect(d) - CounterOf(d, key).correct + c.correct
  {
    if |d| > 0 {
      var r := Put(d, key, c);
      if d[0].0 == key {
        assert r[1..] == d[1..];
      } else {
        PutSums(d[1..], key, c);
        assert r[1..] == Put(d[1..], key, c);
        PartOfSums(d[1..], key);
      }
    }
  }

  /** The counter stored under a key is part of the sums. */
  lemma {:induction false} PartOfSums<K>(d: seq<(K, Counter)>, key: K)
    ensures CounterOf(d, key).total <= SumTotals(d)
    ensures CounterOf(d, key).correct <= SumCorrect(d)
  {
    if |d| > 0 && d[0].0 != key {
      PartOfSums(d[1..], key);
    }
  }

  /** The counter found under a key of a well-formed tally is well formed. */
  lemma {:induction false} FindWellFormed<K>(d: seq<(K, Counter)>, key: K)
    requires WellFormed(d)
    ensures CounterOf(d, key).correct <= CounterOf(d, key).total
  {
    if |d| > 0 && d[0].0 != key {
      FindWellFormed(d[1..], key);
    }
  }

  /** Storing a well-formed counter keeps a tally well formed. */
  lemma {:induction false} PutWellFormed<K>(d: seq<(K, Counter)>, key: K, c: Counter)
    requires WellFormed(d) && Sound(c)
    ensures WellFormed(Put(d, key, c))
  {
    if |d| > 0 {
      var r := Put(d, key, c);
      if d[0].0 == key {
        assert r[1..] == d[1..];
      } else {
        PutWellFormed(d[1..], key, c);
        assert r[1..] == Put(d[1..], key, c);
      }
    }
  }

  lemma BumpDistinct<K>(d: seq<(K, Counter)>, key: K, isCorrect: bool)
    requires Distinct(d)
    ensures Distinct(Bump(d, key, isCorrect))
  {
    var nc := Next(CounterOf(d, key), isCorrect);
    PutKeepsDistinct(d, key, nc);
  }

  lemma BumpWellFormed<K>(d: seq<(K, Counter)>, key: K, isCorrect: bool)
    requires WellFormed(d)
    ensures WellFormed(Bump(d, key, isCorrect))
  {
    var nc := Next(CounterOf(d, key), isCorrect);
    FindWellFormed(d, key);
    PutWellFormed(d, key, nc);
  }

  /** One answer adds one to the total sum, and one to the correct sum when it is correct. */
  lemma BumpSums<K>(d: seq<(K, Counter)>, key: K, isCorrect: bool)
    ensures SumTotals(Bump(d, key, isCorrect)) == SumTotals(d) + 1
    ensures SumCorrect(Bump(d, key, isCorrect)) == SumCorrect(d) + if isCorrect then 1 else 0
  {
    var nc := Next(CounterOf(d, key), isCorrect);
    PutSums(d, key, nc);
    PartOfSums(d, key);
  }

  /** Folding keeps keys distinct. */
  lemma {:induction false} TallyDistinct<K>(start: seq<(K, Counter)>, marks: seq<(K, bool)>)
    requires Distinct(start)
    ensures Distinct(TallyFrom(start, marks))
    decreases |marks|
  {
    if |marks| > 0 {
      BumpDistinct(start, marks[0].0, marks[0].1);
      TallyDistinct(Bump(start, marks[0].0, marks[0].1), marks[1..]);
    }
  }

  /** Folding keeps every counter well formed. */
  lemma {:induction false} TallyWellFormed<K>(start: seq<(K, Counter)>, marks: seq<(K, bool)>)
    requires WellFormed(start)
    ensures WellFormed(TallyFrom(start, marks))
    decreases |marks|
  {
    if |marks| > 0 {
      BumpWellFormed(start, marks[0].0, marks[0].1);
      TallyWellFormed(Bump(start, marks[0].0, marks[0].1), marks[1..]);
    }
  }

  /**
   * Every answer adds one to the totals and every correct answer one to the corrects:
   * no answer is lost or counted twice.
   */
  lemma {:induction false} TallySums<K>(start: seq<(K, Counter)>, marks: seq<(K, bool)>)
    ensures SumTotals(TallyFrom(start, marks)) == SumTotals(start) + |marks|
    ensures SumCorrect(TallyFrom(start, marks)) == SumCorrect(start) + CountCorrect(marks)
    decreases |marks|
  {
    if |marks| > 0 {
      BumpSums(start, marks[0].0, marks[0].1);
      TallySums(Bump(start, marks[0].0, marks[0].1), marks[1..]);
    }
  }

  /** How many of `marks` fall under `key`. */
  function Answered<K(==)>(marks: seq<(K, bool)>, key: K): nat {
    if |marks| == 0 then 0 else (if marks[0].0 == key then 1 else 0) + Answered(marks[1..], key)
  }

  /** How many of `marks` fall under `key` and are correct. */
  function AnsweredCorrectly<K(==)>(marks: seq<(K, bool)>, key: K): nat {
    if |marks| == 0 then 0 else (if marks[0].0 == key && marks[0].1 then 1 else 0) + AnsweredCorrectly(marks[1..], key)
  }

  /** Folding counts, under each key, exactly the answers given under it and the correct ones among them. */
  lemma {:induction false} TallyCounts<K>(start: seq<(K, Counter)>, marks: seq<(K, bool)>, key: K)
    ensures CounterOf(TallyFrom(start, marks), key).total == CounterOf(start, key).total + Answered(marks, key)
    ensures CounterOf(TallyFrom(start, marks), key).correct == CounterOf(start, key).correct + AnsweredCorrectly(marks, key)
    decreases |marks|
  {
    if |marks| > 0 {
      var (k, c) := marks[0];
      if k == key {
        BumpCounts(start, k, c);
      } else {
        PutKeepsOthers(start, k, Next(CounterOf(start, k), c), key);
      }
      TallyCounts(Bump(start, k, c), marks[1..], key);
    }
  }
}

=== FILE: text.dfy ===
/**
 * String helpers shared by the Python backend and the JavaScript front ends: the two
 * languages' whitespace sets, trimming, ASCII lower-casing, prefix/suffix/substring tests
 * and joining.
 */
module Text {

  /** Characters for which Python's `str.isspace()` holds: what `strip()` and a `\s` in a `re` pattern accept. */
  predicate IsPySpace(c: char) {
    var n := c as int;
    n == 0x20 || (0x09 <= n <= 0x0d) || (0x1c <= n <= 0x1f) || n == 0x85 || n == 0xa0 || n == 0x1680
    || (0x2000 <= n <= 0x200a) || n == 0x2028 || n == 0x2029 || n == 0x202f || n == 0x205f || n == 0x3000
  }

  /** JavaScript line terminators: the characters a regular-expression `.` does not match. */
  predicate IsJsLineTerminator(c: char) {
    var n := c as int;
    n == 0x0a || n == 0x0d || n == 0x2028 || n == 0x2029
  }

  /** JavaScript white space and line terminators: what `String.prototype.trim` removes and `\s` matches. */
  predicate IsJsSpace(c: char) {
    var n := c as int;
    IsJsLineTerminator(c) || n == 0x09 || n == 0x0b || n == 0x0c || n == 0x20 || n == 0xa0 || n == 0x1680
    || (0x2000 <= n <= 0x200a) || n == 0x202f || n == 0x205f || n == 0x3000 || n == 0xfeff
  }

  /** `s` with its leading characters satisfying `ws` removed. */
  function TrimStart(s: string, ws: char -> bool): (r: string)
    ensures |r| <= |s| && r == s[|s| - |r|..]
    ensures r == [] || !ws(r[0])
    ensures forall i :: 0 <= i < |s| - |r| ==> ws(s[i])
  {
    if |s| > 0 && ws(s[0]) then
      var r := TrimStart(s[1..], ws);
      assert forall i :: 1 <= i < |s| ==> s[i] == s[1..][i - 1];
      r
    else s
  }

  /** `s` with its trailing characters satisfying `ws` removed. */
  function TrimEnd(s: string, ws: char -> bool): (r: string)
    ensures |r| <= |s| && r == s[..|r|]
    ensures r == [] || !ws(r[|r| - 1])
    ensures forall i :: |r| <= i < |s| ==> ws(s[i])
  {
    if |s| > 0 && ws(s[|s| - 1]) then
      var r := TrimEnd(s[..|s| - 1], ws);
      assert forall i :: 0 <= i < |s| - 1 ==> s[i] == s[..|s| - 1][i];
      r
    else s
  }

  /** `r` is `s[i..]` cut to `|r|` characters, and every character cut off either end satisfies `ws`. */
  predicate TrimmedAt(s: string, r: string, i: int, ws: char -> bool) {
    && 0 <= i <= |s| - |r|
    && r == s[i..i + |r|]
    && (forall k :: 0 <= k < i ==> ws(s[k]))
    && (forall k :: i + |r| <= k < |s| ==> ws(s[k]))
  }

  /** Cutting a trimmed start `a` of `s` down to `r` leaves `r` trimmed at the start of `a` in `s`. */
  lemma TrimmedAtOf(s: string, a: string, r: string, ws: char -> bool)
    requires |a| <= |s| && a == s[|s| - |a|..] && forall k :: 0 <= k < |s| - |a| ==> ws(s[k])
    requires |r| <= |a| && r == a[..|r|] && forall k :: |r| <= k < |a| ==> ws(a[k])
    ensures TrimmedAt(s, r, |s| - |a|, ws)
  {
    var i := |s| - |a|;
    assert r == s[i..i + |r|];
    forall k | i + |r| <= k < |s| ensures ws(s[k]) {
      assert s[k] == a[k - i];
    }
  }

  /** Both ends trimmed: Python's `strip()` with `IsPySpace`, JavaScript's `trim()` with `IsJsSpace`. */
  function Trim(s: string, ws: char -> bool): (r: string)
    ensures exists i :: TrimmedAt(s, r, i, ws)
    ensures r == [] || (!ws(r[0]) && !ws(r[|r| - 1]))
  {
    var a := TrimStart(s, ws);
    var r := TrimEnd(a, ws);
    TrimmedAtOf(s, a, r, ws);
    r
  }

  /** `s.strip()` in Python. */
  function PyStrip(s: string): string {
    Trim(s, IsPySpace)
  }

  /** `s.trim()` in JavaScript. */
  function JsTrim(s: string): string {
    Trim(s, IsJsSpace)
  }

  predicate IsUpper(c: char) {
    'A' <= c <= 'Z'
  }

  /** One character lower-cased; only the ASCII letters A-Z change. */
  function LowerChar(c: char): (r: char)
    ensures !IsUpper(r)
    ensures IsUpper(c) ==> r as int == c as int + 32
    ensures !IsUpper(c) ==> r == c
  {
    if IsUpper(c) then (c as int + 32) as char else c
  }

  /** `s.lower()` / `s.toLowerCase()` restricted to ASCII letters. */
  function Lower(s: string): (r: string)
    ensures |r| == |s|
    ensures forall i :: 0 <= i < |s| ==> r[i] == LowerChar(s[i])
  {
    seq(|s|, i requires 0 <= i < |s| => LowerChar(s[i]))
  }

  /** Lower-casing twice is lower-casing once. */
  lemma LowerIdempotent(s: string)
    ensures Lower(Lower(s)) == Lower(s)
  {
  }

  /** A string without capitals is its own lower-case form. */
  lemma LowerNoop(s: string)
    requires forall i :: 0 <= i < |s| ==> !IsUpper(s[i])
    ensures Lower(s) == s
  {
  }

  predicate StartsWith(s: string, p: string) {
    |p| <= |s| && s[..|p|] == p
  }

  predicate EndsWith(s: string, p: string) {
    |p| <= |s| && s[|s| - |p|..] == p
  }

  /** `p` sits at index `i` of `s`. */
  predicate OccursAt(s: string, p: string, i: int) {
    0 <= i <= |s| - |p| && s[i..i + |p|] == p
  }

  /** `p in s` for strings: `p` occurs at some position of `s`. */
  predicate Contains(s: string, p: string) {
    StartsWith(s, p) || (|s| > 0 && Contains(s[1..], p))
  }

  /** `sep.join(parts)` in Python, `parts.join(sep)` in JavaScript. */
  function Join(parts: seq<string>, sep: string): string {
    if |parts| == 0 then ""
    else if |parts| == 1 then parts[0]
    else parts[0] + sep + Join(parts[1..], sep)
  }

  /** `Contains` holds exactly when the pattern sits at some index. */
  lemma {:induction false} ContainsAt(s: string, p: string)
    ensures Contains(s, p) <==> exists i :: OccursAt(s, p, i)
  {
    if StartsWith(s, p) {
      assert OccursAt(s, p, 0);
    }
    if OccursAt(s, p, 0) {
      assert StartsWith(s, p);
    }
    if |s| > 0 {
      ContainsAt(s[1..], p);
      if exists i :: OccursAt(s, p, i) {
        var i :| OccursAt(s, p, i);
        if i > 0 {
          assert OccursAt(s[1..], p, i - 1);
        }
      }
      if Contains(s[1..], p) && !StartsWith(s, p) {
        var i :| OccursAt(s[1..], p, i);
        assert OccursAt(s, p, i + 1);
      }
    }
  }

  /** A string without character `c` does not contain any pattern that has `c`. */
  lemma ContainsNeedsChar(s: string, p: string, c: char)
    requires c in p && c !in s
    ensures !Contains(s, p)
  {
    ContainsAt(s, p);
    var j :| 0 <= j < |p| && p[j] == c;
    forall i | 0 <= i <= |s| - |p| ensures !OccursAt(s, p, i) {
      assert s[i..i + |p|][j] == s[i + j] != c;
    }
  }

  /** A character missing from a sequence is missing from its tail. */
  lemma NotInTail(s: string, c: char)
    requires |s| > 0 && c !in s
    ensures c !in s[1..]
  {
    forall i | 0 <= i < |s| - 1 ensures s[1..][i] != c {
      assert s[1..][i] == s[i + 1];
    }
  }

  /** Putting the head back on the tail before a suffix gives the whole text before it. */
  lemma HeadTailAppend(a: string, z: string)
    requires |a| > 0
    ensures [a[0]] + (a[1..] + z) == a + z
  {
    var l := [a[0]] + (a[1..] + z);
    assert |l| == |a + z|;
    forall i | 0 <= i < |l| ensures l[i] == (a + z)[i] {
      if i >= |a| {
        assert l[i] == (a[1..] + z)[i - 1] == z[i - |a|];
      } else if i > 0 {
        assert l[i] == a[1..][i - 1];
      }
    }
  }
}

=== FILE: ui_format.dfy ===
/**
 * The front end's text helpers: the value of a multiple-choice label, `formatText`'s line
 * breaks and bold markup, and the count-down clock's text and colour. JavaScript regular
 * expressions are modelled by hand: `.` matches anything but a line terminator, `\s` is
 * JavaScript white space, and a global replace resumes after each match.
 */
module UiFormat {
  import opened Wrappers
  import opened Text
  import opened Decimal

  // ---------------------------------------------------------------- choice labels

  predicate NoLineTerminator(t: string) {
    forall i :: 0 <= i < |t| ==> !IsJsLineTerminator(t[i])
  }

  predicate AllSpace(t: string) {
    forall i :: 0 <= i < |t| ==> IsJsSpace(t[i])
  }

  /** `\s*(.*)$` matches all of `t`: some white-space run, then a rest without line terminators. */
  predicate RestMatches(t: string) {
    NoLineTerminator(t) || (|t| > 0 && IsJsSpace(t[0]) && RestMatches(t[1..]))
  }

  /** `^([A-D])\)\s*(.*)$` matches the label. */
  predicate LabelMatches(c: string) {
    |c| >= 2 && 'A' <= c[0] <= 'D' && c[1] == ')' && RestMatches(c[2..])
  }

  /** The radio value of a choice label: its letter when it reads "A) …" to "D) …", else the label. */
  function ChoiceValue(c: string): (r: string)
    ensures r == c || (|c| >= 2 && r == c[..1] && 'A' <= r[0] <= 'D')
    ensures r != c <==> LabelMatches(c)
  {
    if LabelMatches(c) then c[..1] else c
  }

  /** A white-space run followed by a rest without line terminators is matched. */
  lemma {:induction false} SplitMatches(t: string, k: nat)
    requires k <= |t| && AllSpace(t[..k]) && NoLineTerminator(t[k..])
    ensures RestMatches(t)
    decreases k
  {
    if k == 0 {
      assert t[k..] == t;
    } else {
      assert t[..k][0] == t[0];
      assert t[1..][..k - 1] == t[1..k];
      assert t[1..][k - 1..] == t[k..];
      SplitMatches(t[1..], k - 1);
    }
  }

  /** A match splits into a white-space run and a rest without line terminators. */
  lemma {:induction false} MatchesSplit(t: string) returns (k: nat)
    requires RestMatches(t)
    ensures k <= |t| && AllSpace(t[..k]) && NoLineTerminator(t[k..])
    decreases |t|
  {
    if NoLineTerminator(t) {
      k := 0;
      assert t[k..] == t;
    } else {
      var k' := MatchesSplit(t[1..]);
      k := k' + 1;
      assert t[..k] == [t[0]] + t[1..][..k'];
      assert t[k..] == t[1..][k'..];
    }
  }

  /** The recursive matcher agrees with the regular expression's split: a white-space run, then no line terminator. */
  lemma RestMatchesSplit(t: string)
    ensures RestMatches(t) <==> exists k :: 0 <= k <= |t| && AllSpace(t[..k]) && NoLineTerminator(t[k..])
  {
    if RestMatches(t) {
      var k := MatchesSplit(t);
    }
    forall k | 0 <= k <= |t| && AllSpace(t[..k]) && NoLineTerminator(t[k..]) ensures RestMatches(t) {
      SplitMatches(t, k);
    }
  }

  /** A choice's value is a choice value already. */
  lemma ChoiceValueIdempotent(c: string)
    ensures ChoiceValue(ChoiceValue(c)) == ChoiceValue(c)
  {
  }

  // ---------------------------------------------------------------- formatText

  /** Every line feed becomes `<br>`. */
  function Breaks(s: string): (r: string)
    ensures '\n' !in r
    ensures '\n' !in s ==> r == s
    ensures |r| >= |s|
  {
    if |s| == 0 then ""
    else (if s[0] == '\n' then "<br>" else [s[0]]) + Breaks(s[1..])
  }

  /** The replacement works character by character: a line feed is `<br>`, anything else itself. */
  lemma BreaksChar(c: char)
    ensures Breaks([c]) == if c == '\n' then "<br>" else [c]
  {
    assert [c][1..] == [];
  }

  /** ... and a split of the text splits the result. */
  lemma {:induction false} BreaksAppend(a: string, b: string)
    ensures Breaks(a + b) == Breaks(a) + Breaks(b)
    decreases |a|
  {
    if |a| > 0 {
      var h := if a[0] == '\n' then "<br>" else [a[0]];
      assert (a + b)[0] == a[0];
      assert (a + b)[1..] == a[1..] + b;
      assert Breaks(a + b) == h + Breaks(a[1..] + b);
      assert Breaks(a) == h + Breaks(a[1..]);
      BreaksAppend(a[1..], b);
    } else {
      assert a + b == b;
    }
  }

  /** Reading the markup back: every `<br>`, left to right, is a line feed again. */
  function UnBreaks(s: string): string
    decreases |s|
  {
    if |s| == 0 then ""
    else if StartsWith(s, "<br>") then "\n" + UnBreaks(s[4..])
    else [s[0]] + UnBreaks(s[1..])
  }

  /** Text in which `<br>` occurs nowhere. */
  predicate NoBrTag(s: string) {
    |s| == 0 || (!StartsWith(s, "<br>") && NoBrTag(s[1..]))
  }

  /** A prefix of the markup with no '<' and no line feed was already a prefix of the text. */
  lemma {:induction false} BreaksPrefix(s: string, p: string)
    requires '\n' !in p && '<' !in p && StartsWith(Breaks(s), p)
    ensures StartsWith(s, p)
    decreases |p|
  {
    if |p| > 0 {
      var b := Breaks(s);
      assert b[0] == p[0];
      assert |s| > 0;
      assert s[0] != '\n';
      assert b == [s[0]] + Breaks(s[1..]);
      assert Breaks(s[1..])[..|p| - 1] == b[1..|p|] == p[1..];
      NotInTail(p, '\n');
      NotInTail(p, '<');
      BreaksPrefix(s[1..], p[1..]);
      assert s[..|p|] == [s[0]] + s[1..][..|p| - 1];
    }
  }

  /** Reading the markup back gives the text, whenever the text did not itself hold `<br>`. */
  lemma {:induction false} UnBreaksBreaks(s: string)
    requires NoBrTag(s)
    ensures UnBreaks(Breaks(s)) == s
    decreases |s|
  {
    if |s| > 0 {
      var b := Breaks(s);
      UnBreaksBreaks(s[1..]);
      if s[0] == '\n' {
        assert b == "<br>" + Breaks(s[1..]);
        assert b[..4] == "<br>" && b[4..] == Breaks(s[1..]);
      } else {
        assert b == [s[0]] + Breaks(s[1..]);
        if StartsWith(b, "<br>") {
          assert Breaks(s[1..])[..3] == b[1..4] == "br>";
          BreaksPrefix(s[1..], "br>");
          assert false;
        }
        assert b[1..] == Breaks(s[1..]);
      }
    }
  }

  /** Text that already held `<br>` cannot be told apart from a line feed after the replacement. */
  lemma BreaksLossy()
    ensures Breaks("\n") == Breaks("<br>") == "<br>"
  {
    assert "\n"[1..] == [];
    assert "<br>"[0] == '<' && "<br>"[1] == 'b' && "<br>"[2] == 'r' && "<br>"[3] == '>';
  }

  /**
   * Where the lazy group of `\*\*(.+?)\*\*` closes when the candidate group ends before `j`:
   * the first `j` whose preceding character is matchable and that starts a "**".
   */
  function BoldClose(s: string, j: nat): (r: Option<nat>)
    requires j >= 1
    ensures r.Some? ==> j <= r.value && r.value + 2 <= |s| && s[r.value] == '*' && s[r.value + 1] == '*'
    ensures r.Some? ==> forall i :: j - 1 <= i < r.value ==> !IsJsLineTerminator(s[i])
    decreases |s| - j
  {
    if j > |s| || IsJsLineTerminator(s[j - 1]) then None
    else if j + 2 <= |s| && s[j] == '*' && s[j + 1] == '*' then Some(j)
    else BoldClose(s, j + 1)
  }

  /** `**x**` with a non-empty `x` starts at the front of `s`. */
  predicate BoldHere(s: string) {
    |s| >= 3 && s[0] == '*' && s[1] == '*' && BoldClose(s, 3).Some?
  }

  predicate HasBold(s: string) {
    |s| > 0 && (BoldHere(s) || HasBold(s[1..]))
  }

  /** Every match of `\*\*(.+?)\*\*`, left to right, becomes `<strong>$1</strong>`. */
  function Bold(s: string): (r: string)
    ensures '\n' !in s ==> '\n' !in r
    ensures |r| >= |s|
    ensures HasBold(s) ==> |r| > |s|
    decreases |s|
  {
    if |s| == 0 then ""
    else if BoldHere(s) then
      var j := BoldClose(s, 3).value;
      assert forall i :: 0 <= i < j - 2 ==> s[2..j][i] == s[i + 2];
      "<strong>" + s[2..j] + "</strong>" + Bold(s[j + 2..])
    else [s[0]] + Bold(s[1..])
  }

  /** The bold pass changes the text exactly when it finds some `**x**`. */
  lemma {:induction false} BoldUnchangedIff(s: string)
    ensures Bold(s) == s <==> !HasBold(s)
    decreases |s|
  {
    if |s| > 0 && !BoldHere(s) {
      BoldUnchangedIff(s[1..]);
      if Bold(s[1..]) == s[1..] {
        assert [s[0]] + s[1..] == s;
      }
      if Bold(s) == s {
        assert Bold(s)[1..] == Bold(s[1..]);
      }
    }
  }

  /** `formatText(text)`: a falsy text (missing or empty) is ''. */
  function FormatText(text: Option<string>): (r: string)
    ensures text.None? || text == Some("") ==> r == ""
    ensures text.Some? && text.value != "" ==> r == Bold(Breaks(text.value))
    ensures '\n' !in r
    ensures text.Some? ==> |r| >= |text.value|
  {
    if text.None? || text.value == "" then "" else Bold(Breaks(text.value))
  }

  /** A text with neither a line break nor a `**x**` is shown as it is. */
  lemma FormatPlain(s: string)
    requires '\n' !in s && !HasBold(s)
    ensures FormatText(Some(s)) == s
  {
    BoldUnchangedIff(s);
  }

  // ---------------------------------------------------------------- the count-down clock

  function Abs(x: int): nat {
    if x < 0 then -x else x
  }

  /** Minutes padded to `minuteWidth` digits, ':', and seconds padded to two digits. */
  function MinSec(minutes: nat, seconds: nat, minuteWidth: nat): string {
    PadStart(NatToString(minutes), minuteWidth, '0') + ":" + PadStart(NatToString(seconds), 2, '0')
  }

  /** The clock's digits for `a` seconds. */
  function ClockBody(a: nat, minuteWidth: nat): string {
    MinSec(a / 60, a % 60, minuteWidth)
  }

  /** The clock text: '-' when time is over, then the minutes and seconds of the absolute value. */
  function Clock(seconds: int, minuteWidth: nat): (r: string)
    ensures (|r| > 0 && r[0] == '-') <==> seconds < 0
  {
    BodyReads(Abs(seconds), minuteWidth);
    (if seconds < 0 then "-" else "") + ClockBody(Abs(seconds), minuteWidth)
  }

  /** The first position of `c` in `s`. */
  function IndexOf(s: string, c: char): (r: Option<nat>)
    ensures r.Some? ==> r.value < |s| && s[r.value] == c
  {
    if |s| == 0 then None
    else if s[0] == c then Some(0)
    else match IndexOf(s[1..], c)
      case None => None
      case Some(i) => Some(i + 1)
  }

  /** A `c` at `k` with none before it is what `IndexOf` finds. */
  lemma {:induction false} IndexOfFirst(s: string, c: char, k: nat)
    requires k < |s| && s[k] == c && c !in s[..k]
    ensures IndexOf(s, c) == Some(k)
    decreases k
  {
    if k > 0 {
      assert s[..k][0] == s[0];
      assert s[1..][..k - 1] == s[1..k];
      IndexOfFirst(s[1..], c, k - 1);
    }
  }

  /** Reading a clock text back: an optional '-', minutes, ':', seconds. */
  function ParseClock(t: string): Option<int> {
    var neg := |t| > 0 && t[0] == '-';
    var body := if neg then t[1..] else t;
    match ParseBody(body)
    case None => None
    case Some(v) =>
      var n: int := v;
      Some(if neg then -n else n)
  }

  /** Minutes, ':', seconds, as a number of seconds. */
  function ParseBody(body: string): Option<nat> {
    match IndexOf(body, ':')
    case None => None
    case Some(i) =>
      if AllDigits(body[..i]) && AllDigits(body[i + 1..]) then Some(ParseNat(body[..i]) * 60 + ParseNat(body[i + 1..]))
      else None
  }

  /** Digits, ':', digits reads back as minutes and seconds. */
  lemma ParseBodyOf(m: string, sec: string, body: string)
    requires AllDigits(m) && AllDigits(sec) && body == m + ":" + sec
    ensures ParseBody(body) == Some(ParseNat(m) * 60 + ParseNat(sec))
  {
    ColonAfterDigits(m, sec);
    var l := body[..|m|];
    var r := body[|m| + 1..];
    assert l == m;
    assert r == sec;
    ParseBodyAt(body, |m|);
    assert ParseBody(body) == Some(ParseNat(l) * 60 + ParseNat(r));
  }

  /** The first ':' after a run of digits is the one right after it. */
  lemma ColonAfterDigits(m: string, sec: string)
    requires AllDigits(m)
    ensures IndexOf(m + ":" + sec, ':') == Some(|m|)
  {
    var body := m + ":" + sec;
    assert ':' !in m by {
      forall i | 0 <= i < |m| ensures m[i] != ':' {
        assert IsDigit(m[i]);
      }
    }
    assert body[..|m|] == m;
    IndexOfFirst(body, ':', |m|);
  }

  lemma ParseBodyAt(body: string, i: nat)
    requires IndexOf(body, ':') == Some(i) && AllDigits(body[..i]) && AllDigits(body[i + 1..])
    ensures ParseBody(body) == Some(ParseNat(body[..i]) * 60 + ParseNat(body[i + 1..]))
  {
  }

  lemma DivMod60(a: nat)
    ensures (a / 60) * 60 + a % 60 == a
  {
  }

  /** Digits, ':', digits reads back as the seconds the two parts stand for. */
  lemma ParseBodyValues(m: string, sec: string, body: string, total: nat)
    requires AllDigits(m) && AllDigits(sec) && body == m + ":" + sec
    requires ParseNat(m) * 60 + ParseNat(sec) == total
    ensures ParseBody(body) == Some(total)
  {
    ParseBodyOf(m, sec, body);
  }

  /** Minutes and seconds read back as the seconds they stand for. */
  lemma MinSecParses(minutes: nat, seconds: nat, minuteWidth: nat, total: nat)
    requires minutes * 60 + seconds == total
    ensures ParseBody(MinSec(minutes, seconds, minuteWidth)) == Some(total)
  {
    var m := PadStart(NatToString(minutes), minuteWidth, '0');
    var sec := PadStart(NatToString(seconds), 2, '0');
    ParsePadded(minutes, minuteWidth);
    ParsePadded(seconds, 2);
    ParseBodyValues(m, sec, MinSec(minutes, seconds, minuteWidth), total);
  }

  /** A clock body reads back as the seconds it was computed from. */
  lemma BodyParses(a: nat, minuteWidth: nat)
    ensures ParseBody(ClockBody(a, minuteWidth)) == Some(a)
  {
    DivMod60(a);
    MinSecParses(a / 60, a % 60, minuteWidth, a);
  }

  /** A clock body starts with a minute digit. */
  lemma BodyStartsWithDigit(a: nat, minuteWidth: nat)
    ensures |ClockBody(a, minuteWidth)| > 0 && IsDigit(ClockBody(a, minuteWidth)[0])
  {
    var m := PadStart(NatToString(a / 60), minuteWidth, '0');
    ParsePadded(a / 60, minuteWidth);
    assert ClockBody(a, minuteWidth)[0] == m[0];
  }

  /** The body of a clock reads back as its seconds and does not start with '-'. */
  lemma BodyReads(a: nat, minuteWidth: nat)
    ensures ParseBody(ClockBody(a, minuteWidth)) == Some(a)
    ensures |ClockBody(a, minuteWidth)| > 0 && ClockBody(a, minuteWidth)[0] != '-'
  {
    BodyParses(a, minuteWidth);
    BodyStartsWithDigit(a, minuteWidth);
  }

  /** A clock text always reads back as the seconds it shows. */
  lemma ClockRoundTrip(seconds: int, minuteWidth: nat)
    ensures ParseClock(Clock(seconds, minuteWidth)) == Some(seconds)
  {
    var body := ClockBody(Abs(seconds), minuteWidth);
    BodyReads(Abs(seconds), minuteWidth);
    var t := Clock(seconds, minuteWidth);
    if seconds < 0 {
      assert t == "-" + body;
      assert t[1..] == body;
    } else {
      assert t == body;
    }
  }

  /** The seconds part is always exactly two digits. */
  lemma SecondsTwoDigits(n: nat)
    requires n < 60
    ensures |PadStart(NatToString(n), 2, '0')| == 2
  {
    AtMostTwoDigits(n);
  }

  /** Numbers below a hundred have at most two digits. */
  lemma AtMostTwoDigits(n: nat)
    requires n < 100
    ensures |NatToString(n)| <= 2
  {
    if n >= 10 {
      var q := n / 10;
      assert q < 10;
      assert |NatToString(q)| == 1;
    }
  }

  datatype Colour = Normal | Warning | Danger

  /** How urgent a colour is; a lower clock never shows a calmer colour. */
  function Urgency(c: Colour): nat {
    match c
    case Normal => 0
    case Warning => 1
    case Danger => 2
  }

  /** `updateTimer`'s class: danger at or below zero or the danger time, else warning up to the warning time. */
  function TimerColour(seconds: int, dangerTime: int, warningTime: int): (r: Colour)
    ensures r == Danger <==> seconds <= 0 || seconds <= dangerTime
    ensures r == Warning <==> 0 < seconds && dangerTime < seconds <= warningTime
  {
    if seconds <= 0 then Danger
    else if seconds <= dangerTime then Danger
    else if seconds <= warningTime then Warning
    else Normal
  }

  /** Less time left never means a calmer colour, whatever the two thresholds are. */
  lemma ColourMonotone(s1: int, s2: int, dangerTime: int, warningTime: int)
    requires s1 <= s2
    ensures Urgency(TimerColour(s1, dangerTime, warningTime)) >= Urgency(TimerColour(s2, dangerTime, warningTime))
  {
  }
}

=== FILE: users.dfy ===
/**
 * `UserService`: the Firebase identity of a Wix member, the member sync and delete writes, and
 * the statistics kept per test and per user after a graded test.
 */
module Users {
  import opened Wrappers
  import opened Json
  import opened Text
  import opened ODict
  import opened Tally
  import opened Grading
  import opened Decimal

  /** The `users` collection. */
  type UserStore = map<string, Doc>

  /** The Firebase uid of a Wix member. */
  function WixUid(wixId: string): (r: string)
    ensures StartsWith(r, "wix_") && r[4..] == wixId
  {
    "wix_" + wixId
  }

  /**
   * Python's `str()` of a member id as the f-string `wix_{id}` spells it: a string as it is, an
   * integer in decimal with its sign, a boolean as `True`/`False`, None as `None`. Lists and
   * objects are not modelled.
   */
  function IdText(v: Value): (r: Option<string>)
    ensures v.Str? ==> r == Some(v.s)
    ensures v.Int? ==> r.Some? && (v.i >= 0 ==> r.value == NatToString(v.i)) && (v.i < 0 ==> r.value == "-" + NatToString(-v.i))
    ensures r.None? <==> v.List? || v.Obj? || v.ServerTime?
  {
    match v
    case Str(t) => Some(t)
    case Int(i) => Some(if i >= 0 then NatToString(i) else "-" + NatToString(-i))
    case Bool(b) => Some(if b then "True" else "False")
    case Null => Some("None")
    case _ => None
  }

  /** A numeric member id and its decimal text name the same Firebase user. */
  lemma NumericIdSharesUid(n: nat)
    ensures IdText(Int(n)).Some? && IdText(Int(n)) == IdText(Str(NatToString(n)))
    ensures WixUid(IdText(Int(n)).value) == "wix_" + NatToString(n)
  {
  }

  /** Different members get different uids. */
  lemma WixUidInjective(a: string, b: string)
    requires WixUid(a) == WixUid(b)
    ensures a == b
  {
    assert a == WixUid(a)[4..] == WixUid(b)[4..] == b;
  }

  /** How `auth.create_user` ended: a new user, an existing uid (then updated, failures ignored), or another error. */
  datatype CreateOutcome = CreatedUser | UidExists | CreateFailed(message: string)

  /** `set(data, merge=True)`: the given fields overwrite, every other stored field stays. */
  function Merge(prior: Option<Doc>, fields: Doc): (r: Doc)
    ensures forall k :: k in fields ==> k in r && r[k] == fields[k]
    ensures forall k :: k !in fields ==> (k in r <==> prior.Some? && k in prior.value)
    ensures forall k :: k !in fields && k in r ==> r[k] == prior.value[k]
  {
    prior.GetOr(map[]) + fields
  }

  function Lookup(users: UserStore, uid: string): Option<Doc> {
    if uid in users then Some(users[uid]) else None
  }

  /**
   * `sync_wix_user`: the stored profile after the sync, and the uid; `created_at` is stamped only
   * for a new member. `wixId` is the text of the member id `rawId`, which is stored as given.
   */
  function SyncWixUser(users: UserStore, wixId: string, rawId: Value, email: Value, eventType: string, auth: CreateOutcome)
    : (r: Result<(UserStore, string), string>)
    ensures auth.CreateFailed? <==> r.Err?
    ensures r.Ok? ==> r.value.1 == WixUid(wixId) && WixUid(wixId) in r.value.0
    ensures r.Ok? ==> var d := r.value.0[WixUid(wixId)];
      && "wix_user_id" in d && d["wix_user_id"] == rawId
      && "email" in d && d["email"] == email
      && "sync_status" in d && d["sync_status"] == Str("synced")
      && ("created_at" in d <==> eventType == "created" || (WixUid(wixId) in users && "created_at" in users[WixUid(wixId)]))
    ensures r.Ok? ==> forall u :: u != WixUid(wixId) ==> (u in r.value.0 <==> u in users) && (u in users ==> r.value.0[u] == users[u])
  {
    if auth.CreateFailed? then Err(auth.message)
    else
      var uid := WixUid(wixId);
      var fields := map["wix_user_id" := rawId, "email" := email, "sync_status" := Str("synced"), "last_synced" := ServerTime];
      var fields' := if eventType == "created" then fields["created_at" := ServerTime] else fields;
      Ok((users[uid := Merge(Lookup(users, uid), fields')], uid))
  }

  /** How `auth.delete_user` ended. */
  datatype DeleteOutcome = DeletedUser | UserNotFound | DeleteFailed

  /** `delete_wix_user`: the profile is kept and marked deleted; only an unexpected auth error fails. */
  function DeleteWixUser(users: UserStore, wixId: string, auth: DeleteOutcome): (r: (UserStore, bool))
    ensures r.1 <==> !auth.DeleteFailed?
    ensures !r.1 ==> r.0 == users
    ensures r.1 ==> WixUid(wixId) in r.0 && "sync_status" in r.0[WixUid(wixId)] && r.0[WixUid(wixId)]["sync_status"] == Str("deleted")
    ensures r.1 ==> forall k :: k in Lookup(users, WixUid(wixId)).GetOr(map[]) && k != "sync_status" && k != "deleted_at" ==>
      k in r.0[WixUid(wixId)] && r.0[WixUid(wixId)][k] == users[WixUid(wixId)][k]
  {
    if auth.DeleteFailed? then (users, false)
    else
      var uid := WixUid(wixId);
      (users[uid := Merge(Lookup(users, uid), map["sync_status" := Str("deleted"), "deleted_at" := ServerTime])], true)
  }

  // ---------------------------------------------------------------- per-test summaries

  /** The categories of the results whose correctness is `correct`, each once, in first-seen order. */
  function CategoriesFrom(results: seq<GradedResult>, correct: bool, seen: seq<Value>): (r: seq<Value>)
    decreases |results|
  {
    if |results| == 0 then seen
    else
      var c := results[0].category;
      CategoriesFrom(results[1..], correct, if results[0].isCorrect == correct && c !in seen then seen + [c] else seen)
  }

  predicate NoRepeats(s: seq<Value>) {
    forall i, j :: 0 <= i < j < |s| ==> s[i] != s[j]
  }

  /** Deduplication keeps every category once and invents none. */
  lemma {:induction false} CategoriesFromContents(results: seq<GradedResult>, correct: bool, seen: seq<Value>)
    requires NoRepeats(seen)
    ensures var r := CategoriesFrom(results, correct, seen);
      && NoRepeats(r)
      && |seen| <= |r| && r[..|seen|] == seen
      && forall v :: v in r <==> v in seen || exists i :: 0 <= i < |results| && results[i].isCorrect == correct && results[i].category == v
    decreases |results|
  {
    if |results| > 0 {
      var c := results[0].category;
      var seen' := if results[0].isCorrect == correct && c !in seen then seen + [c] else seen;
      CategoriesFromContents(results[1..], correct, seen');
      var r := CategoriesFrom(results, correct, seen);
      assert r[..|seen'|] == seen';
      assert r[..|seen|] == seen'[..|seen|] == seen;
      forall v ensures v in r <==> v in seen || exists i :: 0 <= i < |results| && results[i].isCorrect == correct && results[i].category == v {
        if exists i :: 0 <= i < |results[1..]| && results[1..][i].isCorrect == correct && results[1..][i].category == v {
          var i :| 0 <= i < |results[1..]| && results[1..][i].isCorrect == correct && results[1..][i].category == v;
          assert results[i + 1] == results[1..][i];
        }
        if exists i :: 0 <= i < |results| && results[i].isCorrect == correct && results[i].category == v {
          var i :| 0 <= i < |results| && results[i].isCorrect == correct && results[i].category == v;
          if i > 0 {
            assert results[1..][i - 1] == results[i];
          }
        }
      }
    }
  }

  /** The weak (wrong) and strong (right) category lists of a test. */
  function WeakCategories(results: seq<GradedResult>): seq<Value> {
    CategoriesFrom(results, false, [])
  }

  function StrongCategories(results: seq<GradedResult>): seq<Value> {
    CategoriesFrom(results, true, [])
  }

  /** Weak categories are exactly those of some wrong answer, without repeats; likewise strong for right answers. */
  lemma WeakStrongContents(results: seq<GradedResult>)
    ensures NoRepeats(WeakCategories(results)) && NoRepeats(StrongCategories(results))
    ensures forall v :: v in WeakCategories(results) <==> exists i :: 0 <= i < |results| && !results[i].isCorrect && results[i].category == v
    ensures forall v :: v in StrongCategories(results) <==> exists i :: 0 <= i < |results| && results[i].isCorrect && results[i].category == v
  {
    CategoriesFromContents(results, false, []);
    CategoriesFromContents(results, true, []);
  }

  /** A category answered both right and wrong is both weak and strong. */
  lemma BothWeakAndStrong(a: GradedResult, b: GradedResult)
    requires !a.isCorrect && b.isCorrect && a.category == b.category
    ensures a.category in WeakCategories([a, b]) && a.category in StrongCategories([a, b])
  {
    WeakStrongContents([a, b]);
    assert [a, b][0] == a && [a, b][1] == b;
  }

  /** How many results are correct. */
  function CorrectCount(results: seq<GradedResult>): (n: nat)
    ensures n <= |results|
  {
    if |results| == 0 then 0 else (if results[0].isCorrect then 1 else 0) + CorrectCount(results[1..])
  }

  /** No result is counted correct exactly when every result is wrong. */
  lemma {:induction false} CorrectCountZero(results: seq<GradedResult>)
    ensures CorrectCount(results) == 0 <==> forall i :: 0 <= i < |results| ==> !results[i].isCorrect
  {
    if |results| > 0 {
      CorrectCountZero(results[1..]);
      assert forall i :: 1 <= i < |results| ==> results[1..][i - 1] == results[i];
    }
  }

  /** `correct / total * 100` in exact arithmetic: a share of a hundred. */
  function Percent(correct: nat, total: nat): (r: real)
    requires 0 < total && correct <= total
    ensures r * (total as real) == 100.0 * (correct as real)
    ensures 0.0 <= r <= 100.0
  {
    (correct as real) / (total as real) * 100.0
  }

  /** The score of a test: its percentage of correct answers, 0 for an empty test. */
  function ScorePercent(results: seq<GradedResult>): (r: real)
    ensures |results| == 0 ==> r == 0.0
    ensures |results| > 0 ==> r * (|results| as real) == 100.0 * (CorrectCount(results) as real)
    ensures 0.0 <= r <= 100.0
  {
    if |results| == 0 then 0.0 else Percent(CorrectCount(results), |results|)
  }

  /** The `test_history` document written by `save_test_result`. */
  datatype TestHistory = TestHistory(
    problems: seq<Value>, answers: seq<(Value, Value)>, outcomes: seq<(Value, bool)>,
    score: real, weak: seq<Value>, strong: seq<Value>, timeSpent: Value, isOvertime: Value, analysis: string)

  /** `{r['id']: f(r) for r in results}`: a later duplicate id overwrites in place. */
  function ByIdAnswers(results: seq<GradedResult>, acc: seq<(Value, Value)>): seq<(Value, Value)>
    decreases |results|
  {
    if |results| == 0 then acc else ByIdAnswers(results[1..], Put(acc, results[0].id, results[0].userAnswer))
  }

  function ByIdOutcomes(results: seq<GradedResult>, acc: seq<(Value, bool)>): seq<(Value, bool)>
    decreases |results|
  {
    if |results| == 0 then acc else ByIdOutcomes(results[1..], Put(acc, results[0].id, results[0].isCorrect))
  }

  function ResultIds(results: seq<GradedResult>): (r: seq<Value>)
    ensures |r| == |results| && forall i :: 0 <= i < |results| ==> r[i] == results[i].id
  {
    if |results| == 0 then [] else [results[0].id] + ResultIds(results[1..])
  }

  /** `save_test_result` without the write: the document it stores. */
  function SaveTestResult(results: seq<GradedResult>, analysis: string, timeInfo: Doc): (r: TestHistory)
    ensures r.problems == ResultIds(results)
    ensures |results| == 0 ==> r.score == 0.0
    ensures |results| > 0 ==> r.score * (|results| as real) == 100.0 * (CorrectCount(results) as real)
    ensures r.weak == WeakCategories(results) && r.strong == StrongCategories(results)
  {
    TestHistory(ResultIds(results), ByIdAnswers(results, []), ByIdOutcomes(results, []), ScorePercent(results),
                WeakCategories(results), StrongCategories(results),
                GetOr(timeInfo, "total_time_spent", Int(0)), GetOr(timeInfo, "is_overtime", Bool(false)), analysis)
  }

  /** Correct?-marks keyed by category: the input of the per-category tally. */
  function CategoryMarks(results: seq<GradedResult>): (r: seq<(Value, bool)>)
    ensures |r| == |results|
    ensures forall i :: 0 <= i < |results| ==> r[i] == (results[i].category, results[i].isCorrect)
  {
    if |results| == 0 then [] else [(results[0].category, results[0].isCorrect)] + CategoryMarks(results[1..])
  }

  /** What `complete_test_session` writes to the session, with the category tally it computes. */
  datatype SessionSummary = SessionSummary(
    totalProblems: nat, correctCount: nat, score: real, weak: seq<Value>, strong: seq<Value>,
    categoryStats: seq<(Value, Counter)>, analysis: string)

  function CompleteTestSession(results: seq<GradedResult>, analysis: string): (r: SessionSummary)
    ensures r.totalProblems == |results| && r.correctCount == CorrectCount(results)
    ensures |results| == 0 ==> r.score == 0.0
    ensures r.weak == WeakCategories(results) && r.strong == StrongCategories(results)
  {
    SessionSummary(|results|, CorrectCount(results), ScorePercent(results), WeakCategories(results),
                   StrongCategories(results), TallyFrom([], CategoryMarks(results)), analysis)
  }

  lemma {:induction false} CorrectCountMarks(results: seq<GradedResult>)
    ensures CorrectCount(results) == CountCorrect(CategoryMarks(results))
  {
    if |results| > 0 {
      assert CategoryMarks(results)[1..] == CategoryMarks(results[1..]);
      CorrectCountMarks(results[1..]);
    }
  }

  /** The category tally counts every answer once: totals add up, each counter is sound, keys are distinct. */
  lemma SessionCategoryTotals(results: seq<GradedResult>, analysis: string)
    ensures var s := CompleteTestSession(results, analysis);
      && SumTotals(s.categoryStats) == |results|
      && SumCorrect(s.categoryStats) == s.correctCount
      && WellFormed(s.categoryStats) && Distinct(s.categoryStats)
  {
    TallySums([], CategoryMarks(results));
    TallyWellFormed([], CategoryMarks(results));
    TallyDistinct([], CategoryMarks(results));
    CorrectCountMarks(results);
  }

  // ---------------------------------------------------------------- lifetime statistics

  /** One per-category or per-difficulty entry of the lifetime statistics. */
  datatype Stat = Stat(total: nat, correct: nat, accuracy: real)

  /** The `stats` map of a user document, with a missing entry read as its default. */
  datatype UserStats = UserStats(
    totalTests: nat, totalProblems: nat, totalCorrect: nat,
    categoryStats: seq<(Value, Stat)>, difficultyStats: seq<(Value, Stat)>,
    recentScores: seq<real>)

  /** The stats of a user who has none yet. */
  const NoStats: UserStats := UserStats(0, 0, 0, [], [], [])

  /** One answer counted under `key`; the accuracy of that key is recomputed. */
  function BumpStat(d: seq<(Value, Stat)>, key: Value, isCorrect: bool): (r: seq<(Value, Stat)>)
    ensures Find(r, key).Some?
    ensures var s := Find(r, key).value;
      && s.total == Find(d, key).GetOr(Stat(0, 0, 0.0)).total + 1
      && s.correct == Find(d, key).GetOr(Stat(0, 0, 0.0)).correct + (if isCorrect then 1 else 0)
      && s.accuracy == (s.correct as real) / (s.total as real)
  {
    var s := Find(d, key).GetOr(Stat(0, 0, 0.0));
    var total := s.total + 1;
    var correct := s.correct + if isCorrect then 1 else 0;
    Put(d, key, Stat(total, correct, (correct as real) / (total as real)))
  }

  /** The category and difficulty tables after counting every result. */
  function CountResults(cats: seq<(Value, Stat)>, diffs: seq<(Value, Stat)>, results: seq<GradedResult>)
    : (r: (seq<(Value, Stat)>, seq<(Value, Stat)>))
    decreases |results|
  {
    if |results| == 0 then (cats, diffs)
    else
      var res := results[0];
      // Graded results carry no difficulty, so `result.get('difficulty', 'Medium')` is always Medium.
      CountResults(BumpStat(cats, res.category, res.isCorrect), BumpStat(diffs, Str("Medium"), res.isCorrect), results[1..])
  }

  /** The entry under a key, a missing one read as the zero entry `{'total': 0, 'correct': 0}`. */
  function StatOf(d: seq<(Value, Stat)>, key: Value): Stat {
    Find(d, key).GetOr(Stat(0, 0, 0.0))
  }

  /** How many results are filed under category `c`. */
  function InCategory(results: seq<GradedResult>, c: Value): (n: nat)
    ensures n <= |results|
  {
    if |results| == 0 then 0 else (if results[0].category == c then 1 else 0) + InCategory(results[1..], c)
  }

  /** How many results are filed under category `c` and correct. */
  function CorrectInCategory(results: seq<GradedResult>, c: Value): (n: nat)
    ensures n <= InCategory(results, c)
  {
    if |results| == 0 then 0
    else (if results[0].category == c && results[0].isCorrect then 1 else 0) + CorrectInCategory(results[1..], c)
  }

  /** Counting one answer under a key leaves every other key's entry as it was. */
  lemma BumpStatOthers(d: seq<(Value, Stat)>, key: Value, isCorrect: bool, k: Value)
    requires k != key
    ensures Find(BumpStat(d, key, isCorrect), k) == Find(d, k)
  {
    var s := Find(d, key).GetOr(Stat(0, 0, 0.0));
    var correct := s.correct + if isCorrect then 1 else 0;
    var st := Stat(s.total + 1, correct, (correct as real) / ((s.total + 1) as real));
    assert BumpStat(d, key, isCorrect) == Put(d, key, st);
    PutKeepsOthers(d, key, st, k);
  }

  /**
   * The per-category counters after counting a test: category `c` gains one answer per
   * result filed under it and one correct answer per correct such result, and a category
   * no result names keeps its entry.
   */
  lemma {:induction false} CountCategories(cats: seq<(Value, Stat)>, diffs: seq<(Value, Stat)>, results: seq<GradedResult>, c: Value)
    ensures var r := CountResults(cats, diffs, results).0;
      && StatOf(r, c).total == StatOf(cats, c).total + InCategory(results, c)
      && StatOf(r, c).correct == StatOf(cats, c).correct + CorrectInCategory(results, c)
      && (InCategory(results, c) == 0 ==> Find(r, c) == Find(cats, c))
    decreases |results|
  {
    if |results| > 0 {
      var res := results[0];
      CountCategories(BumpStat(cats, res.category, res.isCorrect), BumpStat(diffs, Str("Medium"), res.isCorrect), results[1..], c);
      if res.category != c {
        BumpStatOthers(cats, res.category, res.isCorrect, c);
      }
    }
  }

  /**
   * The per-difficulty counters after counting a test: graded results carry no difficulty,
   * so "Medium" gains every result and every correct one, and every other difficulty is
   * untouched.
   */
  lemma {:induction false} CountDifficulties(cats: seq<(Value, Stat)>, diffs: seq<(Value, Stat)>, results: seq<GradedResult>, k: Value)
    ensures var r := CountResults(cats, diffs, results).1;
      && StatOf(r, Str("Medium")).total == StatOf(diffs, Str("Medium")).total + |results|
      && StatOf(r, Str("Medium")).correct == StatOf(diffs, Str("Medium")).correct + CorrectCount(results)
      && (k != Str("Medium") ==> Find(r, k) == Find(diffs, k))
    decreases |results|
  {
    if |results| > 0 {
      var res := results[0];
      CountDifficulties(BumpStat(cats, res.category, res.isCorrect), BumpStat(diffs, Str("Medium"), res.isCorrect), results[1..], k);
      if k != Str("Medium") {
        BumpStatOthers(diffs, Str("Medium"), res.isCorrect, k);
      }
    }
  }

  /**
   * What `update_user_stats` writes into the two tables: the stored counters plus this
   * test's answers, per category and under "Medium".
   */
  lemma UpdateCounters(stored: UserStats, results: seq<GradedResult>, newScore: real, c: Value)
    ensures var s := UpdateUserStats(Some(stored), results, newScore).value.stats;
      && StatOf(s.categoryStats, c).total == StatOf(stored.categoryStats, c).total + InCategory(results, c)
      && StatOf(s.categoryStats, c).correct == StatOf(stored.categoryStats, c).correct + CorrectInCategory(results, c)
      && (InCategory(results, c) == 0 ==> Find(s.categoryStats, c) == Find(stored.categoryStats, c))
      && StatOf(s.difficultyStats, Str("Medium")).total == StatOf(stored.difficultyStats, Str("Medium")).total + |results|
      && StatOf(s.difficultyStats, Str("Medium")).correct == StatOf(stored.difficultyStats, Str("Medium")).correct + CorrectCount(results)
      && (c != Str("Medium") ==> Find(s.difficultyStats, c) == Find(stored.difficultyStats, c))
  {
    CountCategories(stored.categoryStats, stored.difficultyStats, results, c);
    CountDifficulties(stored.categoryStats, stored.difficultyStats, results, c);
  }

  /** The last five scores, oldest first. */
  function LastFive(scores: seq<real>): (r: seq<real>)
    ensures |r| == if |scores| > 5 then 5 else |scores|
    ensures r == scores[|scores| - |r|..]
  {
    if |scores| > 5 then scores[|scores| - 5..] else scores
  }

  function Sum(xs: seq<real>): real {
    if |xs| == 0 then 0.0 else xs[0] + Sum(xs[1..])
  }

  /** `recent_scores` after appending a score: at most five, the new one last. */
  function Recent(scores: seq<real>, newScore: real): (r: seq<real>)
    ensures 1 <= |r| <= 5 && r[|r| - 1] == newScore
    ensures r == LastFive(scores + [newScore])
  {
    LastFive(scores + [newScore])
  }

  /** The arithmetic mean of a non-empty list. */
  function Mean(xs: seq<real>): (r: real)
    requires |xs| > 0
    ensures r * (|xs| as real) == Sum(xs)
  {
    Sum(xs) / (|xs| as real)
  }

  /** Weak is below 0.7; strong is 0.8 and up. */
  predicate Qualifies(st: Stat, weak: bool) {
    if weak then st.accuracy < 0.7 else st.accuracy >= 0.8
  }

  /** The weak or strong categories of a table, in table order: a category is listed exactly when its accuracy qualifies. */
  function Classify(cats: seq<(Value, Stat)>, weak: bool): (r: seq<Value>)
    ensures forall v :: v in r <==> exists i :: 0 <= i < |cats| && cats[i].0 == v && Qualifies(cats[i].1, weak)
  {
    if |cats| == 0 then []
    else
      var rest := Classify(cats[1..], weak);
      assert forall i :: 0 <= i < |cats[1..]| ==> cats[1..][i] == cats[i + 1];
      assert forall i :: 0 < i < |cats| ==> cats[i] == cats[1..][i - 1];
      if Qualifies(cats[0].1, weak) then [cats[0].0] + rest else rest
  }

  /** The classification is a filter in table order: a split of the table splits the list. */
  lemma {:induction false} ClassifyAppend(a: seq<(Value, Stat)>, b: seq<(Value, Stat)>, weak: bool)
    ensures Classify(a + b, weak) == Classify(a, weak) + Classify(b, weak)
    decreases |a|
  {
    if |a| > 0 {
      assert (a + b)[0] == a[0];
      assert (a + b)[1..] == a[1..] + b;
      ClassifyAppend(a[1..], b, weak);
    } else {
      assert a + b == b;
    }
  }

  /** The `stats` map `update_user_stats` writes. */
  datatype StatsUpdate = StatsUpdate(stats: UserStats, overallAccuracy: real, average: real, weak: seq<Value>, strong: seq<Value>)

  /** `update_user_stats`: None when the user document does not exist (nothing is written). */
  function UpdateUserStats(stored: Option<UserStats>, results: seq<GradedResult>, newScore: real): (r: Option<StatsUpdate>)
    ensures stored.None? <==> r.None?
    ensures r.Some? ==> var prior := stored.value; var s := r.value.stats;
      && s.totalTests == prior.totalTests + 1
      && s.totalProblems == prior.totalProblems + |results|
      && s.totalCorrect == prior.totalCorrect + CorrectCount(results)
      && s.recentScores == Recent(prior.recentScores, newScore)
      && r.value.average == Mean(s.recentScores)
    ensures r.Some? ==> var s := r.value.stats;
      && r.value.overallAccuracy == (if s.totalProblems > 0 then (s.totalCorrect as real) / (s.totalProblems as real) else 0.0)
      && r.value.weak == Classify(s.categoryStats, true)
      && r.value.strong == Classify(s.categoryStats, false)
  {
    match stored
    case None => None
    case Some(prior) =>
      var (cats, diffs) := CountResults(prior.categoryStats, prior.difficultyStats, results);
      var recent := Recent(prior.recentScores, newScore);
      var totalProblems := prior.totalProblems + |results|;
      var totalCorrect := prior.totalCorrect + CorrectCount(results);
      var s := UserStats(prior.totalTests + 1, totalProblems, totalCorrect, cats, diffs, recent);
      Some(StatsUpdate(s, if totalProblems > 0 then (totalCorrect as real) / (totalProblems as real) else 0.0,
                       Mean(recent), Classify(cats, true), Classify(cats, false)))
  }

  /** Every entry has seen an answer and stores its own correct/total ratio. */
  predicate Accurate(d: seq<(Value, Stat)>) {
    |d| == 0 || (0 < d[0].1.total && d[0].1.accuracy == (d[0].1.correct as real) / (d[0].1.total as real) && Accurate(d[1..]))
  }

  lemma {:induction false} PutAccurate(d: seq<(Value, Stat)>, key: Value, s: Stat)
    requires Accurate(d) && 0 < s.total && s.accuracy == (s.correct as real) / (s.total as real)
    ensures Accurate(Put(d, key, s))
  {
    if |d| > 0 {
      var r := Put(d, key, s);
      if d[0].0 == key {
        assert r[1..] == d[1..];
      } else {
        PutAccurate(d[1..], key, s);
        assert r[1..] == Put(d[1..], key, s);
      }
    }
  }

  /** Counting results keeps every stored accuracy equal to correct/total, and keys distinct. */
  lemma {:induction false} CountResultsInvariant(cats: seq<(Value, Stat)>, diffs: seq<(Value, Stat)>, results: seq<GradedResult>)
    requires Accurate(cats) && Accurate(diffs) && Distinct(cats) && Distinct(diffs)
    ensures var r := CountResults(cats, diffs, results);
      Accurate(r.0) && Accurate(r.1) && Distinct(r.0) && Distinct(r.1)
    decreases |results|
  {
    if |results| > 0 {
      var res := results[0];
      BumpStatInvariant(cats, res.category, res.isCorrect);
      BumpStatInvariant(diffs, Str("Medium"), res.isCorrect);
      CountResultsInvariant(BumpStat(cats, res.category, res.isCorrect), BumpStat(diffs, Str("Medium"), res.isCorrect), results[1..]);
    }
  }

  lemma BumpStatInvariant(d: seq<(Value, Stat)>, key: Value, isCorrect: bool)
    requires Accurate(d) && Distinct(d)
    ensures Accurate(BumpStat(d, key, isCorrect)) && Distinct(BumpStat(d, key, isCorrect))
  {
    var c := Find(d, key).GetOr(Stat(0, 0, 0.0));
    var n := c.correct + if isCorrect then 1 else 0;
    var s := Stat(c.total + 1, n, (n as real) / ((c.total + 1) as real));
    PutAccurate(d, key, s);
    PutKeepsDistinct(d, key, s);
  }

  /** From well-kept stored tables, the update's tables are well kept too. */
  lemma UpdateKeepsTables(stored: UserStats, results: seq<GradedResult>, newScore: real)
    requires Accurate(stored.categoryStats) && Accurate(stored.difficultyStats)
    requires Distinct(stored.categoryStats) && Distinct(stored.difficultyStats)
    ensures var s := UpdateUserStats(Some(stored), results, newScore).value.stats;
      Accurate(s.categoryStats) && Accurate(s.difficultyStats) && Distinct(s.categoryStats) && Distinct(s.difficultyStats)
  {
    CountResultsInvariant(stored.categoryStats, stored.difficultyStats, results);
  }

  /** No category is both weak (accuracy below 0.7) and strong (0.8 or more) in one update. */
  lemma WeakStrongDisjoint(stored: Option<UserStats>, results: seq<GradedResult>, newScore: real, v: Value)
    requires UpdateUserStats(stored, results, newScore).Some?
    requires Distinct(UpdateUserStats(stored, results, newScore).value.stats.categoryStats)
    ensures !(v in UpdateUserStats(stored, results, newScore).value.weak && v in UpdateUserStats(stored, results, newScore).value.strong)
  {
    var u := UpdateUserStats(stored, results, newScore).value;
    var cats := u.stats.categoryStats;
    if v in u.weak && v in u.strong {
      var i :| 0 <= i < |cats| && cats[i].0 == v && cats[i].1.accuracy < 0.7;
      var j :| 0 <= j < |cats| && cats[j].0 == v && cats[j].1.accuracy >= 0.8;
      DistinctSameKey(cats, i, j);
    }
  }

  /** In a table without duplicate keys, two entries with the same key are the same entry. */
  lemma DistinctSameKey(d: seq<(Value, Stat)>, i: nat, j: nat)
    requires Distinct(d) && i < |d| && j < |d| && d[i].0 == d[j].0
    ensures i == j
  {
    if i < j {
      EarlierKeyDiffers(d, i, j);
    } else if j < i {
      EarlierKeyDiffers(d, j, i);
    }
  }

  /** Entries at two different positions of a table without duplicate keys have different keys. */
  lemma {:induction false} EarlierKeyDiffers(d: seq<(Value, Stat)>, i: nat, j: nat)
    requires Distinct(d) && i < j < |d|
    ensures d[i].0 != d[j].0
  {
    var tail := d[1..];
    assert d[0].0 !in Keys(tail) && Distinct(tail);
    assert tail[j - 1] == d[j];
    if i == 0 {
      assert Keys(tail)[j - 1] == d[j].0;
    } else {
      assert tail[i - 1] == d[i];
      EarlierKeyDiffers(tail, i - 1, j - 1);
    }
  }
}

=== FILE: wix_retry.dfy ===
/**
 * The retry policy of the Wix page's calls to the backend: up to three attempts, a 4xx
 * answer or a success returned at once, 5xx answers and network failures retried after a
 * growing pause, and the message shown when all attempts fail. What each request does is an
 * oracle: `outcome(k)` is what the `k`-th attempt (from 1) got back.
 */
module WixRetry {
  import opened Wrappers
  import opened Text
  import opened Decimal

  const MaxRetries: nat := 3
  const RetryDelay: nat := 1000
  const RequestTimeout: nat := 30000

  const NetworkTimeout: string := "NETWORK_TIMEOUT"
  const NetworkError: string := "NETWORK_ERROR"
  const ServerErrorPrefix: string := "서버 에러"

  /** What one request got: a response with a status, or a thrown error with a name and a message. */
  datatype Attempt = Responded(status: nat) | Threw(name: string, message: string)

  /** `response.ok`: a 2xx status. */
  predicate IsOk(status: nat) {
    200 <= status <= 299
  }

  predicate IsClientError(status: nat) {
    400 <= status < 500
  }

  /** An attempt that ends the loop with the response in hand. */
  predicate Settles(a: Attempt) {
    a.Responded? && (IsOk(a.status) || IsClientError(a.status))
  }

  /** `fetchWithTimeout`'s error: an abort (the 30-second timer firing) becomes NETWORK_TIMEOUT. */
  function TimeoutError(a: Attempt): (m: string)
    requires a.Threw?
    ensures a.name == "AbortError" ==> m == NetworkTimeout
    ensures a.name != "AbortError" ==> m == a.message
  {
    if a.name == "AbortError" then NetworkTimeout else a.message
  }

  /** The error an unsettled attempt leaves behind: a server error for any other status, else a network error. */
  function LastError(a: Attempt): (m: string)
    requires !Settles(a)
    ensures a.Responded? ==> StartsWith(m, ServerErrorPrefix)
    ensures a.Threw? ==> m == (if TimeoutError(a) == NetworkTimeout then NetworkTimeout else NetworkError)
  {
    match a
    case Responded(status) => ServerErrorPrefix + ": " + NatToString(status)
    case Threw(_, _) => if TimeoutError(a) == NetworkTimeout then NetworkTimeout else NetworkError
  }

  /** How a call ended: with a response, or with the error thrown (none when no attempt was allowed). */
  datatype Retried = Returned(status: nat) | Thrown(message: Option<string>)

  /** The pauses before attempts 2 to `n`: 1000 ms, 2000 ms, … */
  function Pauses(n: nat): (r: seq<nat>)
    ensures |r| == if n == 0 then 0 else n - 1
    ensures forall i :: 0 <= i < |r| ==> r[i] == RetryDelay * (i + 1)
  {
    if n <= 1 then [] else Pauses(n - 1) + [RetryDelay * (n - 1)]
  }

  /** Attempts `1..n` all failed to settle. */
  predicate AllUnsettled(outcome: nat -> Attempt, n: nat) {
    forall k :: 1 <= k <= n ==> !Settles(outcome(k))
  }

  /** `fetchWithRetry`: the result, how many attempts were made, and the pauses taken between them. */
  method FetchWithRetry(outcome: nat -> Attempt, maxRetries: nat) returns (result: Retried, attempts: nat, pauses: seq<nat>)
    ensures 1 <= attempts <= maxRetries || (attempts == 0 && maxRetries == 0)
    ensures attempts >= 1 ==> AllUnsettled(outcome, attempts - 1)
    ensures result.Returned? <==> attempts >= 1 && Settles(outcome(attempts))
    ensures result.Returned? ==> result.status == outcome(attempts).status
    ensures result.Thrown? ==> attempts == maxRetries && AllUnsettled(outcome, attempts)
    ensures result.Thrown? && maxRetries > 0 ==> result.message == Some(LastError(outcome(maxRetries)))
    ensures result.Thrown? && maxRetries == 0 ==> result.message.None?
    ensures pauses == Pauses(attempts)
  {
    var lastError: Option<string> := None;
    pauses := [];
    var attempt := 1;
    while attempt <= maxRetries
      invariant 1 <= attempt <= maxRetries + 1
      invariant AllUnsettled(outcome, attempt - 1)
      invariant attempt > 1 ==> lastError == Some(LastError(outcome(attempt - 1)))
      invariant attempt == 1 ==> lastError.None?
      invariant pauses == Pauses(if attempt <= maxRetries then attempt else maxRetries)
    {
      var a := outcome(attempt);
      if Settles(a) {
        return Returned(a.status), attempt, pauses;
      }
      lastError := Some(LastError(a));
      if attempt < maxRetries {
        pauses := pauses + [RetryDelay * attempt];
      }
      attempt := attempt + 1;
    }
    result, attempts := Thrown(lastError), maxRetries;
  }

  const TimeoutText: string := "네트워크 연결이 느립니다.\n안정적인 Wi-Fi 환경에서 다시 시도해주세요."
  const NetworkText: string := "네트워크 연결에 문제가 있습니다.\n인터넷 연결을 확인하고 다시 시도해주세요."
  const ServerText: string := "서버에 일시적인 문제가 발생했습니다.\n잠시 후 다시 시도해주세요."
  const GenericText: string := "오류가 발생했습니다.\n다시 시도해주세요."

  /** `getErrorMessage`: the two network codes, then any message mentioning a server error, then the rest. */
  function ErrorMessage(message: string): (r: string)
    ensures message == NetworkTimeout ==> r == TimeoutText
    ensures message == NetworkError ==> r == NetworkText
    ensures message != NetworkTimeout && message != NetworkError ==> (r == ServerText <==> Contains(message, ServerErrorPrefix))
    ensures r == GenericText <==> message != NetworkTimeout && message != NetworkError && !Contains(message, ServerErrorPrefix)
  {
    if message == NetworkTimeout then TimeoutText
    else if message == NetworkError then NetworkText
    else if message != "" && Contains(message, ServerErrorPrefix) then ServerText
    else GenericText
  }

  /** Whatever error the retry loop throws after at least one attempt, the user gets a specific message, never the generic one. */
  lemma RetryErrorsExplained(a: Attempt)
    requires !Settles(a)
    ensures ErrorMessage(LastError(a)) != GenericText
    ensures a.Responded? ==> ErrorMessage(LastError(a)) == ServerText
  {
    var m := LastError(a);
    if a.Responded? {
      assert m[0] == m[..|ServerErrorPrefix|][0] == ServerErrorPrefix[0] != NetworkTimeout[0];
      assert ServerErrorPrefix[0] != NetworkError[0];
      assert Contains(m, ServerErrorPrefix);
    }
  }
}

=== FILE: wrappers.dfy ===
/** Failure-compatible Option and Result types shared by every module of the model. */
module Wrappers {

  /** A value that may be absent: Python's `None`, JavaScript's `null`/`undefined`. */
  datatype Option<+T> = None | Some(value: T) {

    /** The wrapped value, or `default` when absent (Python's `x if x is not None else default`). */
    function GetOr(default: T): T {
      match this
      case Some(v) => v
      case None => default
    }
  }

  /** The outcome of an operation that raises in the source: `Err` carries what was raised. */
  datatype Result<+R, +E> = Ok(value: R) | Err(error: E) {

    predicate IsFailure() {
      Err?
    }

    function PropagateFailure<U>(): Result<U, E>
      requires Err?
    {
      Err(error)
    }

    function Extract(): R
      requires Ok?
    {
      value
    }
  }
}
